=== FILE: README.md ===
# IntelliFlow core, modelled in Dafny

IntelliFlow is a support chatbot with several parts:

- a multi-hop retrieval-augmented generation (RAG) pipeline over a Neo4j knowledge graph of research papers;
- the loader that builds that graph from CSV triples;
- three tool servers: research, ServiceNow-style ticketing, and an engine database with an approval queue;
- an orchestrator that classifies each user request and routes it to one of four workflows.

This project models the decision logic of those parts as pure Dafny functions over immutable data and proves what they promise.

The RAG pipeline answers one question in five steps:

1. Entities are pulled from a language model's reply. A manual parse and then a keyword fallback are used when the reply is not a list literal.
2. The entities are widened with similar graph names.
3. Paths of up to three hops are discovered from each entity.
4. The paths are scored by similarity, boosted when short, cut at 0.3 and sorted.
5. A context of at most 50 distinct triples is assembled from them. It is back-filled with the direct relations of the five most mentioned entities.

Everything outside the program is a parameter of the model:

- language-model replies (`LlmReply`) and JSON or literal parsers;
- graph queries (`Fetch`, either complete or interrupted by an exception);
- embeddings (a similarity function);
- `hash`, `uuid` and the clock.

Modules follow the source: `ReasoningPaths`, `PathRanking`, `ContextAssembly`, `EntityExtraction` and `RagQuery` for the pipeline; `GraphBuild` and `GraphStandardize` for the loader; `ResearchServer`, `TicketStore` and `DatabaseServer` for the servers; `IntentRouting` and `ChatbotWorkflow` for the chatbot. `Common`, `Text`, `StableSort` and `LlmText` hold the shared pieces:

- Python's `str` operations;
- the stable sort behind `sorted(..., reverse=True)` and `Counter.most_common`;
- the code-fence clean-up applied to model replies.

## Model

| member | source | states |
|---|---|---|
| ReasoningPaths.FormatPath | KnowledgeGraph/enhanced_rag_system.py:171-183 | the loop's result is the reference rendering: one `a --[rel]--> b` segment per labelled hop and `a --> b` per unlabelled one, joined by " | "; a single node renders as itself |
| ReasoningPaths.RenderEnds | KnowledgeGraph/enhanced_rag_system.py:171-183 | a path of two or more nodes renders starting at its first node and ending at its last |
| ReasoningPaths.RenderExtend | KnowledgeGraph/enhanced_rag_system.py:176-181 | one more hop appends exactly the separator, the old last node, the labelled relation and the new node to the rendering |
| ReasoningPaths.RenderTwoHops | KnowledgeGraph/enhanced_rag_system.py:171-183 | the concrete two-hop rendering is the two labelled segments joined by the path separator |
| ReasoningPaths.RenderUnlabelledHop | KnowledgeGraph/enhanced_rag_system.py:171-183 | a hop with no relation renders as a bare arrow between its two nodes |
| ReasoningPaths.SeedPaths | KnowledgeGraph/enhanced_rag_system.py:139-165 | one entity's query gives at most 20 paths and reports whether it completed |
| ReasoningPaths.SeedPathsWellFormed | KnowledgeGraph/enhanced_rag_system.py:154-165 | every path of an entity starts at that entity, ends at its last node and carries its rendering |
| ReasoningPaths.DiscoveredPathsWellFormed | KnowledgeGraph/enhanced_rag_system.py:133-169 | every discovered path is a well-formed path of one of the seed entities |
| ReasoningPaths.DiscoverBound | KnowledgeGraph/enhanced_rag_system.py:148 | discovery yields at most 20 paths per seed entity |
| ReasoningPaths.FailureStopsDiscovery | KnowledgeGraph/enhanced_rag_system.py:137-169 | a query that raises ends discovery: no later entity contributes paths |
| ReasoningPaths.DiscoverAppend | KnowledgeGraph/enhanced_rag_system.py:138-165 | while queries succeed, discovery over two entity lists is the concatenation of each |
| PathRanking.LengthMultiplier | KnowledgeGraph/enhanced_rag_system.py:204-205 | the length boost always lies in (0.7, 1.0] |
| PathRanking.MultiplierValues | KnowledgeGraph/enhanced_rag_system.py:204-205 | boosts for 0, 1, 2 and 3 hops are 1.0, 0.85, 0.8 and 0.775 |
| PathRanking.ShorterPathScoresHigher | KnowledgeGraph/enhanced_rag_system.py:204-206 | at equal positive similarity a shorter path has a strictly larger boost and score |
| PathRanking.ThreeHopThreshold | KnowledgeGraph/enhanced_rag_system.py:206-208 | a three-hop path at similarity 0.35 falls below the 0.3 cut while one at 0.5 is kept |
| PathRanking.RankPaths | KnowledgeGraph/enhanced_rag_system.py:186-214 | the ranking is a permutation of the paths scoring at least 0.3, sorted by descending score; no paths or an embedding failure give an empty ranking |
| PathRanking.RankedIff | KnowledgeGraph/enhanced_rag_system.py:195-211 | a scored path is ranked exactly when it comes from the input, carries its own score and reaches the threshold |
| PathRanking.RankingIsStable | KnowledgeGraph/enhanced_rag_system.py:211 | paths with equal scores keep their discovery order |
| StableSort.SortFacts | KnowledgeGraph/enhanced_rag_system.py:211 | the sort used for ranking and for `most_common` is descending, a permutation, and stable on ties |
| ContextAssembly.PathTriples | KnowledgeGraph/enhanced_rag_system.py:231-236 | hop i of a path gives the triple (node i, relation i, node i+1), one per hop that has a relation |
| ContextAssembly.FirstOfEachKey | KnowledgeGraph/enhanced_rag_system.py:233-240 | the case-insensitive deduplication keeps one triple per key, covers every key, and keeps only input triples |
| ContextAssembly.FirstOfEachKeyIsFirst | KnowledgeGraph/enhanced_rag_system.py:233-240 | the first triple with a given key is the one kept |
| ContextAssembly.FirstOfEachKeyPrefix | KnowledgeGraph/enhanced_rag_system.py:226-240 | deduplicating a prefix of the triples gives a prefix of the full result |
| ContextAssembly.TallyCounts | KnowledgeGraph/enhanced_rag_system.py:243-245 | the coverage count of each entity is the number of its subject or object mentions |
| ContextAssembly.TallyEntities | KnowledgeGraph/enhanced_rag_system.py:243-245 | the coverage counter holds each mentioned entity exactly once |
| ContextAssembly.TopEntitiesAreMostCommon | KnowledgeGraph/enhanced_rag_system.py:261-262 | each of the five entities taken is mentioned at least as often as any entity left out |
| ContextAssembly.TopEntitiesFromCoverage | KnowledgeGraph/enhanced_rag_system.py:261-262 | the top entities are entities of the coverage counter, reordered without loss |
| ContextAssembly.AppendNew | KnowledgeGraph/enhanced_rag_system.py:277-281 | back-filling keeps the existing context in front, and its lines are exactly the old ones and the new ones |
| ContextAssembly.AppendNewDistinct | KnowledgeGraph/enhanced_rag_system.py:280 | back-filling a context without repeats adds none |
| ContextAssembly.Assemble | KnowledgeGraph/enhanced_rag_system.py:217-281 | the context holds at most 50 lines and opens with the path triples, up to 50; below 50 lines it holds every direct relationship fetched for the five most-mentioned entities |
| ContextAssembly.AssembleReadsTopPaths | KnowledgeGraph/enhanced_rag_system.py:226 | only the 50 best-ranked paths influence the context |
| ContextAssembly.AssembleLines | KnowledgeGraph/enhanced_rag_system.py:217-283 | every context line is a path triple or a direct triple of a top-five entity |
| EntityExtraction.CleanItem | KnowledgeGraph/enhanced_rag_system.py:81-85 | a cleaned item is no longer than the raw item and has no surrounding whitespace |
| EntityExtraction.ParseManually | KnowledgeGraph/enhanced_rag_system.py:77-86 | the manual parse yields at most one entity per comma-separated item |
| EntityExtraction.ParseManuallyItems | KnowledgeGraph/enhanced_rag_system.py:80-86 | each manually parsed entity is non-empty and has no surrounding whitespace |
| EntityExtraction.ParseManuallyRoundTrip | KnowledgeGraph/enhanced_rag_system.py:77-86 | the manual parse of a quoted, comma-separated list gives back the listed names |
| EntityExtraction.BracketGroup | KnowledgeGraph/enhanced_rag_system.py:58-59 | the bracket match is a non-empty text without `]` that occurs bracketed in the reply, and there is none exactly when no such group exists |
| EntityExtraction.BracketGroupOfList | KnowledgeGraph/enhanced_rag_system.py:58-59 | a reply that is a bracketed list yields its inside |
| EntityExtraction.FallbackEntities | KnowledgeGraph/enhanced_rag_system.py:88-108 | the rule-based fallback gives at most eight distinct entities |
| EntityExtraction.FallbackEntitiesSound | KnowledgeGraph/enhanced_rag_system.py:106-107 | each fallback entity is a stripped keyword match longer than two characters |
| EntityExtraction.FallbackEntitiesComplete | KnowledgeGraph/enhanced_rag_system.py:106-108 | when fewer than eight were found, every stripped match longer than two characters is among them |
| EntityExtraction.Extract | KnowledgeGraph/enhanced_rag_system.py:34-75 | a failed model call falls back to at most eight distinct rule-based entities; only a reply can give a list that `set(...)` cannot take |
| EntityExtraction.ExtractRecoversQuotedList | KnowledgeGraph/enhanced_rag_system.py:55-66 | a quoted list that the literal parser rejects is still read back exactly by the manual parse |
| EntityExtraction.ResolveEntities | KnowledgeGraph/enhanced_rag_system.py:110-130 | the resolved entities are distinct and are exactly the query entities plus the similar graph names found before any query failed |
| Common.CollectLoop | KnowledgeGraph/enhanced_rag_system.py:113-129 | the per-entity query loop collects exactly the rows of each query up to and including the first one that raises |
| RagQuery.UnhashableMessage | KnowledgeGraph/enhanced_rag_system.py:110-112 | the `TypeError` text names `dict` or `set`, the only unhashable elements a bracket-free list body can hold |
| RagQuery.ErrorAnswer | KnowledgeGraph/enhanced_rag_system.py:374-384 | the error answer reports no entities, paths or triples, and an answer starting `Error processing query: ` |
| RagQuery.Query | KnowledgeGraph/enhanced_rag_system.py:334-384 | an entity list holding a dict or set gives the error answer naming that type; otherwise the entities used are distinct and are exactly the extracted names plus the similar graph names found, and the answer reports the ranked-path count, the five best paths and the assembled context, with counts matching the lists |
| GraphBuild.NormalizeLength | KnowledgeGraph/BuildKnowledgeGraph_Neo4j.py:25-26 | escaping adds exactly one character per single quote |
| GraphBuild.NormalizeEscapesQuotes | KnowledgeGraph/BuildKnowledgeGraph_Neo4j.py:25-26 | every quote in the escaped text is preceded by a backslash |
| GraphBuild.UnescapeNormalize | KnowledgeGraph/BuildKnowledgeGraph_Neo4j.py:25-26 | dropping the inserted backslashes recovers the original text |
| GraphBuild.KeepRelationChars | KnowledgeGraph/BuildKnowledgeGraph_Neo4j.py:31 | the filter keeps only `A-Z0-9_` and changes nothing in a text already made of them |
| GraphBuild.PredicateToRelation | KnowledgeGraph/BuildKnowledgeGraph_Neo4j.py:28-33 | every relationship type is non-empty, starts with a capital letter and uses only `A-Z0-9_` |
| GraphBuild.RelationPrefixIff | KnowledgeGraph/BuildKnowledgeGraph_Neo4j.py:32-33 | `REL_` is prefixed exactly when the sanitised predicate is empty or does not start with a letter |
| GraphBuild.PredicateToRelationIdempotent | KnowledgeGraph/BuildKnowledgeGraph_Neo4j.py:28-33 | sanitising a relationship type again leaves it unchanged |
| GraphBuild.CleanRelationOfRelation | KnowledgeGraph/BuildKnowledgeGraph_Neo4j.py:29-31 | a text of relationship characters survives strip, upper-casing, space replacement and filtering |
| GraphBuild.LimitPredicateLengthWords | KnowledgeGraph/BuildKnowledgeGraph_Neo4j.py:68-69 | the shortened predicate's words are the first five words of the original |
| GraphBuild.LimitPredicateLengthIdempotent | KnowledgeGraph/BuildKnowledgeGraph_Neo4j.py:68-69 | shortening twice is shortening once |
| GraphBuild.ClassifyRow | KnowledgeGraph/BuildKnowledgeGraph_Neo4j.py:49-64 | five or more fields give a full triple, three or four give one with `unknown` document and the row's chunk id, fewer give none |
| GraphBuild.ParseRows | KnowledgeGraph/BuildKnowledgeGraph_Neo4j.py:49-64 | no more triples than records; every record of three or more fields contributes its triple under its own row number, and every triple comes from such a record |
| GraphBuild.KeepClassifiedMembers | KnowledgeGraph/BuildKnowledgeGraph_Neo4j.py:49-64 | each record with a result contributes it under its own number, and each result comes from such a record |
| GraphBuild.KeepClassifiedAppend | KnowledgeGraph/BuildKnowledgeGraph_Neo4j.py:49-64 | classifying two runs of records gives the first run's results followed by the second's, numbered on |
| GraphBuild.ParseRowsAppend | KnowledgeGraph/BuildKnowledgeGraph_Neo4j.py:49-64 | parsing two runs of records gives the first run's triples followed by the second's, numbered on: record order is kept |
| GraphBuild.ParseRowsSingle | KnowledgeGraph/BuildKnowledgeGraph_Neo4j.py:49-64 | one record yields its own triple when it has three or more fields, and nothing otherwise |
| GraphBuild.ParseCsv | KnowledgeGraph/BuildKnowledgeGraph_Neo4j.py:35-66 | the first record is dropped exactly when the first line names `doc_id` or `subject`; the remaining records are numbered from 1, and each usable one contributes its triple |
| GraphBuild.ParseRowsKeepsLongRows | KnowledgeGraph/BuildKnowledgeGraph_Neo4j.py:49-64 | exactly the records of three or more fields yield a triple |
| GraphBuild.ParseRowsChunkId | KnowledgeGraph/BuildKnowledgeGraph_Neo4j.py:60-62 | a three-field record gets document `unknown` and the chunk id of its own row number |
| GraphStandardize.PreferTransitive | KnowledgeGraph/BuildKnowledgeGraph_Neo4j.py:92-112 | the variant preference (more mentions, then shorter, then first in name order) is transitive |
| GraphStandardize.PreferTotal | KnowledgeGraph/BuildKnowledgeGraph_Neo4j.py:92-112 | of two different variants one is always preferred |
| GraphStandardize.Best | KnowledgeGraph/BuildKnowledgeGraph_Neo4j.py:112 | the chosen form is one of the variants and no variant is preferred to it |
| GraphStandardize.BestUnique | KnowledgeGraph/BuildKnowledgeGraph_Neo4j.py:112 | only one variant has no variant preferred to it, so the choice is determined |
| GraphStandardize.Names | KnowledgeGraph/BuildKnowledgeGraph_Neo4j.py:85-88 | the names are exactly the lower-cased subjects and objects |
| GraphStandardize.AllEntities | KnowledgeGraph/BuildKnowledgeGraph_Neo4j.py:85-88 | the entity set holds each lower-cased subject and object exactly once |
| GraphStandardize.StandardForm | KnowledgeGraph/BuildKnowledgeGraph_Neo4j.py:91-114 | a standard form belongs to the entity's group and normalises like the entity |
| GraphStandardize.Standardize | KnowledgeGraph/BuildKnowledgeGraph_Neo4j.py:77-130 | no triples in gives no triples out; the output is no longer than the input, has no self-loops, and keeps every renamed input triple whose ends differ |
| GraphStandardize.StandardizeOrigin | KnowledgeGraph/BuildKnowledgeGraph_Neo4j.py:117-125 | each output triple is an input triple renamed, with a predicate of at most five words |
| GraphStandardize.SameGroupSameForm | KnowledgeGraph/BuildKnowledgeGraph_Neo4j.py:91-114 | names with the same non-empty normal form share one standard form, and no group member is preferred to it |
| GraphStandardize.EmptyNormKeepsName | KnowledgeGraph/BuildKnowledgeGraph_Neo4j.py:93-120 | a name whose normal form is empty keeps its original spelling |
| ResearchServer.HandleSearch | servers/research_mcp_server.py:89-132 | a missing query or a missing RAG system gives the matching error; otherwise the result reports the asked query, its answer and its counts, and the details, when asked for, are the entities used, the first 5 paths and the first 10 triples |
| ResearchServer.AnalysisQuestion | servers/research_mcp_server.py:162-167 | technical and comparative analyses use their own question template; any other type the comprehensive one |
| ResearchServer.HandleAnalyze | servers/research_mcp_server.py:141-184 | a missing topic or RAG system gives the matching error; otherwise the pipeline is asked the analysis question for the topic and type, and the result carries its answer, entities, counts, first 3 paths and first 5 triples |
| ResearchServer.RelationshipReport | servers/research_mcp_server.py:215-245 | the report counts every top path naming both concepts and lists exactly the first five of them in order; the supporting triples are exactly the first ten context triples naming either concept, in order; the analysis text, related entities and total path count are the answer's own |
| ResearchServer.HandleRelationships | servers/research_mcp_server.py:193-245 | missing concepts or RAG system give the matching error; with both concepts and a RAG system the result is a relationship report for the relationship question, carrying its answer, entities and path count; the connection paths are exactly the first five answer paths naming both concepts, the triples exactly the first ten naming either, and the hop limit defaults to 3 |
| ResearchServer.ConnectionPathsExact | servers/research_mcp_server.py:221-241 | the direct-connection count is the number of relevant paths, and when five or fewer exist all of them are listed |
| ResearchServer.CallTool | servers/research_mcp_server.py:56-79 | each tool name reaches its handler; an unknown or missing name gives an error listing the three tools |
| TicketStore.EmptyStore | servers/servicenow_mcp_server.py:34-37 | the store starts with no incidents and no requests |
| TicketStore.PriorityCode | servers/servicenow_mcp_server.py:75-83 | critical, high and low map to codes 1, 2 and 4 whatever their case; anything else maps to 3 |
| TicketStore.SlaResponseTime | servers/servicenow_mcp_server.py:90-95 | critical, high and low get 30 minutes, 4 hours and 72 hours whatever their case; anything else gets 24 hours |
| TicketStore.EstimatedCompletion | servers/servicenow_mcp_server.py:155-160 | critical, high and low get 4 hours, 24 hours and 5 days whatever their case; anything else gets 3 days |
| TicketStore.PriorityCodeOrdered | servers/servicenow_mcp_server.py:75-83 | a more severe priority gets a more urgent code |
| TicketStore.PriorityIgnoresCase | servers/servicenow_mcp_server.py:82-83 | priorities differing only in case get the same code, response time and estimate |
| TicketStore.TicketNumber | servers/servicenow_mcp_server.py:72 | a ticket number is the prefix followed by exactly six digits |
| TicketStore.TicketNumberDigits | servers/servicenow_mcp_server.py:72 | the six digits spell the title hash modulo 1,000,000 |
| TicketStore.CreateIncident | servers/servicenow_mcp_server.py:46-109 | a new incident gets the number `INC` followed by the hash modulo one million in six digits (nine characters), state New and the mapped priority, urgency and response time, and is stored under its number; requests are untouched |
| TicketStore.CreateServiceRequest | servers/servicenow_mcp_server.py:112-174 | a new request gets the number `REQ` followed by the hash modulo one million in six digits (nine characters), state Open, the mapped priority and estimate, and is stored under its number; incidents are untouched |
| TicketStore.GetTicketStatus | servers/servicenow_mcp_server.py:177-253 | status is found exactly for a stored number with the matching prefix, reports the stored state, and any other prefix is an invalid format |
| TicketStore.CreatedIncidentIsFound | servers/servicenow_mcp_server.py:195-222 | a created incident's status is then found as New with its priority |
| TicketStore.CreatedRequestIsFound | servers/servicenow_mcp_server.py:223-250 | a created request's status is then found as Open |
| TicketStore.GetSpecificTicket | servers/servicenow_mcp_server.py:313-336 | lookup finds the incident when the number is an incident, else the request when it is one, else reports not found |
| TicketStore.CreateIncidentTotal | servers/servicenow_mcp_server.py:310 | creating an incident raises the ticket total by one unless its number was taken |
| TicketStore.SameHashOverwrites | servers/servicenow_mcp_server.py:72-99 | two titles whose hashes agree modulo 1,000,000 share a number, and the second incident replaces the first |
| LlmText.StripCodeFence | servers/database_mcp_server.py:343-349 | an unfenced reply is only stripped, and the result never has surrounding whitespace |
| LlmText.JsonFenceStripped | servers/database_mcp_server.py:343-349 | a body fenced with ```` ```json ```` comes back exactly |
| LlmText.BareFenceStripped | servers/database_mcp_server.py:343-349 | a body fenced with bare ```` ``` ```` comes back exactly |
| LlmText.PlainReplyKept | servers/database_mcp_server.py:343-349 | a stripped reply without backquotes is kept whole |
| DatabaseServer.TextToSql | servers/database_mcp_server.py:213-384 | no client, a failed call, non-JSON text or an empty SQL each fail with confidence 0; a conversion carries the reply's SQL and its confidence, 0.7 by default |
| DatabaseServer.SameJsonSameConversion | servers/database_mcp_server.py:343-367 | replies that parse alike convert alike |
| DatabaseServer.FencedReplyConvertsLikeBare | servers/database_mcp_server.py:343-352 | a fenced JSON reply converts exactly like the bare JSON |
| DatabaseServer.FindEngine | servers/database_mcp_server.py:475-476 | the found row is an engine with that serial number, and none is found exactly when no engine has it |
| DatabaseServer.SetAttribute | servers/database_mcp_server.py:544-545 | the update sets the attribute and `last_updated` on engines with the serial only, and every other column and engine is unchanged |
| DatabaseServer.ApprovalId | servers/database_mcp_server.py:504 | an approval id is the first eight characters of the uuid |
| DatabaseServer.UpdateEngineAttribute | servers/database_mcp_server.py:469-559 | a missing engine or unknown attribute changes nothing; a sensitive attribute adds one pending approval with the old and new values and leaves the engines alone; any other is updated directly |
| DatabaseServer.Approve | servers/database_mcp_server.py:898-933 | an unknown id changes nothing and says not found; otherwise the requested change is applied and only that approval is marked approved |
| DatabaseServer.Reject | servers/database_mcp_server.py:936-950 | an unknown id changes nothing; otherwise only that approval is marked rejected and no engine changes |
| DatabaseServer.ApprovalAppliesRequestedChange | servers/database_mcp_server.py:502-540 | approving a queued request applies exactly the change that was requested |
| DatabaseServer.PendingCountAsWritten | servers/database_mcp_server.py:893 | the reported count is the number of approvals of any status |
| DatabaseServer.ApprovedStillCountedAsPending | servers/database_mcp_server.py:889-895 | approving a request leaves the reported pending count unchanged |
| DatabaseServer.PendingIds | servers/database_mcp_server.py:889-895 | exactly the ids of approvals still pending |
| DatabaseServer.PendingCount | servers/database_mcp_server.py:889-895 | the pending count never exceeds the number of approvals |
| DatabaseServer.DecisionLowersPendingCount | servers/database_mcp_server.py:898-950 | approving or rejecting a pending request lowers the pending count by one |
| DatabaseServer.GetTableData | servers/database_mcp_server.py:861-887 | a table outside the three listable ones is refused; a listable table returns its rows and their count |
| IntentRouting.IntentFromValue | src/intent_classifier.py:7-12 | a value is read as the intent that carries it, and other values are rejected |
| IntentRouting.IntentValueRoundTrip | src/intent_classifier.py:7-12 | every intent's value reads back as that intent |
| IntentRouting.ClassifyIntent | src/intent_classifier.py:62-88 | a failed call, parse or intent value gives the failure classification (unknown, 0.3); otherwise the intent is the one the reply names and confidence, reasoning, keywords and urgency indicators are the reply's |
| IntentRouting.Level | src/intent_classifier.py:380 | level is high exactly above 0.8 and low exactly at or below 0.5 |
| IntentRouting.LevelMonotone | src/intent_classifier.py:380 | higher confidence never gets a lower level |
| IntentRouting.Route | src/intent_classifier.py:384-414 | confidence below 0.5 asks for clarification; otherwise each intent goes to its handler and an unknown intent to the general fallback |
| IntentRouting.ProcessUserInput | src/intent_classifier.py:361-416 | the result carries the classification, its level and route, and a handler analysis exactly when a handler was chosen |
| IntentRouting.FailedClassificationAsksClarification | src/intent_classifier.py:80-88 | a failed classification always ends in a clarification request without analysis |
| IntentRouting.HalfConfidenceIsLowButRouted | src/intent_classifier.py:380-384 | at exactly 0.5 the level is low, yet the request still reaches its handler |
| IntentRouting.SlaTime | src/intent_classifier.py:511-518 | critical, high, medium and low get 30 minutes, 4 hours, 24 hours and 72 hours; the result is always one of these four |
| IntentRouting.SlaTimeDefault | src/intent_classifier.py:518 | an unknown severity gets the medium time |
| IntentRouting.SlaTimesDistinct | src/intent_classifier.py:512-517 | the four severities get four different times |
| ChatbotWorkflow.MentionsAny | src/complete_chatbot_workflow.py:33-37 | true exactly when some keyword occurs in the text |
| ChatbotWorkflow.FallbackIntent | src/complete_chatbot_workflow.py:31-54 | incident words win, then data words, then research words, else information; the result is never unknown |
| ChatbotWorkflow.IsMissingDataQuery | src/complete_chatbot_workflow.py:98-116 | true exactly when the lower-cased input holds one of the missing-data phrases |
| ChatbotWorkflow.AssignmentGroup | src/complete_chatbot_workflow.py:636-648 | claims beat engines beat warranty; each team is chosen exactly when its word is the first of them present |
| ChatbotWorkflow.ClaimWinsAssignment | src/complete_chatbot_workflow.py:642-643 | any input containing "claim" goes to the claims team |
| ChatbotWorkflow.DetectManipulation | src/complete_chatbot_workflow.py:193-229 | a failed call or a reply `json.loads` rejects gives the search fallback; any other reply gives exactly the JSON value parsed from its de-fenced text, object or not |
| ChatbotWorkflow.FailedDetectionSearches | src/complete_chatbot_workflow.py:218-229 | the fallback analysis is read without error and never requests approval |
| ChatbotWorkflow.ApprovalDecision | src/complete_chatbot_workflow.py:365-390 | approval is requested exactly when the analysis is an object whose manipulation and approval flags are truthy and whose approval fields are present with string operation and entity types; a search exactly when the operation type and manipulation flag are present and either flag read is falsy; any other analysis raises |
| ChatbotWorkflow.CompleteAnalysisIsRead | src/complete_chatbot_workflow.py:365-390 | an analysis holding every key read, with string operation and entity types, never raises and asks approval exactly when both flags are truthy |
| ChatbotWorkflow.SearchNeedsTwoKeys | src/complete_chatbot_workflow.py:365-369 | with a falsy manipulation flag only the operation type and that flag need be present |
| ChatbotWorkflow.UnreadableAnalyses | src/complete_chatbot_workflow.py:365-366 | a JSON value that is not an object, or an object without the operation type, raises |
| ChatbotWorkflow.ApprovalWithoutEntityRaises | src/complete_chatbot_workflow.py:559-561 | an approval-flagged analysis without an entity type raises while the request is built |
| ChatbotWorkflow.TableHint | src/complete_chatbot_workflow.py:411-414 | a table hint is passed exactly when there is a non-empty analysis |
| ChatbotWorkflow.DataQueryWorkflow | src/complete_chatbot_workflow.py:354-497 | the workflow raises exactly when a read of the manipulation analysis raises; approval exactly when both flags are truthy; missing-data investigation exactly for an empty search of a missing-data input; failure exactly when the search fails; a successful search otherwise |
| ChatbotWorkflow.IncidentTicket | src/complete_chatbot_workflow.py:296-301 | each of title, description, severity and assignment group is the analysis value when present (severity lower-cased) and otherwise its default: the first 80 characters of the input, the input, `medium` and `IT Support` |
| ChatbotWorkflow.EmptyAnalysisTicket | src/complete_chatbot_workflow.py:296-301 | with an empty analysis the ticket is built from the input, medium priority and IT Support |
| ChatbotWorkflow.ProcessCompleteWorkflowAsWritten | src/complete_chatbot_workflow.py:264-297 | the workflow crashes exactly when an incident is routed without an analysis or a data query's manipulation analysis cannot be read |
| ChatbotWorkflow.LowConfidenceIncidentCrashes | src/complete_chatbot_workflow.py:264-297 | an incident classified below 0.5 confidence crashes the workflow |
| ChatbotWorkflow.ProcessCompleteWorkflow | src/complete_chatbot_workflow.py:245-287 | only a data query whose manipulation analysis cannot be read raises; otherwise each intent reaches the workflow of that intent |
| ChatbotWorkflow.CorrectionOnlyRemovesCrash | src/complete_chatbot_workflow.py:264-287 | wherever the as-written workflow completes, the corrected one gives the same outcome |
| ChatbotWorkflow.OrchestratorFailureIsDataQuery | src/complete_chatbot_workflow.py:253-261 | an orchestrator failure is handled as a database data query |
| ChatbotWorkflow.MissingDataTitle | src/complete_chatbot_workflow.py:608 | the title is the prefix and the first 60 characters, plus `...` exactly when the input was longer |
| ChatbotWorkflow.MissingDataTitleShape | src/complete_chatbot_workflow.py:608 | a short input appears whole; a long one is cut to 60 characters followed by `...` |
| ChatbotWorkflow.DisplayedFields | src/complete_chatbot_workflow.py:748 | the shown fields are exactly the non-technical ones |
| ChatbotWorkflow.TitleCaseIdempotent | src/complete_chatbot_workflow.py:749 | title-casing twice is title-casing once |
| ChatbotWorkflow.TitleCaseIgnoresCase | src/complete_chatbot_workflow.py:749 | title-casing does not depend on the input's letter case |
| ChatbotWorkflow.FieldLabelNoUnderscore | src/complete_chatbot_workflow.py:749 | no field label contains an underscore |
| ChatbotWorkflow.FormatSearchResults | src/complete_chatbot_workflow.py:738-751 | no results read "No results found" |
| ChatbotWorkflow.PreviewOpensWithFirstHeader | src/complete_chatbot_workflow.py:738-751 | a non-empty preview opens with the first result's header and never reads "No results found" |

## Left out

- Language models, Neo4j, sqlite, embeddings and NLTK's `normalize_text` are external services. They appear as parameters: the reply, the parsed JSON or literal, the rows fetched, a similarity function and a normalising function.
- `hash`, `uuid4` and `datetime.now` are parameters. Python's per-process string-hash randomisation is not modelled.
- The regular expressions of the entity fallback (enhanced_rag_system.py:94-105) give their matches as a parameter. Only the filtering, de-duplication and cap applied to those matches are modelled.
- Case mapping (`lower`, `upper`, `title`) is ASCII-only.
- `list(set(...))` order depends on hashing. `EntityExtraction.ResolveEntities` leaves it open: any order of the set's elements meets its contract. `EntityExtraction.FallbackEntities` and `GraphStandardize.AllEntities` fix first-occurrence order; the properties stated about them (distinct, sound, complete below eight entities) hold for every order, but which eight fallback entities are kept when more qualify is order-dependent and not modelled.
- JSON values are modelled as strings, reals and options. Messages returned to users are modelled only where a contract speaks about them.
- The tool handlers' `except Exception` branches ("Search failed: ...") are not modelled. Neither is the text-to-SQL prompt, nor the execution of the generated SQL.
- `generate_answer_with_reasoning` (enhanced_rag_system.py:286-332) is the model's answer, a parameter of `RagQuery.Query`.
- The Cypher text of the path, similarity and direct-relation queries is not modelled. Only their row limits (20 and 10) and their failure behaviour are.
- The uploader's Neo4j writes (`upload_triples`) are left out; so are the FastAPI and SSE plumbing, logging and `print`.
- The `/tickets/incidents` route (servicenow_mcp_server.py:338) is never reached, because `/tickets/{ticket_number}` is registered first and matches it. It is not modelled.
- The information workflow (complete_chatbot_workflow.py:650-736) returns fixed text chosen from the analysis. Only its routing is modelled.
- The research workflow (complete_chatbot_workflow.py:500-552) is modelled only through its routing and the analysis type it passes.
- The fallback manipulation analysis's `error` entry, the exception text, is not modelled; the workflow never reads it.
- DatabaseServer.TextToSql: the parsed object keeps only a string `sql` and a real `confidence`, each absent or present. A reply whose `confidence` is JSON `null` is read as absent and given 0.7, where the code keeps `None` because the key exists (database_mcp_server.py:363-364). A truthy `sql` that is not a string, and any further keys the object carries, are not modelled.
- Key errors raised while formatting handler messages are folded into the orchestrator-failure path.
- PathRanking.MultiplierValues: the boosts are exact reals (0.8 and 0.775 for two and three hops); Python's doubles give 0.7999999999999999 and 0.7749999999999999. IEEE rounding is not modelled.
- PathRanking.RankPaths: scores are exact reals, so a score within rounding distance of the 0.3 threshold, or two scores that tie only in one arithmetic, can be kept, dropped or ordered differently from the doubles the code computes (for example a similarity of 0.3870967741935484 at three hops).
- PathRanking.RankPaths: the `except` at enhanced_rag_system.py:212-214 is modelled only for an embedding failure, the `None` similarity. A failure part-way through scoring is treated the same way.

Behaviour worth noting, which the model follows:

- A one-hop path has multiplier 0.85; only a zero-hop path keeps its full similarity.
- Path discovery and similar-entity resolution stop at the first failing entity, because one `try` surrounds the whole loop.
- Back-filling also stops at the first failing entity.
- Back-filling removes duplicates by exact string, so a context can hold two triples whose keys differ only in case.

## Findings

| source | as written | input that shows it | evidently intended | confidence | as-written member | corrected member |
|---|---|---|---|---|---|---|
| src/complete_chatbot_workflow.py:264-297 | the orchestrator (intent_classifier.py:384-386) gives a system incident with confidence below 0.5 no specialised analysis (`None`). The incident workflow then calls `analysis.get`, which raises outside any `try`. | an incident report the classifier scores at 0.4 | the incident handler falls back to the input when the analysis is missing, as the other three handlers do | not executed | ChatbotWorkflow.ProcessCompleteWorkflowAsWritten, ChatbotWorkflow.LowConfidenceIncidentCrashes | ChatbotWorkflow.ProcessCompleteWorkflow, ChatbotWorkflow.CorrectionOnlyRemovesCrash |
| servers/database_mcp_server.py:893 | `pending_count` is `len(PENDING_APPROVALS)`, which counts approved and rejected requests too | queue one sensitive update, approve it, then list approvals: `pending_count` is still 1 | only approvals whose status is pending are counted | not executed | DatabaseServer.PendingCountAsWritten, DatabaseServer.ApprovedStillCountedAsPending | DatabaseServer.PendingCount, DatabaseServer.DecisionLowersPendingCount |

=== FILE: chatbot_workflow.dfy ===
/** The end-to-end chatbot workflow: the orchestrator's classification picks
    one of four workflows (incident ticket, data query, information,
    research), and the data-query workflow further decides between an
    approval request, a plain search and a missing-data investigation.
    The ticketing, database-search and research servers are parameters. */
module ChatbotWorkflow {
  import opened Common
  import opened Text
  import opened LlmText
  import opened IntentRouting

  // ---------------------------------------------------------------- keyword rules

  /** Some keyword occurs in `hay`, checked keyword by keyword. */
  function MentionsAny(hay: string, keywords: seq<string>): (r: bool)
    ensures r <==> exists i :: 0 <= i < |keywords| && Contains(hay, keywords[i])
    decreases |keywords|
  {
    if |keywords| == 0 then false
    else if Contains(hay, keywords[0]) then true
    else
      var rest := MentionsAny(hay, keywords[1..]);
      assert forall i :: 1 <= i < |keywords| ==> keywords[i] == keywords[1..][i - 1];
      rest
  }

  const MissingKeywords: seq<string> := [
    "missing", "can't find", "cannot find", "not found", "lost",
    "disappeared", "absent", "unavailable", "not showing up",
    "not in the system", "not there", "where is"]

  /** The user reports data as missing, rather than only searching for it. */
  function IsMissingDataQuery(input: string): (r: bool)
    ensures r <==> exists i :: 0 <= i < |MissingKeywords| && Contains(Lower(input), MissingKeywords[i])
  {
    MentionsAny(Lower(input), MissingKeywords)
  }

  const ClaimsTeam := "Brazil Claims Team"
  const EngineTeam := "Engine Data Team"
  const WarrantyTeam := "Warranty Support Team"
  const DataTeam := "Data Support Team"

  /** The team a missing-data ticket goes to: claims before engines before
      warranty, and the general data team otherwise. */
  function AssignmentGroup(input: string): (r: string)
    ensures r == ClaimsTeam <==> Contains(Lower(input), "claim")
    ensures r == EngineTeam <==> !Contains(Lower(input), "claim") && Contains(Lower(input), "engine")
    ensures r == WarrantyTeam <==>
              !Contains(Lower(input), "claim") && !Contains(Lower(input), "engine") && Contains(Lower(input), "warranty")
    ensures r == DataTeam <==>
              !Contains(Lower(input), "claim") && !Contains(Lower(input), "engine") && !Contains(Lower(input), "warranty")
  {
    var q := Lower(input);
    if Contains(q, "claim") then ClaimsTeam
    else if Contains(q, "engine") then EngineTeam
    else if Contains(q, "warranty") then WarrantyTeam
    else DataTeam
  }

  /** An input mentioning the word "claim" goes to the claims team whatever
      else it mentions. */
  lemma ClaimWinsAssignment(before: string, after: string)
    ensures AssignmentGroup(before + "claim" + after) == ClaimsTeam
  {
    var q := Lower(before + "claim" + after);
    LowerAppend(before + "claim", after);
    LowerAppend(before, "claim");
    assert q[|before|..|before| + 5] == "claim";
    ContainsAt(q, "claim", |before|);
  }

  const IncidentWords: seq<string> := ["down", "not working", "error", "broken", "issue"]
  const DataWords: seq<string> := ["find", "search", "get", "show", "update", "delete"]
  const ResearchWords: seq<string> := ["research", "paper", "algorithm", "analysis", "compare"]

  /** The keyword classifier used when the language-model orchestrator
      cannot be loaded: incident words win over data words, data words over
      research words, and anything else is an information request. */
  function FallbackIntent(input: string): (r: Intent)
    ensures r != Unknown
    ensures r == SystemIncident <==> MentionsAny(Lower(input), IncidentWords)
    ensures r == DataQuery <==> !MentionsAny(Lower(input), IncidentWords) && MentionsAny(Lower(input), DataWords)
    ensures r == ResearchQuery <==>
              !MentionsAny(Lower(input), IncidentWords) && !MentionsAny(Lower(input), DataWords)
              && MentionsAny(Lower(input), ResearchWords)
  {
    var q := Lower(input);
    if MentionsAny(q, IncidentWords) then SystemIncident
    else if MentionsAny(q, DataWords) then DataQuery
    else if MentionsAny(q, ResearchWords) then ResearchQuery
    else InformationRequest
  }

  /** The keyword classifier always claims confidence 0.8. */
  const FallbackConfidence: real := 0.8

  // ---------------------------------------------------------------- data manipulation

  /** A value inside the parsed manipulation analysis. A nested list or
      object matters only through its size. */
  datatype JsonValue = Flag(b: bool) | Text(s: string) | Number(x: real) | Null | Nested(size: nat)

  /** Python's truth value of a parsed JSON value. */
  predicate Truthy(v: JsonValue) {
    match v
    case Flag(b) => b
    case Text(s) => |s| > 0
    case Number(x) => x != 0.0
    case Null => false
    case Nested(size) => size > 0
  }

  /** What the manipulation analysis is: a JSON object, or some other JSON
      value (a list, a string, a number), which cannot be indexed by key. */
  datatype Detection = Object(fields: map<string, JsonValue>) | NotAnObject

  /** What is assumed when the analysis cannot be had: a search, with every
      key the workflow reads. The exception text kept under "error" is not
      modelled. */
  function SearchFallback(input: string): Detection {
    Object(map[
      "is_manipulation" := Flag(false),
      "operation_type" := Text("search"),
      "entity_type" := Text("unknown"),
      "entity_identifier" := Null,
      "target_field" := Null,
      "old_value" := Null,
      "new_value" := Null,
      "sql_intent" := Text("Search for: " + input),
      "requires_approval" := Flag(false)])
  }

  /** The reply is stripped of code fences and parsed (`parse` gives `None`
      for anything `json.loads` rejects); a failed call or a rejected reply
      means a search, and any JSON value parsed is returned as it is. */
  function DetectManipulation(input: string, reply: LlmReply, parse: string -> Option<Detection>): (r: Detection)
    ensures reply.CallFailed? ==> r == SearchFallback(input)
    ensures reply.Replied? && parse(StripCodeFence(reply.text)).None? ==> r == SearchFallback(input)
    ensures reply.Replied? && parse(StripCodeFence(reply.text)).Some? ==> r == parse(StripCodeFence(reply.text)).value
  {
    match reply
    case CallFailed => SearchFallback(input)
    case Replied(text) =>
      match parse(StripCodeFence(text))
      case None => SearchFallback(input)
      case Some(d) => d
  }

  /** The keys the approval request and its message read. */
  const ApprovalKeys: seq<string> := [
    "operation_type", "entity_type", "entity_identifier", "target_field",
    "old_value", "new_value", "sql_intent"]

  /** The approval request can be built: every key it reads is present, and
      the operation and entity type are strings (`upper` and `title` are
      called on them). */
  predicate ApprovalReadable(f: map<string, JsonValue>) {
    && (forall i :: 0 <= i < |ApprovalKeys| ==> ApprovalKeys[i] in f)
    && "operation_type" in f && f["operation_type"].Text?
    && "entity_type" in f && f["entity_type"].Text?
  }

  /** The data-query workflow's reads of the analysis, in order: the
      operation type and the manipulation flag, the approval flag only when
      the manipulation flag is truthy, and the approval request's fields
      only when both are. `None` when a read raises; otherwise whether an
      approval is requested. */
  function ApprovalDecision(d: Detection): (r: Option<bool>)
    ensures r == Some(true) <==>
              && d.Object? && "is_manipulation" in d.fields && Truthy(d.fields["is_manipulation"])
              && "requires_approval" in d.fields && Truthy(d.fields["requires_approval"])
              && ApprovalReadable(d.fields)
    ensures r == Some(false) <==>
              && d.Object? && "operation_type" in d.fields && "is_manipulation" in d.fields
              && (|| !Truthy(d.fields["is_manipulation"])
                  || ("requires_approval" in d.fields && !Truthy(d.fields["requires_approval"])))
    ensures d.NotAnObject? || "operation_type" !in d.fields || "is_manipulation" !in d.fields ==> r.None?
  {
    match d
    case NotAnObject => None
    case Object(f) =>
      if "operation_type" !in f || "is_manipulation" !in f then None
      else if !Truthy(f["is_manipulation"]) then Some(false)
      else if "requires_approval" !in f then None
      else if !Truthy(f["requires_approval"]) then Some(false)
      else if ApprovalReadable(f) then Some(true)
      else None
  }

  /** The fallback analysis is read without error and never requests
      approval. */
  lemma FailedDetectionSearches(input: string)
    ensures ApprovalDecision(SearchFallback(input)) == Some(false)
  {
  }

  /** An analysis holding every key the workflow reads, with string
      operation and entity types, is read without error, and asks for
      approval exactly when both flags are truthy. */
  lemma CompleteAnalysisIsRead(f: map<string, JsonValue>)
    requires "is_manipulation" in f && "requires_approval" in f && ApprovalReadable(f)
    ensures ApprovalDecision(Object(f)) == Some(Truthy(f["is_manipulation"]) && Truthy(f["requires_approval"]))
  {
  }

  /** A falsy manipulation flag ends the reads: neither the approval flag nor
      the request's fields need be present. */
  lemma SearchNeedsTwoKeys(op: JsonValue, flag: JsonValue)
    requires !Truthy(flag)
    ensures ApprovalDecision(Object(map["operation_type" := op, "is_manipulation" := flag])) == Some(false)
  {
  }

  /** A reply parsed to an empty JSON list, or to an object without the
      operation type, makes the workflow raise. */
  lemma UnreadableAnalyses(flag: JsonValue)
    ensures ApprovalDecision(NotAnObject) == None
    ensures ApprovalDecision(Object(map["is_manipulation" := flag])) == None
  {
  }

  /** A manipulation the model flags for approval but whose entity type is
      missing raises while the approval request is built. */
  lemma ApprovalWithoutEntityRaises(input: string)
    ensures ApprovalDecision(Object(SearchFallback(input).fields["is_manipulation" := Flag(true)]["requires_approval" := Flag(true)] - {"entity_type"})) == None
  {
  }

  // ---------------------------------------------------------------- workflows

  datatype Workflow =
    | SystemIncidentFlow
    | DataManipulationApproval
    | DatabaseSearch
    | MissingDataInvestigation
    | InformationRequestFlow
    | ResearchQueryFlow
    | UnknownFlow

  /** The value reported as `workflow`. */
  function WorkflowName(w: Workflow): string {
    match w
    case SystemIncidentFlow => "system_incident"
    case DataManipulationApproval => "data_manipulation_approval"
    case DatabaseSearch => "database_search"
    case MissingDataInvestigation => "missing_data_investigation"
    case InformationRequestFlow => "information_request"
    case ResearchQueryFlow => "research_query"
    case UnknownFlow => "unknown"
  }

  /** A finished workflow reports its name and, except for the unknown one,
      whether it succeeded; `Crashed` is an exception escaping the
      workflow. */
  datatype Outcome = Completed(workflow: Workflow, success: Option<bool>) | Crashed

  /** What the database server answered: a failure, or some result rows. */
  datatype SearchOutcome = SearchFailed | SearchSucceeded(resultCount: nat)

  /** The external servers, each as the answer it gives, and the analysis
      `DetectManipulation` produced. `search` receives the table hint;
      `research` the analysis type. */
  datatype Services = Services(
    incidentTicketCreated: bool,
    detection: Detection,
    search: Option<string> -> SearchOutcome,
    research: string -> bool)

  function Get(a: Analysis, key: string, default: string): string {
    if key in a then a[key] else default
  }

  /** The table hint passed to the search: the analysis' target system
      without "_db", or none when the analysis is missing or empty. */
  function TableHint(analysis: Option<Analysis>): (r: Option<string>)
    ensures r.None? <==> analysis.None? || |analysis.value| == 0
  {
    if analysis.None? || |analysis.value| == 0 then None
    else Some(Replace(Get(analysis.value, "target_system", ""), "_db", ""))
  }

  /** Approval when the analysis' manipulation and approval flags are both
      truthy; otherwise a search: rows found is a search result, none found
      for a missing-data report opens an investigation, none found otherwise
      is an empty search result; a failed search is an unsuccessful search.
      A read of the analysis that raises escapes the workflow. */
  function DataQueryWorkflow(analysis: Option<Analysis>, input: string, d: Detection,
                             search: Option<string> -> SearchOutcome): (r: Outcome)
    ensures r.Crashed? <==> ApprovalDecision(d).None?
    ensures r.Completed? ==> r.success.Some?
    ensures r.Completed? ==> r.workflow in {DataManipulationApproval, DatabaseSearch, MissingDataInvestigation}
    ensures r == Completed(DataManipulationApproval, Some(true)) <==> ApprovalDecision(d) == Some(true)
    ensures r == Completed(MissingDataInvestigation, Some(true)) <==>
              && ApprovalDecision(d) == Some(false)
              && search(TableHint(analysis)) == SearchSucceeded(0)
              && IsMissingDataQuery(input)
    ensures r == Completed(DatabaseSearch, Some(false)) <==>
              ApprovalDecision(d) == Some(false) && search(TableHint(analysis)).SearchFailed?
    ensures r == Completed(DatabaseSearch, Some(true)) <==>
              && ApprovalDecision(d) == Some(false)
              && search(TableHint(analysis)).SearchSucceeded?
              && (search(TableHint(analysis)).resultCount > 0 || !IsMissingDataQuery(input))
  {
    match ApprovalDecision(d)
    case None => Crashed
    case Some(approval) =>
      if approval then Completed(DataManipulationApproval, Some(true))
      else
        match search(TableHint(analysis))
        case SearchFailed => Completed(DatabaseSearch, Some(false))
        case SearchSucceeded(n) =>
          if n > 0 then Completed(DatabaseSearch, Some(true))
          else if IsMissingDataQuery(input) then Completed(MissingDataInvestigation, Some(true))
          else Completed(DatabaseSearch, Some(true))
  }

  /** The analysis type passed to the research server. */
  function ResearchAnalysisType(analysis: Option<Analysis>): string {
    if analysis.None? || |analysis.value| == 0 then "comprehensive"
    else Get(analysis.value, "analysis_depth", "comprehensive")
  }

  /** The incident ticket the workflow asks for, each field from the
      analysis or its default. */
  datatype TicketRequest = TicketRequest(title: string, description: string, priority: string,
                                         assignmentGroup: string, callerId: string)

  function IncidentTicket(analysis: Analysis, input: string, user: string): (r: TicketRequest)
    ensures r.callerId == user
    ensures "ticket_summary" in analysis ==> r.title == analysis["ticket_summary"]
    ensures "ticket_summary" !in analysis ==> r.title == Take(input, 80)
    ensures "ticket_description" in analysis ==> r.description == analysis["ticket_description"]
    ensures "ticket_description" !in analysis ==> r.description == input
    ensures "severity" in analysis ==> r.priority == Lower(analysis["severity"])
    ensures "severity" !in analysis ==> r.priority == "medium"
    ensures "assignment_group" in analysis ==> r.assignmentGroup == analysis["assignment_group"]
    ensures "assignment_group" !in analysis ==> r.assignmentGroup == "IT Support"
  {
    TicketRequest(Get(analysis, "ticket_summary", Take(input, 80)),
                  Get(analysis, "ticket_description", input),
                  Lower(Get(analysis, "severity", "medium")),
                  Get(analysis, "assignment_group", "IT Support"),
                  user)
  }

  /** With nothing from the analysis, the ticket is built from the input
      alone with medium priority for IT Support. */
  lemma EmptyAnalysisTicket(input: string, user: string)
    ensures IncidentTicket(map[], input, user) == TicketRequest(Take(input, 80), input, "medium", "IT Support", user)
  {
    assert Lower("medium") == "medium";
  }

  /** The classification the workflow routes on: the orchestrator's, or,
      when the orchestrator raised, a data query with a database target. */
  function Routing(orchestrated: Option<Orchestrated>): (Intent, Option<Analysis>) {
    match orchestrated
    case None => (DataQuery, Some(map["target_system" := "database"]))
    case Some(o) => (o.classification.intent, o.analysis)
  }

  /** The workflow as written: the incident handler reads the analysis with
      `.get` without checking it, so a missing analysis raises; a data query
      raises when its manipulation analysis cannot be read. */
  function ProcessCompleteWorkflowAsWritten(orchestrated: Option<Orchestrated>, input: string, s: Services): (r: Outcome)
    ensures r.Crashed? <==>
              || (Routing(orchestrated).0 == SystemIncident && Routing(orchestrated).1.None?)
              || (Routing(orchestrated).0 == DataQuery && ApprovalDecision(s.detection).None?)
  {
    var (intent, analysis) := Routing(orchestrated);
    match intent
    case SystemIncident =>
      if analysis.None? then Crashed else Completed(SystemIncidentFlow, Some(s.incidentTicketCreated))
    case DataQuery => DataQueryWorkflow(analysis, input, s.detection, s.search)
    case InformationRequest => Completed(InformationRequestFlow, Some(true))
    case ResearchQuery => Completed(ResearchQueryFlow, Some(s.research(ResearchAnalysisType(analysis))))
    case Unknown => Completed(UnknownFlow, None)
  }

  /** A request classified as an incident with confidence below 0.5 gets no
      analysis from the orchestrator, and the workflow then raises. */
  lemma LowConfidenceIncidentCrashes(c: Classification, analyze: Intent -> Analysis, input: string, s: Services)
    requires c.intent == SystemIncident && c.confidence < ClarificationThreshold
    ensures ProcessCompleteWorkflowAsWritten(Some(ProcessUserInput(c, analyze)), input, s) == Crashed
  {
  }

  /** The workflow with the incident handler guarded as the other handlers
      are: a missing analysis reads as an empty one. Only an unreadable
      manipulation analysis of a data query still raises; otherwise each
      intent reaches its own workflow, and an unknown intent the "unknown"
      one. */
  function ProcessCompleteWorkflow(orchestrated: Option<Orchestrated>, input: string, s: Services): (r: Outcome)
    ensures r.Crashed? <==> Routing(orchestrated).0 == DataQuery && ApprovalDecision(s.detection).None?
    ensures Routing(orchestrated).0 == SystemIncident <==> r.Completed? && r.workflow == SystemIncidentFlow
    ensures Routing(orchestrated).0 == DataQuery <==>
              r.Crashed? || r.workflow in {DataManipulationApproval, DatabaseSearch, MissingDataInvestigation}
    ensures Routing(orchestrated).0 == InformationRequest <==> r.Completed? && r.workflow == InformationRequestFlow
    ensures Routing(orchestrated).0 == ResearchQuery <==> r.Completed? && r.workflow == ResearchQueryFlow
    ensures Routing(orchestrated).0 == Unknown <==> r.Completed? && r.workflow == UnknownFlow
  {
    var (intent, analysis) := Routing(orchestrated);
    match intent
    case SystemIncident => Completed(SystemIncidentFlow, Some(s.incidentTicketCreated))
    case DataQuery => DataQueryWorkflow(analysis, input, s.detection, s.search)
    case InformationRequest => Completed(InformationRequestFlow, Some(true))
    case ResearchQuery => Completed(ResearchQueryFlow, Some(s.research(ResearchAnalysisType(analysis))))
    case Unknown => Completed(UnknownFlow, None)
  }

  /** The guard changes nothing but the crash. */
  lemma CorrectionOnlyRemovesCrash(orchestrated: Option<Orchestrated>, input: string, s: Services)
    ensures ProcessCompleteWorkflowAsWritten(orchestrated, input, s).Completed? ==>
              ProcessCompleteWorkflowAsWritten(orchestrated, input, s) == ProcessCompleteWorkflow(orchestrated, input, s)
  {
  }

  /** When the orchestrator raises, the request is handled as a data query. */
  lemma OrchestratorFailureIsDataQuery(input: string, s: Services)
    ensures ProcessCompleteWorkflow(None, input, s)
         == DataQueryWorkflow(Some(map["target_system" := "database"]), input, s.detection, s.search)
  {
  }

  // ---------------------------------------------------------------- ticket title

  const MissingTitlePrefix := "Missing Data Investigation: "
  const TitleInputLength := 60

  /** The missing-data ticket's title: the first 60 characters of the input,
      with "..." exactly when something was cut. */
  function MissingDataTitle(input: string): (r: string)
    ensures IsPrefixOf(MissingTitlePrefix + Take(input, TitleInputLength), r)
    ensures |r| == |MissingTitlePrefix| + Min(|input|, TitleInputLength) + (if |input| > TitleInputLength then 3 else 0)
  {
    MissingTitlePrefix + Take(input, TitleInputLength) + (if |input| > TitleInputLength then "..." else "")
  }

  /** A short input appears whole; a long one is cut to 60 characters
      followed by "...". */
  lemma MissingDataTitleShape(input: string)
    ensures |input| <= TitleInputLength ==> MissingDataTitle(input) == MissingTitlePrefix + input
    ensures |input| > TitleInputLength ==>
              MissingDataTitle(input)[|MissingTitlePrefix|..] == input[..TitleInputLength] + "..."
  {
    if |input| > TitleInputLength {
      var r := MissingDataTitle(input);
      assert r == MissingTitlePrefix + (input[..TitleInputLength] + "...");
    }
  }

  // ---------------------------------------------------------------- search results

  /** A result row: its columns and values in the row's order. */
  type ResultRow = seq<(string, string)>

  /** Columns that are never shown. */
  predicate IsTechnical(key: string) {
    key == "sys_id" || key == "last_updated"
  }

  function DisplayedFields(row: ResultRow): (r: ResultRow)
    ensures forall f :: f in r ==> !IsTechnical(f.0)
    ensures forall f :: f in row && !IsTechnical(f.0) ==> f in r
  {
    Filter((f: (string, string)) => !IsTechnical(f.0), row)
  }

  predicate IsLetter(c: char) { IsUpperAscii(c) || IsLowerAscii(c) }

  /** `s.title()` over ASCII, continuing after a letter when `afterLetter`:
      a letter following a letter is lowered, any other letter raised. */
  function TitleFrom(s: string, afterLetter: bool): (r: string)
    ensures |r| == |s|
    ensures forall i :: 0 <= i < |s| && !IsLetter(s[i]) ==> r[i] == s[i]
    decreases |s|
  {
    if |s| == 0 then ""
    else
      var c := if !IsLetter(s[0]) then s[0] else if afterLetter then LowerChar(s[0]) else UpperChar(s[0]);
      [c] + TitleFrom(s[1..], IsLetter(s[0]))
  }

  function TitleCase(s: string): (r: string)
    ensures |r| == |s|
  {
    TitleFrom(s, false)
  }

  lemma CaseKeepsLetters(c: char)
    ensures IsLetter(LowerChar(c)) == IsLetter(c) && IsLetter(UpperChar(c)) == IsLetter(c)
    ensures IsLetter(c) ==> LowerChar(UpperChar(c)) == LowerChar(c) && UpperChar(LowerChar(c)) == UpperChar(c)
  {
  }

  /** Two texts that differ only in the case of their letters title-case
      alike. */
  lemma {:induction false} TitleFromIgnoresCase(s: string, t: string, afterLetter: bool)
    requires |s| == |t|
    requires forall i :: 0 <= i < |s| ==> LowerChar(s[i]) == LowerChar(t[i]) && IsLetter(s[i]) == IsLetter(t[i])
    requires forall i :: 0 <= i < |s| && !IsLetter(s[i]) ==> s[i] == t[i]
    ensures TitleFrom(s, afterLetter) == TitleFrom(t, afterLetter)
    decreases |s|
  {
    if |s| > 0 {
      TitleFromIgnoresCase(s[1..], t[1..], IsLetter(s[0]));
      if IsLetter(s[0]) {
        CaseKeepsLetters(s[0]);
        CaseKeepsLetters(t[0]);
        assert UpperChar(s[0]) == UpperChar(LowerChar(s[0])) == UpperChar(LowerChar(t[0])) == UpperChar(t[0]);
      }
    }
  }

  /** Title-casing ignores the input's case. */
  lemma TitleCaseIgnoresCase(s: string)
    ensures TitleCase(Lower(s)) == TitleCase(s)
  {
    forall i | 0 <= i < |s|
      ensures LowerChar(Lower(s)[i]) == LowerChar(s[i]) && IsLetter(Lower(s)[i]) == IsLetter(s[i])
    {
      CaseKeepsLetters(s[i]);
    }
    TitleFromIgnoresCase(Lower(s), s, false);
  }

  /** Title-casing twice is title-casing once. */
  lemma TitleCaseIdempotent(s: string)
    ensures TitleCase(TitleCase(s)) == TitleCase(s)
  {
    TitleIdempotentFrom(s, false);
  }

  lemma {:induction false} TitleIdempotentFrom(s: string, afterLetter: bool)
    ensures TitleFrom(TitleFrom(s, afterLetter), afterLetter) == TitleFrom(s, afterLetter)
    decreases |s|
  {
    if |s| > 0 {
      var r := TitleFrom(s, afterLetter);
      CaseKeepsLetters(s[0]);
      assert IsLetter(r[0]) == IsLetter(s[0]);
      TitleIdempotentFrom(s[1..], IsLetter(s[0]));
      assert r[1..] == TitleFrom(s[1..], IsLetter(s[0]));
    }
  }

  /** The label a column is shown under: underscores become spaces, then
      title case. */
  function FieldLabel(key: string): (r: string) {
    TitleCase(Replace(key, "_", " "))
  }

  lemma {:induction false} ReplaceUnderscores(s: string)
    ensures '_' !in Replace(s, "_", " ")
    decreases |s|
  {
    if |s| > 0 {
      ReplaceUnderscores(s[1..]);
    }
  }

  /** No label holds an underscore. */
  lemma FieldLabelNoUnderscore(key: string)
    ensures '_' !in FieldLabel(key)
  {
    var u := Replace(key, "_", " ");
    ReplaceUnderscores(key);
    var r := FieldLabel(key);
    forall i | 0 <= i < |r|
      ensures r[i] != '_'
    {
      if !IsLetter(u[i]) {
        assert r[i] == u[i];
      } else {
        assert IsLetter(r[i]) by {
          TitleLetter(u, false, i);
        }
      }
    }
  }

  lemma {:induction false} TitleLetter(s: string, afterLetter: bool, i: nat)
    requires i < |s| && IsLetter(s[i])
    ensures IsLetter(TitleFrom(s, afterLetter)[i])
    decreases i
  {
    CaseKeepsLetters(s[0]);
    if i > 0 {
      TitleLetter(s[1..], IsLetter(s[0]), i - 1);
    }
  }

  const Bullet := "  \U{2022} "

  function FormatFields(fields: ResultRow): string
    decreases |fields|
  {
    if |fields| == 0 then ""
    else Bullet + FieldLabel(fields[0].0) + ": " + fields[0].1 + "\n" + FormatFields(fields[1..])
  }

  function ResultHeader(i: nat): string {
    "**Result " + NatToString(i) + ":**"
  }

  /** Each row under its numbered header, numbering from `i`. */
  function FormatRows(results: seq<ResultRow>, i: nat): string
    decreases |results|
  {
    if |results| == 0 then ""
    else "\n" + ResultHeader(i) + "\n" + FormatFields(DisplayedFields(results[0])) + FormatRows(results[1..], i + 1)
  }

  /** The preview shown for search results. */
  function FormatSearchResults(results: seq<ResultRow>): (r: string)
    ensures |results| == 0 ==> r == "No results found"
  {
    if |results| == 0 then "No results found" else Strip(FormatRows(results, 1), Whitespace)
  }

  /** Stripping a text that opens with a line break and then a piece with
      non-blank ends keeps that piece at the front. */
  lemma StripKeepsHead(h: string, rest: string)
    requires |h| > 0 && !IsSpace(h[0]) && !IsSpace(h[|h| - 1])
    ensures IsPrefixOf(h, Strip("\n" + (h + rest), Whitespace))
  {
    TrimLeftPrefix("\n", h + rest, Whitespace);
    assert TrimLeft(h + rest, Whitespace) == h + rest by {
      assert (h + rest)[0] == h[0];
    }
    TrimRightKeepsPrefix(h, rest, Whitespace);
  }

  lemma FirstHeader()
    ensures ResultHeader(1) == "**Result 1:**"
  {
    assert NatToString(1) == "1";
  }

  lemma FormatRowsHead(results: seq<ResultRow>, i: nat)
    requires |results| > 0
    ensures FormatRows(results, i)
         == "\n" + (ResultHeader(i) + ("\n" + FormatFields(DisplayedFields(results[0])) + FormatRows(results[1..], i + 1)))
  {
  }

  /** A non-empty preview opens with the first result's header, so it never
      reads "No results found". */
  lemma {:induction false} PreviewOpensWithFirstHeader(results: seq<ResultRow>)
    requires |results| > 0
    ensures IsPrefixOf(ResultHeader(1), FormatSearchResults(results))
    ensures FormatSearchResults(results) != "No results found"
  {
    var body := FormatRows(results, 1);
    var rest := "\n" + FormatFields(DisplayedFields(results[0])) + FormatRows(results[1..], 2);
    var h := ResultHeader(1);
    FirstHeader();
    FormatRowsHead(results, 1);
    assert body == "\n" + (h + rest);
    StripKeepsHead(h, rest);
    var r := FormatSearchResults(results);
    assert r == Strip(body, Whitespace);
    assert IsPrefixOf(h, r);
    assert r[0] == '*';
  }
}

=== FILE: common.dfy ===
/** Small shared vocabulary: optional values, the rows an external store
    delivers, sequence helpers. */
module Common {

  /** A value that may be absent (a missing dictionary key, a `None`). */
  datatype Option<T> = None | Some(value: T) {
    function GetOr(default: T): T {
      match this
      case Some(v) => v
      case None => default
    }
  }

  /** What one external query produced. `Complete` when the store delivered
      all its rows; `Interrupted` when it raised after delivering `rows`
      (possibly none). The callers consume rows one by one, so the rows
      delivered before the error have already taken effect. */
  datatype Fetch<T> = Complete(rows: seq<T>) | Interrupted(rows: seq<T>)

  /** What a call to the language model produced: the reply's text, or an
      exception raised by the client. */
  datatype LlmReply = CallFailed | Replied(text: string)

  function Min(a: int, b: int): int { if a <= b then a else b }

  /** Python's `xs[:n]`. */
  function Take<T>(xs: seq<T>, n: nat): (r: seq<T>)
    ensures |r| == Min(|xs|, n)
    ensures r == xs[..|r|]
  {
    if |xs| <= n then xs else xs[..n]
  }

  lemma TakeKeeps<T>(xs: seq<T>, n: nat)
    ensures forall x :: x in Take(xs, n) ==> x in xs
  {
  }

  /** No element occurs twice. */
  predicate Distinct<T(==)>(xs: seq<T>) {
    forall i, j :: 0 <= i < j < |xs| ==> xs[i] != xs[j]
  }

  /** The set of a sequence's elements. */
  function Elems<T(!new)>(xs: seq<T>): (r: set<T>)
    ensures forall x :: x in r <==> x in xs
  {
    set x | x in xs
  }

  lemma ElemsAppend<T(!new)>(xs: seq<T>, ys: seq<T>)
    ensures Elems(xs + ys) == Elems(xs) + Elems(ys)
  {
  }

  lemma DistinctSnoc<T>(xs: seq<T>, x: T)
    requires Distinct(xs) && x !in xs
    ensures Distinct(xs + [x])
  {
    forall i, j | 0 <= i < j < |xs + [x]|
      ensures (xs + [x])[i] != (xs + [x])[j]
    {
      assert (xs + [x])[i] == xs[i];
      if j < |xs| {
        assert (xs + [x])[j] == xs[j];
      }
    }
  }

  lemma TakeDistinct<T>(xs: seq<T>, n: nat)
    requires Distinct(xs)
    ensures Distinct(Take(xs, n))
  {
  }

  /** `xs` is a prefix of `ys`. */
  predicate IsPrefix<T(==)>(xs: seq<T>, ys: seq<T>) {
    |xs| <= |ys| && ys[..|xs|] == xs
  }

  lemma PrefixTransitive<T>(xs: seq<T>, ys: seq<T>, zs: seq<T>)
    requires IsPrefix(xs, ys) && IsPrefix(ys, zs)
    ensures IsPrefix(xs, zs)
  {
    assert zs[..|xs|] == zs[..|ys|][..|xs|];
  }

  /** Cutting both to `n` keeps a prefix a prefix. */
  lemma TakePrefix<T>(xs: seq<T>, ys: seq<T>, n: nat)
    requires IsPrefix(xs, ys)
    ensures IsPrefix(Take(xs, n), Take(ys, n))
  {
    if n <= |xs| {
      assert Take(xs, n) == xs[..n] == ys[..n];
    }
  }

  /** Python's `[f(x) for x in xs]`. */
  function Map<T, U>(f: T -> U, xs: seq<T>): (r: seq<U>)
    ensures |r| == |xs|
    ensures forall i :: 0 <= i < |xs| ==> r[i] == f(xs[i])
  {
    seq(|xs|, i requires 0 <= i < |xs| => f(xs[i]))
  }

  /** Python's `[x for x in xs if p(x)]`. */
  function Filter<T>(p: T -> bool, xs: seq<T>): (r: seq<T>)
    ensures |r| <= |xs|
    ensures forall x :: x in r ==> x in xs && p(x)
    ensures forall x :: x in xs && p(x) ==> x in r
  {
    if |xs| == 0 then []
    else if p(xs[0]) then [xs[0]] + Filter(p, xs[1..])
    else Filter(p, xs[1..])
  }

  lemma FilterAppend<T>(p: T -> bool, xs: seq<T>, ys: seq<T>)
    ensures Filter(p, xs + ys) == Filter(p, xs) + Filter(p, ys)
  {
    if |xs| == 0 {
      assert xs + ys == ys;
    } else {
      assert (xs + ys)[1..] == xs[1..] + ys;
      FilterAppend(p, xs[1..], ys);
    }
  }

  /** A filter that every element passes changes nothing. */
  lemma FilterAll<T>(p: T -> bool, xs: seq<T>)
    requires forall i :: 0 <= i < |xs| ==> p(xs[i])
    ensures Filter(p, xs) == xs
  {
    if |xs| > 0 {
      FilterAll(p, xs[1..]);
    }
  }

  /** Python's `list(dict.fromkeys(xs))`: the first occurrence of every
      element, in order. */
  function Dedup<T(==,!new)>(xs: seq<T>): (r: seq<T>)
    ensures Distinct(r)
    ensures |r| <= |xs|
    ensures forall x :: x in r <==> x in xs
    decreases |xs|
  {
    if |xs| == 0 then []
    else
      var d := Dedup(xs[..|xs| - 1]);
      var x := xs[|xs| - 1];
      assert forall y :: y in xs <==> y in xs[..|xs| - 1] || y == x by {
        assert xs == xs[..|xs| - 1] + [x];
      }
      if x in d then d else d + [x]
  }

  /** Keeps at most `n` of the delivered rows, as a query's `LIMIT n` does. */
  function Limit<T>(f: Fetch<T>, n: nat): (r: Fetch<T>)
    ensures r.Complete? == f.Complete?
    ensures r.rows == Take(f.rows, n)
  {
    match f
    case Complete(rows) => Complete(Take(rows, n))
    case Interrupted(rows) => Interrupted(Take(rows, n))
  }

  /** The rows consumed by a loop that queries the store once per seed,
      inside one `try`: every delivered row of every seed, in order, up to and
      including the first query that fails; later seeds are never queried. */
  function Collect<S, T>(seeds: seq<S>, fetch: S -> Fetch<T>): seq<T>
    decreases |seeds|
  {
    if |seeds| == 0 then []
    else
      var f := fetch(seeds[0]);
      if f.Interrupted? then f.rows else f.rows + Collect(seeds[1..], fetch)
  }

  /** Seeds whose query succeeds contribute all their rows and the loop goes
      on to the next seed. */
  lemma {:induction false} CollectAppend<S, T>(a: seq<S>, b: seq<S>, fetch: S -> Fetch<T>)
    requires forall k :: 0 <= k < |a| ==> fetch(a[k]).Complete?
    ensures Collect(a + b, fetch) == Collect(a, fetch) + Collect(b, fetch)
    decreases |a|
  {
    if |a| == 0 {
      assert a + b == b;
    } else {
      assert (a + b)[1..] == a[1..] + b;
      CollectAppend(a[1..], b, fetch);
    }
  }

  /** A failing query for `seeds[k]` ends the loop: no later seed contributes. */
  lemma {:induction false} CollectStops<S, T>(seeds: seq<S>, fetch: S -> Fetch<T>, k: nat)
    requires k < |seeds| && fetch(seeds[k]).Interrupted?
    ensures Collect(seeds, fetch) == Collect(seeds[..k + 1], fetch)
    decreases k
  {
    if k > 0 {
      assert seeds[1..][k - 1] == seeds[k];
      CollectStops(seeds[1..], fetch, k - 1);
      assert seeds[..k + 1][1..] == seeds[1..][..k];
    }
  }

  /** The loop itself: query the seeds in turn, keep every delivered row,
      leave the loop at the first failing query. */
  method CollectLoop<S, T>(seeds: seq<S>, fetch: S -> Fetch<T>) returns (found: seq<T>)
    ensures found == Collect(seeds, fetch)
  {
    found := [];
    var i := 0;
    var stopped := false;
    while i < |seeds| && !stopped
      invariant 0 <= i <= |seeds|
      invariant found == Collect(seeds[..i], fetch)
      invariant !stopped ==> forall k :: 0 <= k < i ==> fetch(seeds[k]).Complete?
      invariant stopped ==> Collect(seeds, fetch) == found
    {
      var f := fetch(seeds[i]);
      assert seeds[..i + 1] == seeds[..i] + [seeds[i]];
      CollectAppend(seeds[..i], [seeds[i]], fetch);
      found := found + f.rows;
      if f.Interrupted? {
        CollectStops(seeds, fetch, i);
        stopped := true;
      }
      i := i + 1;
    }
    if !stopped {
      assert seeds[..i] == seeds;
    }
  }

  /** Every collected row was delivered for one of the seeds. */
  lemma {:induction false} CollectFrom<S, T>(seeds: seq<S>, fetch: S -> Fetch<T>, x: T)
    requires x in Collect(seeds, fetch)
    ensures exists k :: 0 <= k < |seeds| && x in fetch(seeds[k]).rows
    decreases |seeds|
  {
    var f := fetch(seeds[0]);
    if x !in f.rows {
      CollectFrom(seeds[1..], fetch, x);
      var k :| 0 <= k < |seeds[1..]| && x in fetch(seeds[1..][k]).rows;
      assert seeds[1..][k] == seeds[k + 1];
    }
  }

  /** With at most `n` rows per seed, at most `n` rows per seed are collected. */
  lemma {:induction false} CollectBound<S, T>(seeds: seq<S>, fetch: S -> Fetch<T>, n: nat)
    requires forall k :: 0 <= k < |seeds| ==> |fetch(seeds[k]).rows| <= n
    ensures |Collect(seeds, fetch)| <= n * |seeds|
    decreases |seeds|
  {
    if |seeds| > 0 {
      assert forall k :: 0 <= k < |seeds[1..]| ==> seeds[1..][k] == seeds[k + 1];
      CollectBound(seeds[1..], fetch, n);
    }
  }

  /** Python's `list(s)` for a set: the elements in an order the language
      does not specify, so the choice is left open. */
  method SetToSeq<T>(s: set<T>) returns (r: seq<T>)
    ensures Distinct(r)
    ensures forall x :: x in r <==> x in s
    ensures |r| == |s|
  {
    r := [];
    var rest := s;
    while rest != {}
      invariant Distinct(r)
      invariant forall x :: x in r <==> x in s && x !in rest
      invariant rest <= s
      invariant |r| + |rest| == |s|
      decreases |rest|
    {
      var x :| x in rest;
      r := r + [x];
      rest := rest - {x};
    }
  }
}

=== FILE: database_server.dfy ===
/** The enterprise database server: natural-language questions turned into
    SQL by a language model, engine attributes changed directly or through
    an approval queue, and table listings restricted to three tables.
    The SQLite database is a value (`State.engines`); the approval queue is
    the server's in-memory dictionary (`State.approvals`). */
module DatabaseServer {
  import opened Common
  import opened Text
  import opened LlmText

  // ---------------------------------------------------------------- text to SQL

  const NoClientSql := "SELECT 'Claude API key not configured' as error_message"
  const JsonErrorSql := "SELECT 'JSON parsing error' as error_message"
  const NoSqlGenerated := "SELECT 'Error: No SQL generated' as error_message"
  const ApiErrorSql := "SELECT 'Claude API error' as error_message"

  /** The confidence filled in when the model's answer gives none. */
  const DefaultConfidence: real := 0.7

  /** What `json.loads` makes of the cleaned reply: an object with the
      fields the server reads (absent keys are `None`), some other JSON
      value, or no JSON at all. */
  datatype Json =
    | JsonObject(sql: Option<string>, confidence: Option<real>, explanation: Option<string>)
    | JsonOther
    | JsonInvalid

  datatype Failure = NoClient | NotJson | NoSql | ApiError

  /** A conversion either yields the model's SQL or a placeholder statement
      that selects an error message. */
  datatype Conversion =
    | Converted(sql: string, confidence: real, explanation: Option<string>)
    | Failed(sql: string, confidence: real, reason: Failure)

  function FailedWith(reason: Failure): Conversion {
    match reason
    case NoClient => Failed(NoClientSql, 0.0, NoClient)
    case NotJson => Failed(JsonErrorSql, 0.0, NotJson)
    case NoSql => Failed(NoSqlGenerated, 0.0, NoSql)
    case ApiError => Failed(ApiErrorSql, 0.0, ApiError)
  }

  /** The JSON the reply's text carries, once stripped of code fences. */
  function ParsedReply(text: string, parse: string -> Json): Json {
    parse(StripCodeFence(text))
  }

  /** Without a client nothing is asked. A failed call, or a JSON value that
      is not an object (whose `.get` raises), is an API error; text that is
      not JSON is a parsing error; an object whose "sql" is missing or empty
      yields no SQL; otherwise the object is returned with its confidence
      defaulted to 0.7. */
  function TextToSql(hasClient: bool, reply: LlmReply, parse: string -> Json): (r: Conversion)
    ensures r.Failed? ==> r.confidence == 0.0 && r == FailedWith(r.reason)
    ensures !hasClient <==> r.Failed? && r.reason == NoClient
    ensures r.Converted? <==>
              hasClient && reply.Replied?
              && ParsedReply(reply.text, parse).JsonObject?
              && ParsedReply(reply.text, parse).sql.Some?
              && ParsedReply(reply.text, parse).sql.value != ""
    ensures r.Converted? ==>
              r.sql == ParsedReply(reply.text, parse).sql.value
              && r.confidence == ParsedReply(reply.text, parse).confidence.GetOr(DefaultConfidence)
  {
    if !hasClient then FailedWith(NoClient)
    else match reply
      case CallFailed => FailedWith(ApiError)
      case Replied(text) =>
        match ParsedReply(text, parse)
        case JsonInvalid => FailedWith(NotJson)
        case JsonOther => FailedWith(ApiError)
        case JsonObject(sql, confidence, explanation) =>
          if sql.None? || sql.value == "" then FailedWith(NoSql)
          else Converted(sql.value, confidence.GetOr(DefaultConfidence), explanation)
  }

  /** The conversion sees the reply only through its cleaned JSON. */
  lemma SameJsonSameConversion(a: string, b: string, parse: string -> Json)
    requires ParsedReply(a, parse) == ParsedReply(b, parse)
    ensures TextToSql(true, Replied(a), parse) == TextToSql(true, Replied(b), parse)
  {
  }

  /** Wrapping the model's JSON in a ```json or bare ``` fence changes
      nothing about the conversion. */
  lemma FencedReplyConvertsLikeBare(x: string, parse: string -> Json)
    requires |x| > 0 && !IsSpace(x[0]) && !IsSpace(x[|x| - 1]) && Unfenced(x)
    ensures TextToSql(true, Replied(JsonFence + "\n" + x + "\n" + Fence), parse)
         == TextToSql(true, Replied(x), parse)
    ensures TextToSql(true, Replied(Fence + "\n" + x + "\n" + Fence), parse)
         == TextToSql(true, Replied(x), parse)
  {
    var json := JsonFence + "\n" + x + "\n" + Fence;
    var bare := Fence + "\n" + x + "\n" + Fence;
    JsonFenceStripped(x);
    BareFenceStripped(x);
    PlainReplyKept(x);
    SameJsonSameConversion(json, x, parse);
    SameJsonSameConversion(bare, x, parse);
  }

  // ---------------------------------------------------------------- engines

  /** One row of the engines table, column name to value. */
  type Row = map<string, string>

  const SerialColumn := "serial_number"
  const LastUpdatedColumn := "last_updated"

  /** Changes to these columns wait for an administrator; any other column
      is written at once. */
  const SensitiveAttributes: seq<string> := ["model_name", "engine_family", "power_rating", "displacement"]

  predicate HasSerial(row: Row, serial: string) {
    SerialColumn in row && row[SerialColumn] == serial
  }

  /** `SELECT * FROM engines WHERE serial_number = ?` followed by
      `fetchone()`: the first matching row, if any. */
  function FindEngine(engines: seq<Row>, serial: string): (r: Option<Row>)
    ensures r.Some? ==> r.value in engines && HasSerial(r.value, serial)
    ensures r.None? <==> forall i :: 0 <= i < |engines| ==> !HasSerial(engines[i], serial)
    decreases |engines|
  {
    if |engines| == 0 then None
    else if HasSerial(engines[0], serial) then Some(engines[0])
    else
      var r := FindEngine(engines[1..], serial);
      assert forall i :: 1 <= i < |engines| ==> engines[i] == engines[1..][i - 1];
      r
  }

  /** `UPDATE engines SET <attribute> = ?, last_updated = ? WHERE
      serial_number = ?`: every row with that serial gets the new value and
      the time stamp (SQLite keeps the rightmost assignment when the
      attribute is `last_updated` itself); every other row is untouched. */
  function SetAttribute(engines: seq<Row>, serial: string, attribute: string, value: string, now: string): (r: seq<Row>)
    ensures |r| == |engines|
    ensures forall i :: 0 <= i < |engines| && !HasSerial(engines[i], serial) ==> r[i] == engines[i]
    ensures forall i :: 0 <= i < |engines| && HasSerial(engines[i], serial) ==>
              r[i].Keys == engines[i].Keys + {attribute, LastUpdatedColumn}
              && r[i][LastUpdatedColumn] == now
              && (attribute != LastUpdatedColumn ==> r[i][attribute] == value)
              && forall c :: c in engines[i] && c != attribute && c != LastUpdatedColumn ==> r[i][c] == engines[i][c]
  {
    Map((row: Row) => if HasSerial(row, serial) then row[attribute := value][LastUpdatedColumn := now] else row, engines)
  }

  // ---------------------------------------------------------------- approvals

  datatype Status = Pending | Approved | Rejected

  /** One entry of the approval queue. `approvedAt` and `rejectedAt` are set
      by the administrator's decisions. */
  datatype Approval = Approval(
    id: string,
    serial: string,
    attribute: string,
    oldValue: string,
    newValue: string,
    userId: string,
    justification: string,
    status: Status,
    createdAt: string,
    engine: Row,
    approvedAt: Option<string>,
    rejectedAt: Option<string>)

  datatype State = State(engines: seq<Row>, approvals: map<string, Approval>)

  /** An approval id: the first eight characters of a fresh UUID. */
  function ApprovalId(uuid: string): (r: string)
    ensures |r| <= 8 && IsPrefixOf(r, uuid)
  {
    Take(uuid, 8)
  }

  datatype UpdateOutcome =
    | SearchFailed
    | InvalidAttribute(available: set<string>)
    | ApprovalRequired(approvalId: string, oldValue: string)
    | UpdatedDirectly(oldValue: string, newValue: string)

  /** Changes one attribute of the engine with the given serial. An unknown
      serial or column changes nothing; a sensitive column queues a pending
      approval under a fresh id and leaves the table alone; any other column
      is written at once. */
  function UpdateEngineAttribute(s: State, serial: string, attribute: string, newValue: string,
                                 userId: string, justification: string, uuid: string, now: string)
    : (r: (State, UpdateOutcome))
    ensures r.1.SearchFailed? <==> FindEngine(s.engines, serial).None?
    ensures r.1.SearchFailed? || r.1.InvalidAttribute? ==> r.0 == s
    ensures r.1.InvalidAttribute? ==>
              attribute !in FindEngine(s.engines, serial).value
              && r.1.available == FindEngine(s.engines, serial).value.Keys
    ensures r.1.ApprovalRequired? <==>
              FindEngine(s.engines, serial).Some?
              && attribute in FindEngine(s.engines, serial).value
              && attribute in SensitiveAttributes
    ensures r.1.ApprovalRequired? ==>
              r.1.approvalId in r.0.approvals &&
              var a := r.0.approvals[r.1.approvalId];
              r.0.engines == s.engines
              && r.1.approvalId == ApprovalId(uuid)
              && r.0.approvals.Keys == s.approvals.Keys + {r.1.approvalId}
              && (forall id :: id in s.approvals && id != r.1.approvalId ==> r.0.approvals[id] == s.approvals[id])
              && a.status == Pending && a.serial == serial && a.attribute == attribute
              && a.newValue == newValue && a.oldValue == FindEngine(s.engines, serial).value[attribute]
    ensures r.1.UpdatedDirectly? ==>
              attribute !in SensitiveAttributes
              && r.0.approvals == s.approvals
              && r.0.engines == SetAttribute(s.engines, serial, attribute, newValue, now)
              && FindEngine(s.engines, serial).Some?
              && attribute in FindEngine(s.engines, serial).value
              && r.1.oldValue == FindEngine(s.engines, serial).value[attribute]
  {
    match FindEngine(s.engines, serial)
    case None => (s, SearchFailed)
    case Some(row) =>
      if attribute !in row then (s, InvalidAttribute(row.Keys))
      else if attribute in SensitiveAttributes then
        var id := ApprovalId(uuid);
        var a := Approval(id, serial, attribute, row[attribute], newValue, userId, justification,
                          Pending, now, row, None, None);
        (s.(approvals := s.approvals[id := a]), ApprovalRequired(id, row[attribute]))
      else
        (s.(engines := SetAttribute(s.engines, serial, attribute, newValue, now)),
         UpdatedDirectly(row[attribute], newValue))
  }

  datatype Decision = NotFound(message: string) | Decided(approval: Approval)

  /** Approving executes the queued change and marks the entry approved.
      The entry's current status is not consulted, so an entry can be
      approved more than once, or after it was rejected. */
  function Approve(s: State, id: string, now: string): (r: (State, Decision))
    ensures id !in s.approvals <==> r.1.NotFound?
    ensures r.1.NotFound? ==> r.0 == s && r.1.message == "Approval " + id + " not found"
    ensures r.0.approvals.Keys == s.approvals.Keys
    ensures r.1.Decided? ==>
              var a := s.approvals[id];
              r.0.engines == SetAttribute(s.engines, a.serial, a.attribute, a.newValue, now)
              && r.1.approval == r.0.approvals[id]
              && r.1.approval == a.(status := Approved, approvedAt := Some(now))
              && forall other :: other in s.approvals && other != id ==> r.0.approvals[other] == s.approvals[other]
  {
    if id !in s.approvals then (s, NotFound("Approval " + id + " not found"))
    else
      var a := s.approvals[id];
      var done := a.(status := Approved, approvedAt := Some(now));
      (State(SetAttribute(s.engines, a.serial, a.attribute, a.newValue, now), s.approvals[id := done]),
       Decided(done))
  }

  /** Rejecting only marks the entry rejected; the engines table is never
      touched. */
  function Reject(s: State, id: string, now: string): (r: (State, Decision))
    ensures id !in s.approvals <==> r.1.NotFound?
    ensures r.1.NotFound? ==> r.0 == s && r.1.message == "Approval " + id + " not found"
    ensures r.0.engines == s.engines
    ensures r.0.approvals.Keys == s.approvals.Keys
    ensures r.1.Decided? ==>
              r.1.approval == r.0.approvals[id]
              && r.1.approval == s.approvals[id].(status := Rejected, rejectedAt := Some(now))
              && forall other :: other in s.approvals && other != id ==> r.0.approvals[other] == s.approvals[other]
  {
    if id !in s.approvals then (s, NotFound("Approval " + id + " not found"))
    else
      var done := s.approvals[id].(status := Rejected, rejectedAt := Some(now));
      (s.(approvals := s.approvals[id := done]), Decided(done))
  }

  /** Approving a queued change has the effect the direct update would have
      had, stamped with the approval time. */
  lemma ApprovalAppliesRequestedChange(s: State, serial: string, attribute: string, newValue: string,
                                       userId: string, justification: string, uuid: string, now: string, later: string)
    requires UpdateEngineAttribute(s, serial, attribute, newValue, userId, justification, uuid, now).1.ApprovalRequired?
    ensures var r := UpdateEngineAttribute(s, serial, attribute, newValue, userId, justification, uuid, now);
            Approve(r.0, r.1.approvalId, later).0.engines == SetAttribute(s.engines, serial, attribute, newValue, later)
  {
  }

  // ---------------------------------------------------------------- approval listing

  /** The listing reports as `pending_count` the size of the whole queue. */
  function PendingCountAsWritten(s: State): (n: nat)
    ensures n == |s.approvals.Keys|
  {
    |s.approvals|
  }

  /** The ids of the entries still waiting for a decision. */
  function PendingIds(approvals: map<string, Approval>): (r: set<string>)
    ensures forall id :: id in r <==> id in approvals && approvals[id].status == Pending
  {
    set id | id in approvals && approvals[id].status == Pending
  }

  /** The count the listing's name promises: entries still pending. */
  function PendingCount(s: State): (n: nat)
    ensures n <= |s.approvals|
  {
    var ids := PendingIds(s.approvals);
    assert ids <= s.approvals.Keys;
    SubsetCard(ids, s.approvals.Keys);
    |ids|
  }

  lemma SubsetCard(a: set<string>, b: set<string>)
    requires a <= b
    ensures |a| <= |b|
  {
    if a != {} {
      var x :| x in a;
      SubsetCard(a - {x}, b - {x});
    }
  }

  /** As written, approving a pending entry leaves `pending_count` where it
      was. */
  lemma ApprovedStillCountedAsPending(s: State, id: string, now: string)
    requires id in s.approvals && s.approvals[id].status == Pending
    ensures PendingCountAsWritten(Approve(s, id, now).0) == PendingCountAsWritten(s)
  {
  }

  /** Deciding one pending entry, and changing nothing else, takes exactly
      that entry out of the pending ones. */
  lemma DecidedOneLeavesPending(before: map<string, Approval>, after: map<string, Approval>, id: string)
    requires id in before && before[id].status == Pending
    requires after.Keys == before.Keys && after[id].status != Pending
    requires forall other :: other in before && other != id ==> after[other] == before[other]
    ensures |PendingIds(after)| == |PendingIds(before)| - 1
  {
    assert PendingIds(after) == PendingIds(before) - {id};
  }

  /** Approving or rejecting a pending entry lowers the pending count by one. */
  lemma DecisionLowersPendingCount(s: State, id: string, now: string)
    requires id in s.approvals && s.approvals[id].status == Pending
    ensures PendingCount(Approve(s, id, now).0) == PendingCount(s) - 1
    ensures PendingCount(Reject(s, id, now).0) == PendingCount(s) - 1
  {
    DecidedOneLeavesPending(s.approvals, Approve(s, id, now).0.approvals, id);
    DecidedOneLeavesPending(s.approvals, Reject(s, id, now).0.approvals, id);
  }

  // ---------------------------------------------------------------- table listing

  const ListableTables: seq<string> := ["claims", "engines", "warranty"]

  datatype TableData =
    | TableNotFound(message: string)
    | ReadFailed
    | TableRows(table: string, count: nat, rows: seq<Row>)

  /** Lists a whole table, for the three known tables only; `tables` is the
      database's contents, and a known table the database lacks is a failed
      read. */
  function GetTableData(table: string, tables: map<string, seq<Row>>): (r: TableData)
    ensures r.TableNotFound? <==> table !in ListableTables
    ensures r.TableNotFound? ==> r.message == "Table " + table + " not found"
    ensures r.TableRows? <==> table in ListableTables && table in tables
    ensures r.TableRows? ==> r.table == table && r.rows == tables[table] && r.count == |r.rows|
  {
    if table !in ListableTables then TableNotFound("Table " + table + " not found")
    else if table !in tables then ReadFailed
    else TableRows(table, |tables[table]|, tables[table])
  }
}

=== FILE: graph_build.dfy ===
/** The knowledge-graph loader's text utilities: quote escaping for the
    generated Cypher, predicate-to-relationship-type sanitising, predicate
    shortening, and reading triples from CSV rows. */
module GraphBuild {
  import opened Common
  import opened Text

  // ---------------------------------------------------------------- quote escaping

  /** `normalize`: `text.replace("'", "\\'")`. */
  function Normalize(s: string): string {
    Replace(s, "'", "\\'")
  }

  lemma NormalizeStep(s: string)
    requires |s| > 0
    ensures Normalize(s) == (if s[0] == '\'' then "\\'" else [s[0]]) + Normalize(s[1..])
  {
    if s[0] == '\'' {
      assert "'" <= s;
    } else {
      assert !("'" <= s);
    }
  }

  /** The escaping adds exactly one character per quote. */
  lemma {:induction false} NormalizeLength(s: string)
    ensures |Normalize(s)| == |s| + CountChar(s, '\'')
    decreases |s|
  {
    if |s| > 0 {
      NormalizeStep(s);
      NormalizeLength(s[1..]);
    }
  }

  /** Every quote of the output is preceded by a backslash. */
  lemma {:induction false} NormalizeEscapesQuotes(s: string, i: nat)
    requires i < |Normalize(s)| && Normalize(s)[i] == '\''
    ensures i > 0 && Normalize(s)[i - 1] == '\\'
    decreases |s|
  {
    NormalizeStep(s);
    var head: string := if s[0] == '\'' then "\\'" else [s[0]];
    var r := Normalize(s);
    assert r == head + Normalize(s[1..]);
    if i >= |head| {
      NormalizeEscapesQuotes(s[1..], i - |head|);
      if i - |head| == 0 {
        assert false;
      }
    }
  }

  /** Undoes the escaping: a backslash immediately before a quote is
      dropped. */
  function Unescape(t: string): string
    decreases |t|
  {
    if |t| == 0 then ""
    else if |t| >= 2 && t[0] == '\\' && t[1] == '\'' then "'" + Unescape(t[2..])
    else [t[0]] + Unescape(t[1..])
  }

  /** No other character changes: removing the inserted backslashes gives
      the input back. */
  lemma {:induction false} UnescapeNormalize(s: string)
    ensures Unescape(Normalize(s)) == s
    decreases |s|
  {
    if |s| > 0 {
      NormalizeStep(s);
      UnescapeNormalize(s[1..]);
      var rest := Normalize(s[1..]);
      if s[0] == '\'' {
        assert ("\\'" + rest)[2..] == rest;
      } else if s[0] == '\\' && |rest| > 0 && rest[0] == '\'' {
        assert false;
      } else {
        assert ([s[0]] + rest)[1..] == rest;
      }
      assert s == [s[0]] + s[1..];
    }
  }

  // ---------------------------------------------------------------- relationship types

  predicate IsRelationChar(c: char) {
    IsUpperAscii(c) || IsDigit(c) || c == '_'
  }

  /** `re.sub(r"[^A-Z0-9_]", "", rel)`. */
  function KeepRelationChars(s: string): (r: string)
    ensures forall i :: 0 <= i < |r| ==> IsRelationChar(r[i])
    ensures (forall i :: 0 <= i < |s| ==> IsRelationChar(s[i])) ==> r == s
    decreases |s|
  {
    if |s| == 0 then ""
    else if IsRelationChar(s[0]) then [s[0]] + KeepRelationChars(s[1..])
    else KeepRelationChars(s[1..])
  }

  /** The sanitised predicate before the `REL_` guard. */
  function CleanRelation(pred: string): string {
    KeepRelationChars(Replace(Upper(Strip(pred, Whitespace)), " ", "_"))
  }

  /** Prefixing `REL_` keeps a text made of relationship characters one,
      and gives it a leading letter. */
  lemma RelPrefixed(rel: string)
    requires forall i :: 0 <= i < |rel| ==> IsRelationChar(rel[i])
    ensures var r := "REL_" + rel;
            |r| > 0 && IsUpperAscii(r[0]) && forall i :: 0 <= i < |r| ==> IsRelationChar(r[i])
  {
    var r := "REL_" + rel;
    forall i | 0 <= i < |r|
      ensures IsRelationChar(r[i])
    {
      if i >= 4 {
        assert r[i] == rel[i - 4];
      }
    }
  }

  /** `predicate_to_relation`: a usable Cypher relationship type. */
  function PredicateToRelation(pred: string): (r: string)
    ensures |r| > 0 && IsUpperAscii(r[0])
    ensures forall i :: 0 <= i < |r| ==> IsRelationChar(r[i])
  {
    var rel := CleanRelation(pred);
    if |rel| == 0 || !IsUpperAscii(rel[0]) then
      RelPrefixed(rel);
      "REL_" + rel
    else rel
  }

  /** `REL_` is put in front exactly when the sanitised predicate is empty or
      does not start with a letter; otherwise it is the sanitised predicate. */
  lemma RelationPrefixIff(pred: string)
    ensures var rel := CleanRelation(pred);
            (PredicateToRelation(pred) == "REL_" + rel <==> |rel| == 0 || !IsUpperAscii(rel[0]))
    ensures var rel := CleanRelation(pred);
            |rel| > 0 && IsUpperAscii(rel[0]) ==> PredicateToRelation(pred) == rel
  {
    var rel := CleanRelation(pred);
    if |rel| > 0 && IsUpperAscii(rel[0]) {
      assert |"REL_" + rel| != |rel|;
    }
  }

  /** A text of relationship characters has no space and no lower-case
      letter, so strip and upper-casing leave it alone. */
  lemma RelationCharsStripUpper(r: string)
    requires forall i :: 0 <= i < |r| ==> IsRelationChar(r[i])
    ensures Strip(r, Whitespace) == r && Upper(r) == r
  {
    assert forall i :: 0 <= i < |r| ==> !IsSpace(r[i]);
    StripNoop(r, Whitespace);
    assert forall i :: 0 <= i < |r| ==> UpperChar(r[i]) == r[i];
  }

  /** A text of relationship characters is its own sanitised form. */
  lemma CleanRelationOfRelation(r: string)
    requires forall i :: 0 <= i < |r| ==> IsRelationChar(r[i])
    ensures CleanRelation(r) == r
  {
    RelationCharsStripUpper(r);
    assert ' ' !in r;
    ReplaceAbsent(r, " ", "_");
  }

  /** A relationship type is left as it is. */
  lemma PredicateToRelationIdempotent(pred: string)
    ensures PredicateToRelation(PredicateToRelation(pred)) == PredicateToRelation(pred)
  {
    var r := PredicateToRelation(pred);
    CleanRelationOfRelation(r);
  }

  // ---------------------------------------------------------------- predicate length

  /** Most words a predicate keeps. */
  const MaxPredicateWords: nat := 5

  /** `limit_predicate_length`: the first five words, joined by single
      spaces. */
  function LimitPredicateLength(p: string): string {
    Join(Take(Words(p), MaxPredicateWords), " ")
  }

  /** The shortened predicate consists of the first (at most five) words of
      the original. */
  lemma LimitPredicateLengthWords(p: string)
    ensures Words(LimitPredicateLength(p)) == Take(Words(p), MaxPredicateWords)
    ensures |Words(LimitPredicateLength(p))| <= MaxPredicateWords
  {
    var ws := Words(p);
    var t := Take(ws, MaxPredicateWords);
    assert forall k :: 0 <= k < |t| ==> t[k] == ws[k];
    WordsJoin(t);
  }

  lemma LimitPredicateLengthIdempotent(p: string)
    ensures LimitPredicateLength(LimitPredicateLength(p)) == LimitPredicateLength(p)
  {
    LimitPredicateLengthWords(p);
    var t := Take(Words(p), MaxPredicateWords);
    assert Take(t, MaxPredicateWords) == t;
  }

  // ---------------------------------------------------------------- CSV rows

  datatype RawTriple = RawTriple(docId: string, chunkId: string, subject: string, pred: string, obj: string)

  function StripField(s: string): string { Strip(s, Whitespace) }

  /** The triple of one CSV record numbered `rowNum`: five or more fields are
      `doc_id, chunk_id, subject, predicate, object`; three or four are
      `subject, predicate, object`; fewer are skipped. */
  function ClassifyRow(row: seq<string>, rowNum: nat): (r: Option<RawTriple>)
    ensures r.None? <==> |row| < 3
    ensures |row| >= 5 ==> r == Some(RawTriple(StripField(row[0]), StripField(row[1]),
                                   StripField(row[2]), StripField(row[3]), StripField(row[4])))
    ensures 3 <= |row| < 5 ==> r == Some(RawTriple("unknown", "chunk_" + NatToString(rowNum),
                                   StripField(row[0]), StripField(row[1]), StripField(row[2])))
  {
    if |row| >= 5 then
      Some(RawTriple(StripField(row[0]), StripField(row[1]), StripField(row[2]), StripField(row[3]), StripField(row[4])))
    else if |row| >= 3 then
      Some(RawTriple("unknown", "chunk_" + NatToString(rowNum), StripField(row[0]), StripField(row[1]), StripField(row[2])))
    else None
  }

  /** The results a row classifier gives for the records, numbered from
      `first`, with the skipped records left out. */
  function KeepClassified<T>(classify: (seq<string>, nat) -> Option<T>, rows: seq<seq<string>>, first: nat): (r: seq<T>)
    ensures |r| <= |rows|
    decreases |rows|
  {
    if |rows| == 0 then []
    else
      var rest := KeepClassified(classify, rows[1..], first + 1);
      match classify(rows[0], first)
      case Some(t) => [t] + rest
      case None => rest
  }

  /** Every record that yields a result contributes it, and every result
      comes from some record under its own number. */
  lemma {:induction false} KeepClassifiedMembers<T>(classify: (seq<string>, nat) -> Option<T>,
                                                    rows: seq<seq<string>>, first: nat)
    ensures forall k :: 0 <= k < |rows| && classify(rows[k], first + k).Some? ==>
              classify(rows[k], first + k).value in KeepClassified(classify, rows, first)
    ensures forall t :: t in KeepClassified(classify, rows, first) ==>
              exists k :: 0 <= k < |rows| && classify(rows[k], first + k) == Some(t)
    decreases |rows|
  {
    if |rows| > 0 {
      KeepClassifiedMembers(classify, rows[1..], first + 1);
      assert forall k :: 1 <= k < |rows| ==> rows[k] == rows[1..][k - 1] && first + k == first + 1 + (k - 1);
    }
  }

  /** Classifying two runs of records one after the other classifies their
      concatenation, the second numbered on from the first: the results keep
      record order. */
  lemma {:induction false} KeepClassifiedAppend<T>(classify: (seq<string>, nat) -> Option<T>,
                                                   a: seq<seq<string>>, b: seq<seq<string>>, first: nat)
    ensures KeepClassified(classify, a + b, first)
         == KeepClassified(classify, a, first) + KeepClassified(classify, b, first + |a|)
    decreases |a|
  {
    if |a| == 0 {
      assert a + b == b;
    } else {
      assert (a + b)[1..] == a[1..] + b;
      KeepClassifiedAppend(classify, a[1..], b, first + 1);
    }
  }

  /** One record gives its own result, or nothing. */
  lemma KeepClassifiedSingle<T>(classify: (seq<string>, nat) -> Option<T>, row: seq<string>, n: nat)
    ensures KeepClassified(classify, [row], n)
         == (if classify(row, n).Some? then [classify(row, n).value] else [])
  {
  }

  /** The triples of the records, numbered from `first`. */
  function ParseRows(rows: seq<seq<string>>, first: nat): (r: seq<RawTriple>)
    ensures |r| <= |rows|
    ensures forall k :: 0 <= k < |rows| && |rows[k]| >= 3 ==> ClassifyRow(rows[k], first + k).value in r
    ensures forall t :: t in r ==> exists k :: 0 <= k < |rows| && ClassifyRow(rows[k], first + k) == Some(t)
  {
    KeepClassifiedMembers(ClassifyRow, rows, first);
    KeepClassified(ClassifyRow, rows, first)
  }

  /** Whether the first line names the columns. */
  predicate IsHeader(firstLine: string) {
    Contains(Lower(firstLine), "doc_id") || Contains(Lower(firstLine), "subject")
  }

  /** `parse_csv_file` on the file's first line and its records: a header
      record is skipped and the rest are numbered from 1. */
  function ParseCsv(firstLine: string, records: seq<seq<string>>): (r: seq<RawTriple>)
    ensures |r| <= |records|
    ensures IsHeader(firstLine) && |records| > 0 ==> r == ParseRows(records[1..], 1)
    ensures !IsHeader(firstLine) ==> r == ParseRows(records, 1)
    ensures forall k :: 0 <= k < |records| && !IsHeader(firstLine) && ClassifyRow(records[k], k + 1).Some? ==>
              ClassifyRow(records[k], k + 1).value in r
    ensures forall k :: 1 <= k < |records| && IsHeader(firstLine) && ClassifyRow(records[k], k).Some? ==>
              ClassifyRow(records[k], k).value in r
  {
    var body := if IsHeader(firstLine) && |records| > 0 then records[1..] else records;
    ParseRows(body, 1)
  }

  /** Every record of three or more fields yields exactly one triple, in
      record order. */
  lemma {:induction false} ParseRowsKeepsLongRows(rows: seq<seq<string>>, first: nat)
    ensures |ParseRows(rows, first)| == |Filter((row: seq<string>) => |row| >= 3, rows)|
    decreases |rows|
  {
    if |rows| > 0 {
      ParseRowsKeepsLongRows(rows[1..], first + 1);
    }
  }

  /** Parsing two runs of records one after the other parses their
      concatenation, the second numbered on from the first. */
  lemma ParseRowsAppend(a: seq<seq<string>>, b: seq<seq<string>>, first: nat)
    ensures ParseRows(a + b, first) == ParseRows(a, first) + ParseRows(b, first + |a|)
  {
    KeepClassifiedAppend(ClassifyRow, a, b, first);
  }

  /** One record yields its own triple, or nothing. */
  lemma ParseRowsSingle(row: seq<string>, n: nat)
    ensures ParseRows([row], n) == (if |row| >= 3 then [ClassifyRow(row, n).value] else [])
  {
  }

  /** A short record gets the chunk id of its own number. */
  lemma ParseRowsChunkId(row: seq<string>, rest: seq<seq<string>>, first: nat)
    requires 3 <= |row| < 5
    ensures ParseRows([row] + rest, first)[0].chunkId == "chunk_" + NatToString(first)
    ensures ParseRows([row] + rest, first)[0].docId == "unknown"
  {
    assert ([row] + rest)[1..] == rest;
  }
}

=== FILE: graph_standardize.dfy ===
/** Entity standardisation in the knowledge-graph loader: entity names whose
    normalised forms agree are merged into one representative, predicates
    are shortened, and triples that relate an entity to itself are
    dropped. */
module GraphStandardize {
  import opened Common
  import opened Text
  import opened GraphBuild

  // ---------------------------------------------------------------- string order

  /** Python's `<` on strings: code-point order, a proper prefix first. */
  predicate LexLess(a: string, b: string)
    decreases |a|
  {
    if |a| == 0 then |b| > 0
    else |b| > 0 && (a[0] < b[0] || (a[0] == b[0] && LexLess(a[1..], b[1..])))
  }

  lemma {:induction false} LexLessIrreflexive(a: string)
    ensures !LexLess(a, a)
    decreases |a|
  {
    if |a| > 0 {
      LexLessIrreflexive(a[1..]);
    }
  }

  lemma {:induction false} LexLessTransitive(a: string, b: string, c: string)
    requires LexLess(a, b) && LexLess(b, c)
    ensures LexLess(a, c)
    decreases |a|
  {
    if |a| > 0 && a[0] == b[0] && b[0] == c[0] {
      LexLessTransitive(a[1..], b[1..], c[1..]);
    }
  }

  lemma {:induction false} LexLessTotal(a: string, b: string)
    requires a != b
    ensures LexLess(a, b) || LexLess(b, a)
    decreases |a|
  {
    if |a| > 0 && |b| > 0 && a[0] == b[0] {
      assert a == [a[0]] + a[1..] && b == [b[0]] + b[1..];
      LexLessTotal(a[1..], b[1..]);
    }
  }

  // ---------------------------------------------------------------- counting and choosing

  /** How often the lower-cased subjects and objects equal `v`. */
  function Mentions(triples: seq<RawTriple>, v: string): nat
    decreases |triples|
  {
    if |triples| == 0 then 0
    else
      var t := triples[0];
      (if Lower(t.subject) == v then 1 else 0) + (if Lower(t.obj) == v then 1 else 0)
        + Mentions(triples[1..], v)
  }

  /** `a` is chosen over `b`: more mentions, then shorter, then earlier in
      `(-len, name)` order, that is, the smaller name. */
  predicate Prefer(triples: seq<RawTriple>, a: string, b: string) {
    var ca := Mentions(triples, a);
    var cb := Mentions(triples, b);
    ca > cb || (ca == cb && (|a| < |b| || (|a| == |b| && LexLess(a, b))))
  }

  lemma PreferTransitive(triples: seq<RawTriple>, a: string, b: string, c: string)
    requires Prefer(triples, a, b) && Prefer(triples, b, c)
    ensures Prefer(triples, a, c)
  {
    if Mentions(triples, a) == Mentions(triples, b) == Mentions(triples, c) && |a| == |b| == |c| {
      LexLessTransitive(a, b, c);
    }
  }

  lemma PreferTotal(triples: seq<RawTriple>, a: string, b: string)
    requires a != b
    ensures Prefer(triples, a, b) || Prefer(triples, b, a)
  {
    LexLessTotal(a, b);
  }

  lemma PreferIrreflexive(triples: seq<RawTriple>, a: string)
    ensures !Prefer(triples, a, a)
  {
    LexLessIrreflexive(a);
  }

  /** `sorted(variants, key=lambda x: (-counts[x], len(x)))[0]` on variants
      listed in `(-len, name)` order: the variant no other is preferred to. */
  function Best(triples: seq<RawTriple>, vs: seq<string>): (r: string)
    requires |vs| > 0
    ensures r in vs
    ensures forall w :: w in vs ==> !Prefer(triples, w, r)
    decreases |vs|
  {
    if |vs| == 1 then
      PreferIrreflexive(triples, vs[0]);
      vs[0]
    else
      var b := Best(triples, vs[1..]);
      var v := vs[0];
      if Prefer(triples, v, b) then
        PreferIrreflexive(triples, v);
        assert forall w :: w in vs[1..] && Prefer(triples, w, v) ==> Prefer(triples, w, b) by {
          forall w | w in vs[1..] && Prefer(triples, w, v) ensures Prefer(triples, w, b) {
            PreferTransitive(triples, w, v, b);
          }
        }
        v
      else b
  }

  /** A variant preferred over no other member is the only such member: the
      choice does not depend on the order of the variants. */
  lemma BestUnique(triples: seq<RawTriple>, vs: seq<string>, v: string)
    requires |vs| > 0 && v in vs
    requires forall w :: w in vs ==> !Prefer(triples, w, v)
    ensures v == Best(triples, vs)
  {
    var b := Best(triples, vs);
    if v != b {
      PreferTotal(triples, v, b);
    }
  }

  // ---------------------------------------------------------------- the standard forms

  /** The lower-cased subject and object of every triple, in order. */
  function Names(triples: seq<RawTriple>): (r: seq<string>)
    ensures forall i :: 0 <= i < |triples| ==> Lower(triples[i].subject) in r && Lower(triples[i].obj) in r
    ensures forall e :: e in r ==> exists i :: 0 <= i < |triples| && (e == Lower(triples[i].subject) || e == Lower(triples[i].obj))
    decreases |triples|
  {
    if |triples| == 0 then []
    else
      var rest := Names(triples[1..]);
      assert forall i :: 1 <= i < |triples| ==> triples[i] == triples[1..][i - 1];
      [Lower(triples[0].subject), Lower(triples[0].obj)] + rest
  }

  /** Every entity, lower-cased, once. */
  function AllEntities(triples: seq<RawTriple>): (r: seq<string>)
    ensures Distinct(r)
    ensures forall e :: e in r <==> e in Names(triples)
  {
    Dedup(Names(triples))
  }

  /** The entities whose normalised form is `key`. */
  function Group(triples: seq<RawTriple>, norm: string -> string, key: string): seq<string> {
    Filter((e: string) => norm(e) == key, AllEntities(triples))
  }

  /** The standard form of a lower-cased entity, or `None` when it has no
      group (its normalised form is empty, or it is not an entity). */
  function StandardForm(triples: seq<RawTriple>, norm: string -> string, e: string): (r: Option<string>)
    ensures r.Some? ==> r.value in Group(triples, norm, norm(e)) && norm(r.value) == norm(e)
  {
    var g := Group(triples, norm, norm(e));
    if norm(e) == "" || e !in g then None else Some(Best(triples, g))
  }

  /** `standardized_entities.get(name.lower(), name)`. */
  function Rename(triples: seq<RawTriple>, norm: string -> string, name: string): string {
    StandardForm(triples, norm, Lower(name)).GetOr(name)
  }

  function Apply(triples: seq<RawTriple>, norm: string -> string, t: RawTriple): RawTriple {
    RawTriple(t.docId, t.chunkId, Rename(triples, norm, t.subject),
              LimitPredicateLength(t.pred), Rename(triples, norm, t.obj))
  }

  predicate IsSelfLoop(t: RawTriple) { Lower(t.subject) == Lower(t.obj) }

  /** `standardize_entities`, with `normalize_text` (lemmatiser and
      stop-word list) as the parameter `norm`. */
  function Standardize(triples: seq<RawTriple>, norm: string -> string): (r: seq<RawTriple>)
    ensures |triples| == 0 ==> r == triples
    ensures |r| <= |triples|
    ensures forall t :: t in r ==> !IsSelfLoop(t)
    ensures forall i :: 0 <= i < |triples| && !IsSelfLoop(Apply(triples, norm, triples[i])) ==>
              Apply(triples, norm, triples[i]) in r
  {
    if |triples| == 0 then triples
    else
      var applied := Map((t: RawTriple) => Apply(triples, norm, t), triples);
      Filter((t: RawTriple) => !IsSelfLoop(t), applied)
  }

  /** Every output triple is an input triple with its document and chunk ids
      kept, its names standardised and its predicate shortened to at most
      five words. */
  lemma StandardizeOrigin(triples: seq<RawTriple>, norm: string -> string, t: RawTriple)
    requires t in Standardize(triples, norm)
    ensures exists i :: 0 <= i < |triples| && t == Apply(triples, norm, triples[i])
    ensures |Words(t.pred)| <= MaxPredicateWords
  {
    var applied := Map((t: RawTriple) => Apply(triples, norm, t), triples);
    assert t in applied;
    var i :| 0 <= i < |applied| && applied[i] == t;
    LimitPredicateLengthWords(triples[i].pred);
  }

  /** Names with the same non-empty normalised form get the same standard
      form, and it is the member of their group with the most mentions,
      then the shortest, then the smallest. */
  lemma SameGroupSameForm(triples: seq<RawTriple>, norm: string -> string, a: string, b: string)
    requires a in AllEntities(triples) && b in AllEntities(triples)
    requires norm(a) == norm(b) != ""
    ensures StandardForm(triples, norm, a) == StandardForm(triples, norm, b)
    ensures StandardForm(triples, norm, a).Some?
    ensures forall w :: w in Group(triples, norm, norm(a)) ==>
              !Prefer(triples, w, StandardForm(triples, norm, a).value)
  {
  }

  /** A name whose normalised form is empty keeps its original spelling. */
  lemma EmptyNormKeepsName(triples: seq<RawTriple>, norm: string -> string, name: string)
    requires norm(Lower(name)) == ""
    ensures Rename(triples, norm, name) == name
  {
  }
}

=== FILE: intent_routing.dfy ===
/** The chatbot's orchestrator: a language model classifies the user's
    request into one of four intents with a confidence, and the request is
    routed to the handler of that intent unless the confidence is too low. */
module IntentRouting {
  import opened Common

  datatype Intent = SystemIncident | DataQuery | InformationRequest | ResearchQuery | Unknown

  /** The value each intent carries in the classifier's JSON. */
  function IntentValue(i: Intent): string {
    match i
    case SystemIncident => "system_incident"
    case DataQuery => "data_query"
    case InformationRequest => "information_request"
    case ResearchQuery => "research_query"
    case Unknown => "unknown"
  }

  /** `IntentType(value)`: the intent with that value; any other value
      raises, modelled as `None`. */
  function IntentFromValue(s: string): (r: Option<Intent>)
    ensures r.Some? ==> IntentValue(r.value) == s
  {
    if s == "system_incident" then Some(SystemIncident)
    else if s == "data_query" then Some(DataQuery)
    else if s == "information_request" then Some(InformationRequest)
    else if s == "research_query" then Some(ResearchQuery)
    else if s == "unknown" then Some(Unknown)
    else None
  }

  /** Every intent's value reads back as that intent, so no two intents
      share a value. */
  lemma IntentValueRoundTrip(i: Intent)
    ensures IntentFromValue(IntentValue(i)) == Some(i)
  {
  }

  datatype Classification = Classification(
    intent: Intent,
    confidence: real,
    reasoning: string,
    keywordsMatched: seq<string>,
    urgencyIndicators: seq<string>)

  /** The fields of the classifier's JSON object, with the intent still a
      string. */
  datatype RawClassification = RawClassification(
    intent: string,
    confidence: real,
    reasoning: string,
    keywordsMatched: seq<string>,
    urgencyIndicators: seq<string>)

  /** What the classifier answers when anything goes wrong. */
  const ClassificationFailed := Classification(Unknown, 0.3, "Classification failed", [], [])

  /** The reply's raw text is parsed as JSON (`parse` gives `None` for text
      that is not JSON or lacks a field); a failed call, a failed parse or
      an intent value outside the five gives the failure classification. */
  function ClassifyIntent(reply: LlmReply, parse: string -> Option<RawClassification>): (r: Classification)
    ensures r == ClassificationFailed
         || (reply.Replied? && parse(reply.text).Some?
             && IntentFromValue(parse(reply.text).value.intent) == Some(r.intent)
             && r.confidence == parse(reply.text).value.confidence)
    ensures reply.CallFailed? ==> r == ClassificationFailed
    ensures reply.Replied? && (parse(reply.text).None? || IntentFromValue(parse(reply.text).value.intent).None?) ==>
              r == ClassificationFailed
    ensures reply.Replied? && parse(reply.text).Some? && IntentFromValue(parse(reply.text).value.intent).Some? ==>
              && r.intent == IntentFromValue(parse(reply.text).value.intent).value
              && r.confidence == parse(reply.text).value.confidence
              && r.reasoning == parse(reply.text).value.reasoning
              && r.keywordsMatched == parse(reply.text).value.keywordsMatched
              && r.urgencyIndicators == parse(reply.text).value.urgencyIndicators
  {
    match reply
    case CallFailed => ClassificationFailed
    case Replied(text) =>
      match parse(text)
      case None => ClassificationFailed
      case Some(raw) =>
        match IntentFromValue(raw.intent)
        case None => ClassificationFailed
        case Some(i) => Classification(i, raw.confidence, raw.reasoning, raw.keywordsMatched, raw.urgencyIndicators)
  }

  // ---------------------------------------------------------------- routing

  datatype ConfidenceLevel = Low | Medium | High

  function LevelName(l: ConfidenceLevel): string {
    match l
    case Low => "low"
    case Medium => "medium"
    case High => "high"
  }

  /** Above 0.8 is high, above 0.5 medium, anything else low. */
  function Level(confidence: real): (r: ConfidenceLevel)
    ensures r == High <==> confidence > 0.8
    ensures r == Low <==> confidence <= 0.5
  {
    if confidence > 0.8 then High else if confidence > 0.5 then Medium else Low
  }

  function LevelRank(l: ConfidenceLevel): nat {
    match l
    case Low => 0
    case Medium => 1
    case High => 2
  }

  /** A higher confidence never gets a lower level. */
  lemma LevelMonotone(a: real, b: real)
    requires a <= b
    ensures LevelRank(Level(a)) <= LevelRank(Level(b))
  {
  }

  /** Below this confidence the user is asked to clarify. */
  const ClarificationThreshold: real := 0.5

  datatype Action =
    | ClarificationRequested
    | IncidentTicketCreated
    | DataOperationInitiated
    | KnowledgeSearchPerformed
    | ResearchAnalysisInitiated
    | GeneralFallback

  /** The value the orchestrator reports as `action_taken`. */
  function ActionName(a: Action): string {
    match a
    case ClarificationRequested => "clarification_requested"
    case IncidentTicketCreated => "incident_ticket_created"
    case DataOperationInitiated => "data_operation_initiated"
    case KnowledgeSearchPerformed => "knowledge_search_performed"
    case ResearchAnalysisInitiated => "research_analysis_initiated"
    case GeneralFallback => "general_fallback"
  }

  /** The handler an intent is routed to, if it has one. */
  function HandlerAction(i: Intent): Option<Action> {
    match i
    case SystemIncident => Some(IncidentTicketCreated)
    case DataQuery => Some(DataOperationInitiated)
    case InformationRequest => Some(KnowledgeSearchPerformed)
    case ResearchQuery => Some(ResearchAnalysisInitiated)
    case Unknown => None
  }

  /** Low confidence asks for clarification whatever the intent; otherwise
      each of the four intents goes to its handler and an unknown intent to
      the general fallback. */
  function Route(c: Classification): (r: Action)
    ensures r == ClarificationRequested <==> c.confidence < ClarificationThreshold
    ensures r == GeneralFallback <==> c.confidence >= ClarificationThreshold && c.intent == Unknown
    ensures c.confidence >= ClarificationThreshold && c.intent != Unknown ==> Some(r) == HandlerAction(c.intent)
  {
    if c.confidence < ClarificationThreshold then ClarificationRequested
    else match HandlerAction(c.intent)
      case Some(a) => a
      case None => GeneralFallback
  }

  /** A handler's analysis: the JSON object its language model returned, or
      its fixed fallback dictionary. */
  type Analysis = map<string, string>

  datatype Orchestrated = Orchestrated(
    classification: Classification,
    level: ConfidenceLevel,
    analysis: Option<Analysis>,
    action: Action)

  /** Classifies, buckets the confidence and routes; only a request routed
      to a handler gets that handler's analysis (`analyze`). */
  function ProcessUserInput(c: Classification, analyze: Intent -> Analysis): (r: Orchestrated)
    ensures r.classification == c && r.level == Level(c.confidence)
    ensures r.action == Route(c)
    ensures r.analysis.Some? <==> r.action != ClarificationRequested && r.action != GeneralFallback
    ensures r.analysis.Some? ==> r.analysis.value == analyze(c.intent)
  {
    var action := Route(c);
    var analysis := if action == ClarificationRequested || action == GeneralFallback then None else Some(analyze(c.intent));
    Orchestrated(c, Level(c.confidence), analysis, action)
  }

  /** A failed classification always ends in a request for clarification. */
  lemma FailedClassificationAsksClarification(analyze: Intent -> Analysis)
    ensures ProcessUserInput(ClassificationFailed, analyze).action == ClarificationRequested
    ensures ProcessUserInput(ClassificationFailed, analyze).analysis == None
  {
  }

  /** At exactly 0.5 the level is "low", yet the request still reaches the
      handler of its intent. */
  lemma HalfConfidenceIsLowButRouted(c: Classification, analyze: Intent -> Analysis)
    requires c.confidence == 0.5 && c.intent != Unknown
    ensures ProcessUserInput(c, analyze).level == Low
    ensures Some(ProcessUserInput(c, analyze).action) == HandlerAction(c.intent)
  {
  }

  // ---------------------------------------------------------------- response times

  /** Expected response time by severity; an unknown severity gets the
      medium time. */
  function SlaTime(severity: string): (r: string)
    ensures r in ["30 minutes", "4 hours", "24 hours", "72 hours"]
    ensures severity == "critical" ==> r == "30 minutes"
    ensures severity == "high" ==> r == "4 hours"
    ensures severity == "medium" ==> r == "24 hours"
    ensures severity == "low" ==> r == "72 hours"
  {
    if severity == "critical" then "30 minutes"
    else if severity == "high" then "4 hours"
    else if severity == "medium" then "24 hours"
    else if severity == "low" then "72 hours"
    else "24 hours"
  }

  /** An unknown severity is treated as medium. */
  lemma SlaTimeDefault(severity: string)
    requires severity !in ["critical", "high", "medium", "low"]
    ensures SlaTime(severity) == SlaTime("medium")
  {
  }

  /** The four severities get four different response times. */
  lemma SlaTimesDistinct(a: string, b: string)
    requires a in ["critical", "high", "medium", "low"] && b in ["critical", "high", "medium", "low"]
    requires a != b
    ensures SlaTime(a) != SlaTime(b)
  {
  }
}

=== FILE: llm_text.dfy ===
/** Clean-up applied to a language model's reply before it is parsed as
    JSON. Both the text-to-SQL conversion and the chatbot's
    data-manipulation detection do exactly this; the intent classifier
    parses its reply as it comes. */
module LlmText {
  import opened Text

  const Fence := "```"
  const JsonFence := "```json"

  /** What is left of a fenced text once its fences are removed: a text
      that opens with ```json loses every "```json" and then every "```";
      any other loses every "```". */
  function Unfence(t: string): string {
    if IsPrefixOf(JsonFence, t) then Replace(Replace(t, JsonFence, ""), Fence, "")
    else Replace(t, Fence, "")
  }

  /** The reply is stripped; a reply that then opens with a fence has its
      fences removed and is stripped again. Any other reply is only
      stripped. */
  function StripCodeFence(reply: string): (r: string)
    ensures !IsPrefixOf(Fence, Strip(reply, Whitespace)) ==> r == Strip(reply, Whitespace)
    ensures |r| > 0 ==> !IsSpace(r[0]) && !IsSpace(r[|r| - 1])
  {
    var t := Strip(reply, Whitespace);
    if IsPrefixOf(Fence, t) then Strip(Unfence(t), Whitespace) else t
  }

  /** Neither fence occurs inside a text without a backquote. */
  predicate Unfenced(x: string) {
    '`' !in x
  }

  /** Removing every fence from `a + "```"` keeps `a` when `a` has no
      backquote. */
  lemma DropClosingFence(a: string)
    requires Unfenced(a)
    ensures Replace(a + Fence, Fence, "") == a
  {
    ReplaceAppend(a, Fence, Fence, "");
    ReplaceLead("", Fence, "");
    assert Fence + "" == Fence;
  }

  /** A text that is already stripped is left alone by the first strip. */
  lemma FencedIsStripped(t: string)
    requires IsPrefixOf(Fence, t) && |t| >= 3 && t[|t| - 1] == '`'
    ensures Strip(t, Whitespace) == t
  {
    assert t[0] == '`';
    StripNoop(t, Whitespace);
  }

  lemma UnfenceJson(body: string)
    requires Unfenced(body)
    ensures Unfence(JsonFence + (body + Fence)) == body
  {
    var t := JsonFence + (body + Fence);
    assert IsPrefixOf(JsonFence, t);
    ReplaceLead(body + Fence, JsonFence, "");
    ReplaceAppend(body, Fence, JsonFence, "");
    assert !(JsonFence <= Fence);
    assert Replace(Fence, JsonFence, "") == Fence;
    assert Replace(t, JsonFence, "") == body + Fence;
    DropClosingFence(body);
  }

  lemma UnfenceBare(body: string)
    requires Unfenced(body) && |body| > 0 && body[0] == '\n'
    ensures Unfence(Fence + (body + Fence)) == body
  {
    var t := Fence + (body + Fence);
    assert t[3] == '\n';
    assert !IsPrefixOf(JsonFence, t);
    ReplaceLead(body + Fence, Fence, "");
    DropClosingFence(body);
  }

  /** A JSON body wrapped in a ```json fence comes back exactly. */
  lemma {:induction false} JsonFenceStripped(x: string)
    requires |x| > 0 && !IsSpace(x[0]) && !IsSpace(x[|x| - 1]) && Unfenced(x)
    ensures StripCodeFence(JsonFence + "\n" + x + "\n" + Fence) == x
  {
    var body := "\n" + x + "\n";
    var t := JsonFence + "\n" + x + "\n" + Fence;
    assert t == JsonFence + (body + Fence);
    assert IsPrefixOf(Fence, t);
    FencedIsStripped(t);
    UnfenceJson(body);
    StripWrapped("\n", x, "\n", Whitespace);
  }

  /** A body wrapped in a bare ``` fence comes back exactly. */
  lemma {:induction false} BareFenceStripped(x: string)
    requires |x| > 0 && !IsSpace(x[0]) && !IsSpace(x[|x| - 1]) && Unfenced(x)
    ensures StripCodeFence(Fence + "\n" + x + "\n" + Fence) == x
  {
    var body := "\n" + x + "\n";
    var t := Fence + "\n" + x + "\n" + Fence;
    assert t == Fence + (body + Fence);
    assert IsPrefixOf(Fence, t);
    FencedIsStripped(t);
    UnfenceBare(body);
    StripWrapped("\n", x, "\n", Whitespace);
  }

  /** A reply that is already stripped and holds no fence is kept whole. */
  lemma PlainReplyKept(x: string)
    requires |x| > 0 ==> !IsSpace(x[0]) && !IsSpace(x[|x| - 1])
    requires Unfenced(x)
    ensures StripCodeFence(x) == x
  {
    StripNoop(x, Whitespace);
    if |x| > 0 {
      assert x[0] in x;
    }
  }
}

=== FILE: rag_context.dfy ===
/** Step 4 of the pipeline: the triples along the best paths become the
    context, without repeating a triple, and the entities mentioned most
    often contribute their direct relationships as well. */
module ContextAssembly {
  import opened Common
  import opened Text
  import opened StableSort
  import opened ReasoningPaths
  import opened PathRanking

  /** Most context lines kept, and most ranked paths read. */
  const MaxContextTriples: nat := 50
  /** `Counter(...).most_common(5)`. */
  const TopEntityCount: nat := 5

  datatype Triple = Triple(subject: string, relation: string, obj: string)

  /** Two triples are the same fact when they agree up to letter case. */
  function Key(t: Triple): (string, string, string) {
    (Lower(t.subject), Lower(t.relation), Lower(t.obj))
  }

  /** `(subject) --[relation]--> (object)`. */
  function Format(t: Triple): string {
    "(" + t.subject + ") --[" + t.relation + "]--> (" + t.obj + ")"
  }

  /** The labelled hops of a path; a hop beyond the relation list has no
      predicate and yields no triple. */
  function PathTriples(nodes: seq<string>, relations: seq<string>): (r: seq<Triple>)
    ensures |r| == Min(HopCount(nodes), |relations|)
    ensures forall i :: 0 <= i < |r| ==> r[i] == Triple(nodes[i], relations[i], nodes[i + 1])
  {
    var n := Min(HopCount(nodes), |relations|);
    seq(n, i requires 0 <= i < n => Triple(nodes[i], relations[i], nodes[i + 1]))
  }

  /** The triples of the given paths, path after path. */
  function AllTriples(ranked: seq<ScoredPath>): seq<Triple>
    decreases |ranked|
  {
    if |ranked| == 0 then []
    else PathTriples(ranked[0].path.nodes, ranked[0].path.relations) + AllTriples(ranked[1..])
  }

  function Keys(ts: seq<Triple>): set<(string, string, string)> {
    set t | t in ts :: Key(t)
  }

  predicate KeysDistinct(ts: seq<Triple>) {
    forall i, j :: 0 <= i < j < |ts| ==> Key(ts[i]) != Key(ts[j])
  }

  lemma KeysSnoc(ts: seq<Triple>, t: Triple)
    ensures Keys(ts + [t]) == Keys(ts) + {Key(t)}
  {
    assert forall u :: u in ts + [t] <==> u in ts || u == t;
  }

  lemma KeysDistinctSnoc(ts: seq<Triple>, t: Triple)
    requires KeysDistinct(ts) && Key(t) !in Keys(ts)
    ensures KeysDistinct(ts + [t])
  {
    var r := ts + [t];
    forall i, j | 0 <= i < j < |r|
      ensures Key(r[i]) != Key(r[j])
    {
      if j == |ts| {
        assert r[i] in ts;
      } else {
        assert r[i] == ts[i] && r[j] == ts[j];
      }
    }
  }

  /** The triples whose key has not been seen before, in order: the first
      triple of every key. */
  function FirstOfEachKey(ts: seq<Triple>): (r: seq<Triple>)
    ensures KeysDistinct(r)
    ensures Keys(r) == Keys(ts)
    ensures forall t :: t in r ==> t in ts
    decreases |ts|
  {
    if |ts| == 0 then []
    else
      var init := ts[..|ts| - 1];
      var last := ts[|ts| - 1];
      var d := FirstOfEachKey(init);
      assert ts == init + [last];
      KeysSnoc(init, last);
      if Key(last) in Keys(d) then d
      else
        KeysSnoc(d, last);
        KeysDistinctSnoc(d, last);
        d + [last]
  }

  /** An element appended at the end does not disturb the triples chosen for
      the part before it. */
  lemma {:induction false} FirstOfEachKeyPrefix(ts: seq<Triple>, k: nat)
    requires k <= |ts|
    ensures IsPrefix(FirstOfEachKey(ts[..k]), FirstOfEachKey(ts))
    decreases |ts| - k
  {
    if k < |ts| {
      var init := ts[..|ts| - 1];
      assert init[..k] == ts[..k];
      FirstOfEachKeyPrefix(init, k);
      FirstOfEachKeyStep(ts);
      PrefixTransitive(FirstOfEachKey(ts[..k]), FirstOfEachKey(init), FirstOfEachKey(ts));
    } else {
      assert ts[..k] == ts;
    }
  }

  lemma FirstOfEachKeyStep(ts: seq<Triple>)
    requires |ts| > 0
    ensures IsPrefix(FirstOfEachKey(ts[..|ts| - 1]), FirstOfEachKey(ts))
  {
    var d := FirstOfEachKey(ts[..|ts| - 1]);
    assert (d + [ts[|ts| - 1]])[..|d|] == d;
  }

  /** The triple chosen for a key is the first input triple with that key. */
  lemma {:induction false} FirstOfEachKeyIsFirst(ts: seq<Triple>, i: nat)
    requires i < |ts|
    requires forall j :: 0 <= j < i ==> Key(ts[j]) != Key(ts[i])
    ensures ts[i] in FirstOfEachKey(ts)
    decreases |ts|
  {
    var init := ts[..|ts| - 1];
    var d := FirstOfEachKey(init);
    if i < |ts| - 1 {
      FirstOfEachKeyIsFirst(init, i);
    } else {
      assert Key(ts[i]) !in Keys(d);
    }
  }

  // ---------------------------------------------------------------- entity coverage

  /** The subject and the object of every selected triple, in order: each
      one adds one to that entity's coverage. */
  function Mentions(ts: seq<Triple>): (r: seq<string>)
    ensures |r| == 2 * |ts|
    decreases |ts|
  {
    if |ts| == 0 then [] else Mentions(ts[..|ts| - 1]) + [ts[|ts| - 1].subject, ts[|ts| - 1].obj]
  }

  datatype Count = Count(entity: string, count: nat)

  function CountOf(c: Count): real { c.count as real }

  function Entities(cs: seq<Count>): seq<string> {
    Map((c: Count) => c.entity, cs)
  }

  /** Adds one to `e`'s entry, or appends an entry for it. */
  function Bump(cs: seq<Count>, e: string): (r: seq<Count>)
    ensures |r| == |cs| || |r| == |cs| + 1
    ensures Entities(r) == if e in Entities(cs) then Entities(cs) else Entities(cs) + [e]
    decreases |cs|
  {
    if |cs| == 0 then [Count(e, 1)]
    else if cs[0].entity == e then [Count(e, cs[0].count + 1)] + cs[1..]
    else
      var rest := Bump(cs[1..], e);
      EntitiesCons(cs[0], cs[1..]);
      assert [cs[0]] + cs[1..] == cs;
      EntitiesCons(cs[0], rest);
      [cs[0]] + rest
  }

  lemma EntitiesCons(c: Count, cs: seq<Count>)
    ensures Entities([c] + cs) == [c.entity] + Entities(cs)
  {
  }

  /** A `defaultdict(int)` filled by `+= 1`: one entry per distinct entity,
      in the order entities were first seen. */
  function Tally(mentions: seq<string>): seq<Count>
    decreases |mentions|
  {
    if |mentions| == 0 then []
    else Bump(Tally(mentions[..|mentions| - 1]), mentions[|mentions| - 1])
  }

  /** The count `cs` holds for `e`, or 0. */
  function Lookup(cs: seq<Count>, e: string): nat
    decreases |cs|
  {
    if |cs| == 0 then 0 else if cs[0].entity == e then cs[0].count else Lookup(cs[1..], e)
  }

  lemma {:induction false} BumpLookup(cs: seq<Count>, e: string, x: string)
    requires Distinct(Entities(cs))
    ensures Lookup(Bump(cs, e), x) == Lookup(cs, x) + (if x == e then 1 else 0)
    decreases |cs|
  {
    if |cs| > 0 && cs[0].entity != e {
      assert Entities(cs) == [cs[0].entity] + Entities(cs[1..]);
      BumpLookup(cs[1..], e, x);
      var r := Bump(cs, e);
      assert r[1..] == Bump(cs[1..], e);
    } else if |cs| > 0 {
      if x == e {
      } else {
        var r := Bump(cs, e);
        assert r[1..] == cs[1..];
      }
    }
  }

  /** The tally names every mentioned entity once and counts its mentions. */
  /** Every mentioned entity has exactly one entry. */
  lemma {:induction false} TallyEntities(mentions: seq<string>)
    ensures Distinct(Entities(Tally(mentions)))
    ensures forall e :: e in Entities(Tally(mentions)) <==> e in mentions
    decreases |mentions|
  {
    if |mentions| > 0 {
      var init := mentions[..|mentions| - 1];
      var e := mentions[|mentions| - 1];
      TallyEntities(init);
      assert mentions == init + [e];
      var es := Entities(Tally(init));
      if e !in es {
        DistinctSnoc(es, e);
      }
    }
  }

  /** Each entity's entry counts its mentions. */
  lemma {:induction false} TallyCounts(mentions: seq<string>, x: string)
    ensures Lookup(Tally(mentions), x) == multiset(mentions)[x]
    decreases |mentions|
  {
    if |mentions| > 0 {
      var init := mentions[..|mentions| - 1];
      var e := mentions[|mentions| - 1];
      TallyCounts(init, x);
      TallyEntities(init);
      BumpLookup(Tally(init), e, x);
      MultisetOfLast(mentions, x);
    }
  }

  lemma MultisetOfLast(s: seq<string>, x: string)
    requires |s| > 0
    ensures multiset(s)[x] == multiset(s[..|s| - 1])[x] + (if x == s[|s| - 1] then 1 else 0)
  {
    assert s == s[..|s| - 1] + [s[|s| - 1]];
  }

  /** `[entity for entity, count in Counter(coverage).most_common(5)]`: a
      stable sort by count, ties in first-seen order. */
  function TopEntities(coverage: seq<Count>): (r: seq<string>)
    ensures |r| <= TopEntityCount
  {
    Entities(Take(Sort(coverage, CountOf), TopEntityCount))
  }

  /** Every entity left out of the top five is mentioned no more often than
      any entity in it. */
  lemma TopEntitiesAreMostCommon(coverage: seq<Count>, i: nat, j: nat)
    requires i < TopEntityCount <= j < |coverage|
    ensures Sort(coverage, CountOf)[i].count >= Sort(coverage, CountOf)[j].count
    ensures Sort(coverage, CountOf)[i].entity in TopEntities(coverage)
  {
    SortFacts(coverage, CountOf, 0.0);
    var top := Take(Sort(coverage, CountOf), TopEntityCount);
    assert top[i] == Sort(coverage, CountOf)[i];
  }

  /** `most_common` keeps every entry: the sorted coverage is the coverage
      rearranged. */
  lemma TopEntitiesFromCoverage(coverage: seq<Count>)
    ensures multiset(Sort(coverage, CountOf)) == multiset(coverage)
    ensures forall e :: e in TopEntities(coverage) ==> e in Entities(coverage)
  {
    SortFacts(coverage, CountOf, 0.0);
    var sorted := Sort(coverage, CountOf);
    forall e | e in TopEntities(coverage) ensures e in Entities(coverage) {
      var top := Take(sorted, TopEntityCount);
      var k :| 0 <= k < |top| && Entities(top)[k] == e;
      assert top[k] in multiset(coverage);
      var m :| 0 <= m < |coverage| && coverage[m] == top[k];
      assert Entities(coverage)[m] == e;
    }
  }

  // ---------------------------------------------------------------- backfill

  /** Appends each line that is not already present, as the backfill loop
      does with `if triple_str not in context_triples`. */
  function AppendNew(ctx: seq<string>, lines: seq<string>): (r: seq<string>)
    ensures IsPrefix(ctx, r)
    ensures forall l :: l in r <==> l in ctx || l in lines
    decreases |lines|
  {
    if |lines| == 0 then ctx
    else
      var acc := AppendNew(ctx, lines[..|lines| - 1]);
      var l := lines[|lines| - 1];
      assert lines == lines[..|lines| - 1] + [l];
      if l in acc then acc else acc + [l]
  }

  lemma {:induction false} AppendNewDistinct(ctx: seq<string>, lines: seq<string>)
    requires Distinct(ctx)
    ensures Distinct(AppendNew(ctx, lines))
    decreases |lines|
  {
    if |lines| > 0 {
      AppendNewDistinct(ctx, lines[..|lines| - 1]);
    }
  }

  /** One direct relationship of an entity, as the backfill query returns it. */
  function FormatRow(t: Triple): string { Format(t) }

  /** `_add_direct_triples`: the direct relationships of the top entities,
      up to the first failing query, appended when new. */
  function Backfill(ctx: seq<string>, top: seq<string>, direct: string -> Fetch<Triple>): seq<string> {
    AppendNew(ctx, Map(Format, Collect(top, direct)))
  }

  // ---------------------------------------------------------------- the whole step

  /** The triples selected from the best paths. */
  function PathContext(ranked: seq<ScoredPath>): seq<Triple> {
    FirstOfEachKey(AllTriples(Take(ranked, MaxContextTriples)))
  }

  /** `assemble_context_from_paths`. */
  function Assemble(ranked: seq<ScoredPath>, direct: string -> Fetch<Triple>): (r: seq<string>)
    ensures |r| <= MaxContextTriples
    ensures IsPrefix(Take(Map(Format, PathContext(ranked)), MaxContextTriples), r)
    ensures |r| < MaxContextTriples ==>
              forall t :: t in Collect(TopEntities(Tally(Mentions(PathContext(ranked)))), direct) ==> Format(t) in r
  {
    var chosen := PathContext(ranked);
    var lines := Map(Format, chosen);
    var top := TopEntities(Tally(Mentions(chosen)));
    var all := Backfill(lines, top, direct);
    TakePrefix(lines, all, MaxContextTriples);
    Take(all, MaxContextTriples)
  }

  /** Only the first `MaxContextTriples` ranked paths matter. */
  lemma AssembleReadsTopPaths(ranked: seq<ScoredPath>, direct: string -> Fetch<Triple>)
    ensures Assemble(ranked, direct) == Assemble(Take(ranked, MaxContextTriples), direct)
  {
    assert Take(Take(ranked, MaxContextTriples), MaxContextTriples) == Take(ranked, MaxContextTriples);
  }

  /** Every context line is a path triple or a direct relationship of a top
      entity, and no line occurs twice. */
  lemma AssembleLines(ranked: seq<ScoredPath>, direct: string -> Fetch<Triple>, l: string)
    requires l in Assemble(ranked, direct)
    ensures (exists t :: t in PathContext(ranked) && l == Format(t))
         || (exists t :: t in Collect(TopEntities(Tally(Mentions(PathContext(ranked)))), direct) && l == Format(t))
  {
    var chosen := PathContext(ranked);
    var lines := Map(Format, chosen);
    var top := TopEntities(Tally(Mentions(chosen)));
    var all := Backfill(lines, top, direct);
    assert l in all;
    if l in lines {
      var i :| 0 <= i < |lines| && lines[i] == l;
      assert chosen[i] in chosen;
    } else {
      var rows := Collect(top, direct);
      var i :| 0 <= i < |Map(Format, rows)| && Map(Format, rows)[i] == l;
      assert rows[i] in rows;
    }
  }
}

=== FILE: rag_entities.dfy ===
/** Step 1 of the question-answering pipeline: the entities of a question,
    read from a language model's reply, with a keyword fallback, and then
    widened with similarly named entities of the knowledge graph. */
module EntityExtraction {
  import opened Common
  import opened Text

  /** `unique_entities[:8]`. */
  const MaxFallbackEntities: nat := 8
  /** `LIMIT` of the similar-name query, per entity. */
  const MaxSimilarPerEntity: nat := 10

  predicate IsDoubleQuote(c: char) { c == '"' }
  predicate IsSingleQuote(c: char) { c == '\'' }

  const DoubleQuotes := Only({'"'})
  const SingleQuotes := Only({'\''})

  // ---------------------------------------------------------------- manual parsing

  /** Strips by each character class in turn. */
  function StripEach(s: string, cuts: seq<StripSet>): (r: string)
    ensures |r| <= |s|
    ensures |cuts| > 0 && |r| > 0 ==> !Cuts(cuts[|cuts| - 1], r[0]) && !Cuts(cuts[|cuts| - 1], r[|r| - 1])
    decreases |cuts|
  {
    if |cuts| == 0 then s
    else
      var r := StripEach(Strip(s, cuts[0]), cuts[1..]);
      assert |cuts| > 1 ==> cuts[1..][|cuts| - 2] == cuts[|cuts| - 1];
      r
  }

  lemma StripEachCons(s: string, c: StripSet, cs: seq<StripSet>)
    ensures StripEach(s, [c] + cs) == StripEach(Strip(s, c), cs)
  {
    assert ([c] + cs)[1..] == cs;
  }

  /** The classes `item.strip().strip('"').strip("'").strip()` removes, in
      order. */
  const CleanCuts: seq<StripSet> := [Whitespace, DoubleQuotes, SingleQuotes, Whitespace]

  /** `item.strip().strip('"').strip("'").strip()`. */
  function CleanItem(item: string): (r: string)
    ensures |r| <= |item|
    ensures |r| > 0 ==> !IsSpace(r[0]) && !IsSpace(r[|r| - 1])
  {
    StripEach(item, CleanCuts)
  }

  predicate NonEmpty(e: string) { |e| > 0 }

  /** `_parse_entities_manually`: the comma-separated items, cleaned, empty
      ones dropped. */
  function ParseManually(content: string): (r: seq<string>)
    ensures |r| <= |Split(content, ',')|
  {
    Filter(NonEmpty, Map(CleanItem, Split(content, ',')))
  }

  /** Every parsed item is non-empty and has no whitespace at either end. */
  lemma ParseManuallyItems(content: string, e: string)
    requires e in ParseManually(content)
    ensures |e| > 0 && !IsSpace(e[0]) && !IsSpace(e[|e| - 1])
  {
    var items := Split(content, ',');
    var cleaned := Map(CleanItem, items);
    assert e in cleaned && NonEmpty(e);
    var i :| 0 <= i < |cleaned| && cleaned[i] == e;
    CleanedEnds(items, i);
  }

  lemma CleanedEnds(items: seq<string>, i: nat)
    requires i < |items|
    ensures var e := Map(CleanItem, items)[i];
            |e| > 0 ==> !IsSpace(e[0]) && !IsSpace(e[|e| - 1])
  {
  }

  /** An entity name that survives quoting and cleaning unchanged. */
  predicate CleanEntity(x: string) {
    && |x| > 0
    && ',' !in x
    && !IsSpace(x[0]) && !IsSpace(x[|x| - 1])
    && !IsDoubleQuote(x[0]) && !IsDoubleQuote(x[|x| - 1])
    && !IsSingleQuote(x[0]) && !IsSingleQuote(x[|x| - 1])
  }

  function Quote(x: string): string { "\"" + x + "\"" }

  function SpacedQuote(x: string): string { " " + Quote(x) }

  /** The inside of a list literal as the model is asked to write it:
      `"a", "b", "c"`. */
  function ListText(items: seq<string>): string {
    Join(Map(Quote, items), ", ")
  }

  /** The classes left after the first strip. */
  const InnerCuts: seq<StripSet> := [DoubleQuotes, SingleQuotes, Whitespace]

  /** The first strip removes only the leading space. */
  lemma CleanOuter(x: string, lead: string)
    requires CleanEntity(x)
    requires lead == "" || lead == " "
    ensures CleanItem(lead + Quote(x)) == StripEach(Quote(x), InnerCuts)
  {
    var q := Quote(x);
    QuoteEnds(x);
    StripSpaceLead(q);
    if lead == "" {
      assert lead + q == q;
    }
    assert Strip(lead + q, Whitespace) == q;
    assert CleanCuts == [Whitespace] + InnerCuts;
    StripEachCons(lead + q, Whitespace, InnerCuts);
  }

  /** Stripping a text with non-space ends, with or without one space in
      front, gives the text. */
  lemma StripSpaceLead(q: string)
    requires |q| > 0 && !IsSpace(q[0]) && !IsSpace(q[|q| - 1])
    ensures Strip(q, Whitespace) == q
    ensures Strip(" " + q, Whitespace) == q
  {
    StripNoop(q, Whitespace);
    assert " " + q == " " + q + "";
    StripWrapped(" ", q, "", Whitespace);
  }

  lemma QuoteEnds(x: string)
    ensures |Quote(x)| == |x| + 2
    ensures Quote(x)[0] == '"' && Quote(x)[|x| + 1] == '"'
  {
  }

  /** The quote strip removes the quotes; the rest changes nothing. */
  lemma CleanInner(x: string)
    requires CleanEntity(x)
    ensures StripEach(Quote(x), InnerCuts) == x
  {
    var c1: seq<StripSet> := [Whitespace];
    var c2 := [SingleQuotes] + c1;
    assert InnerCuts == [DoubleQuotes] + c2;
    StripEachCons(Quote(x), DoubleQuotes, c2);
    StripQuotes(x);
    StripEachCons(x, SingleQuotes, c1);
    CleanLast(x);
  }

  /** The quote strips take off the double quotes and nothing else. */
  lemma StripQuotes(x: string)
    requires CleanEntity(x)
    ensures Strip(Quote(x), DoubleQuotes) == x
    ensures Strip(x, SingleQuotes) == x
  {
    StripWrapped("\"", x, "\"", DoubleQuotes);
    StripNoop(x, SingleQuotes);
  }

  lemma CleanLast(x: string)
    requires CleanEntity(x)
    ensures StripEach(x, [Whitespace]) == x
  {
    StripEachCons(x, Whitespace, []);
    assert [Whitespace] + [] == [Whitespace];
    StripNoop(x, Whitespace);
  }

  lemma CleanQuoted(x: string, lead: string)
    requires CleanEntity(x)
    requires lead == "" || lead == " "
    ensures CleanItem(lead + Quote(x)) == x
  {
    CleanOuter(x, lead);
    CleanInner(x);
  }

  lemma {:induction false} ListTextPieces(items: seq<string>)
    requires |items| >= 1
    ensures ListText(items) == Join([Quote(items[0])] + Map(SpacedQuote, items[1..]), ",")
    decreases |items|
  {
    if |items| == 1 {
      assert Map(Quote, items) == [Quote(items[0])];
      assert [Quote(items[0])] + Map(SpacedQuote, items[1..]) == [Quote(items[0])];
    } else {
      var tail := items[1..];
      ListTextPieces(tail);
      assert Map(Quote, items)[1..] == Map(Quote, tail);
      var rest := [Quote(tail[0])] + Map(SpacedQuote, tail[1..]);
      JoinPrefixFirst(" ", rest, ",");
      assert [" " + rest[0]] + rest[1..] == Map(SpacedQuote, tail);
      var pieces := [Quote(items[0])] + Map(SpacedQuote, tail);
      assert pieces[1..] == Map(SpacedQuote, tail);
      assert Join(pieces, ",") == Quote(items[0]) + "," + (" " + ListText(tail));
      assert ListText(items) == Quote(items[0]) + ", " + ListText(tail);
    }
  }

  /** The pieces between the commas of a list in the requested format. */
  function ListPieces(items: seq<string>): (r: seq<string>)
    requires |items| >= 1
    ensures |r| == |items|
  {
    [Quote(items[0])] + Map(SpacedQuote, items[1..])
  }

  /** Piece `k`: the quoted item, after a space unless it is the first. */
  lemma PieceAt(items: seq<string>, k: nat)
    requires |items| >= 1 && k < |items|
    ensures ListPieces(items)[k] == (if k == 0 then "" else " ") + Quote(items[k])
  {
    if k == 0 {
      assert "" + Quote(items[0]) == Quote(items[0]);
    } else {
      var tail := items[1..];
      assert ListPieces(items)[k] == Map(SpacedQuote, tail)[k - 1];
      assert tail[k - 1] == items[k];
    }
  }

  lemma CleanPiece(items: seq<string>, k: nat)
    requires |items| >= 1 && k < |items|
    requires CleanEntity(items[k])
    ensures ',' !in ListPieces(items)[k]
    ensures CleanItem(ListPieces(items)[k]) == items[k]
  {
    var x := items[k];
    var lead := if k == 0 then "" else " ";
    PieceAt(items, k);
    CleanQuoted(x, lead);
    NoCharQuoted(x, lead, ',');
  }

  lemma NoCharQuoted(x: string, lead: string, c: char)
    requires c !in x && c !in lead && c != '"'
    ensures c !in lead + Quote(x)
  {
    assert lead + Quote(x) == lead + ['"'] + x + ['"'];
  }

  lemma CleanPieces(items: seq<string>)
    requires |items| >= 1
    requires forall i :: 0 <= i < |items| ==> CleanEntity(items[i])
    ensures forall k :: 0 <= k < |items| ==> ',' !in ListPieces(items)[k]
    ensures Map(CleanItem, ListPieces(items)) == items
  {
    forall k | 0 <= k < |items|
      ensures ',' !in ListPieces(items)[k]
      ensures CleanItem(ListPieces(items)[k]) == items[k]
    {
      CleanPiece(items, k);
    }
  }

  /** A list written in the requested format is read back item for item by
      the manual parser. */
  lemma ParseManuallyRoundTrip(items: seq<string>)
    requires forall i :: 0 <= i < |items| ==> CleanEntity(items[i])
    ensures ParseManually(ListText(items)) == items
  {
    if |items| == 0 {
      assert Map(CleanItem, Split("", ',')) == [""];
    } else {
      var pieces := ListPieces(items);
      ListTextPieces(items);
      CleanPieces(items);
      SplitJoin(pieces, ',');
      assert Split(ListText(items), ',') == pieces;
      FilterAll(NonEmpty, items);
    }
  }

  // ---------------------------------------------------------------- the list in the reply

  /** The part of `t` before the first `c`. */
  function UpTo(t: string, c: char): (r: string)
    requires c in t
    ensures |r| < |t| && t[..|r|] == r && t[|r|] == c
    ensures c !in r
    decreases |t|
  {
    if t[0] == c then "" else [t[0]] + UpTo(t[1..], c)
  }

  /** Whether a `[` opening a non-empty run of non-`]` characters closed by a
      `]` starts at position `i` of `s`. */
  predicate GroupAt(s: string, i: nat) {
    i + 1 < |s| && s[i] == '[' && s[i + 1] != ']' && ']' in s[i + 1..]
  }

  /** No match anywhere for the pattern `\[([^\]]+)\]`. */
  predicate NoBracketGroup(s: string) {
    forall i :: 0 <= i < |s| ==> !GroupAt(s, i)
  }

  lemma GroupAtShift(s: string, i: nat)
    requires 0 < |s|
    ensures GroupAt(s[1..], i) <==> GroupAt(s, i + 1)
  {
    if i + 1 < |s[1..]| {
      assert s[1..][i + 1..] == s[i + 2..];
    }
  }

  lemma NoBracketGroupStep(s: string)
    requires |s| > 0
    ensures NoBracketGroup(s) <==> !GroupAt(s, 0) && NoBracketGroup(s[1..])
  {
    if NoBracketGroup(s) {
      forall i | 0 <= i < |s[1..]| ensures !GroupAt(s[1..], i) {
        GroupAtShift(s, i);
      }
    }
    if !GroupAt(s, 0) && NoBracketGroup(s[1..]) {
      forall i | 0 <= i < |s| ensures !GroupAt(s, i) {
        if i > 0 {
          GroupAtShift(s, i - 1);
        }
      }
    }
  }

  /** `re.search(r'\[([^\]]+)\]', s).group(1)`: the text between the first
      `[` that opens a match and the `]` closing it. */
  function BracketGroup(s: string): (r: Option<string>)
    ensures r.Some? ==> |r.value| > 0 && ']' !in r.value && Contains(s, "[" + r.value + "]")
    ensures r.None? <==> NoBracketGroup(s)
    decreases |s|
  {
    if |s| == 0 then None
    else
      NoBracketGroupStep(s);
      if GroupAt(s, 0) then
        var g := UpTo(s[1..], ']');
        assert s[..|g| + 2] == "[" + g + "]";
        Some(g)
      else BracketGroup(s[1..])
  }

  /** The text before a closing character that occurs nowhere earlier. */
  lemma UpToLast(body: string, c: char)
    requires c !in body
    ensures c in body + [c]
    ensures UpTo(body + [c], c) == body
  {
    var t := body + [c];
    assert t[|body|] == c;
    assert t[..|body|] == body;
  }

  lemma BracketedTail(body: string)
    ensures ("[" + body + "]")[1..] == body + [']']
    ensures |"[" + body + "]"| == |body| + 2
    ensures ("[" + body + "]")[0] == '['
    ensures |body| > 0 ==> ("[" + body + "]")[1] == body[0]
  {
  }

  lemma BracketGroupOfList(body: string)
    requires |body| > 0 && body[0] != ']' && ']' !in body
    ensures BracketGroup("[" + body + "]") == Some(body)
  {
    var s := "[" + body + "]";
    var t := s[1..];
    BracketedTail(body);
    UpToLast(body, ']');
    assert s[0] == '[' && s[1] == body[0];
    assert GroupAt(s, 0);
    NoBracketGroupStep(s);
    assert BracketGroup(s) == Some(UpTo(t, ']'));
  }

  // ---------------------------------------------------------------- the whole step

  /** An element `set(...)` cannot hash. The text evaluated never holds a
      closing bracket inside the list, so a nested list cannot occur: only a
      dict or set display can. */
  datatype Unhashable = DictElement | SetElement

  /** The Python type name of an unhashable element. */
  function TypeName(u: Unhashable): string {
    match u
    case DictElement => "dict"
    case SetElement => "set"
  }

  /** What `ast.literal_eval` makes of a text: a list of names; a list holding
      an unhashable element; some other value; or an error. */
  datatype Literal = ListOfNames(names: seq<string>) | ListWithUnhashable(kind: Unhashable) | NotAList | Malformed

  /** The entities handed to the next step. `UnhashableList` is a list that
      the next step's `set(...)` cannot take. */
  datatype Extracted = Entities(names: seq<string>) | UnhashableList(kind: Unhashable)

  /** The pattern matches, stripped, that are longer than two characters. */
  function Qualifying(matches: seq<string>): seq<string> {
    Filter((e: string) => |e| > 2, Map((m: string) => Strip(m, Whitespace), matches))
  }

  /** `_extract_entities_fallback`, given the pattern matches found in the
      question. The entities come from a Python `set`, whose order the
      language leaves open; the model keeps first occurrences, and every
      property stated about it holds whatever the order. */
  function FallbackEntities(matches: seq<string>): (r: seq<string>)
    ensures |r| <= MaxFallbackEntities
    ensures Distinct(r)
  {
    var unique := Dedup(Qualifying(matches));
    TakeDistinct(unique, MaxFallbackEntities);
    Take(unique, MaxFallbackEntities)
  }

  /** Every fallback entity is a stripped match of more than two
      characters. */
  lemma FallbackEntitiesSound(matches: seq<string>, e: string)
    requires e in FallbackEntities(matches)
    ensures |e| > 2 && Strip(e, Whitespace) == e
    ensures exists i :: 0 <= i < |matches| && Strip(matches[i], Whitespace) == e
  {
    var stripped := Map((m: string) => Strip(m, Whitespace), matches);
    assert e in Dedup(Qualifying(matches));
    assert e in stripped;
    var i :| 0 <= i < |stripped| && stripped[i] == e;
    StripNoop(e, Whitespace);
  }

  /** Fewer than eight fallback entities means that no qualifying match was
      left out. */
  lemma FallbackEntitiesComplete(matches: seq<string>, i: nat)
    requires i < |matches| && |Strip(matches[i], Whitespace)| > 2
    requires |FallbackEntities(matches)| < MaxFallbackEntities
    ensures Strip(matches[i], Whitespace) in FallbackEntities(matches)
  {
    var stripped := Map((m: string) => Strip(m, Whitespace), matches);
    assert stripped[i] in stripped;
    assert stripped[i] in Qualifying(matches);
  }

  /** `extract_entities_with_claude`. The reply is stripped; the first
      bracketed list in it is evaluated, and parsed by hand if evaluation
      fails; a reply without one is evaluated whole. A failed call, or a
      failed whole-reply evaluation, falls back to the keyword matches. */
  function Extract(reply: LlmReply, eval: string -> Literal, keywordMatches: seq<string>): (r: Extracted)
    ensures r.UnhashableList? ==> reply.Replied?
    ensures reply.CallFailed? ==> r.Entities? && |r.names| <= MaxFallbackEntities && Distinct(r.names)
  {
    match reply
    case CallFailed => Entities(FallbackEntities(keywordMatches))
    case Replied(text) =>
      var raw := Strip(text, Whitespace);
      match BracketGroup(raw)
      case Some(group) =>
        (match eval("[" + group + "]")
         case ListOfNames(names) => Entities(names)
         case ListWithUnhashable(kind) => UnhashableList(kind)
         case NotAList => Entities([])
         case Malformed => Entities(ParseManually(group)))
      case None =>
        (match eval(raw)
         case ListOfNames(names) => Entities(names)
         case ListWithUnhashable(kind) => UnhashableList(kind)
         case NotAList => Entities([])
         case Malformed => Entities(FallbackEntities(keywordMatches)))
  }

  lemma ListTextShape(items: seq<string>)
    requires |items| >= 1
    requires forall i :: 0 <= i < |items| ==> ']' !in items[i]
    ensures |ListText(items)| > 0 && ListText(items)[0] == '"'
    ensures ']' !in ListText(items)
  {
    var quoted := Map(Quote, items);
    forall k | 0 <= k < |quoted| ensures ']' !in quoted[k] {
      NoCharQuoted(items[k], "", ']');
      assert "" + Quote(items[k]) == quoted[k];
    }
    JoinNoChar(quoted, ", ", ']');
    JoinEnds(quoted, ", ");
    var q0 := quoted[0];
    assert q0 == Quote(items[0]) && q0[0] == '"';
    assert ListText(items)[..|q0|] == q0;
    assert ListText(items)[0] == q0[0];
  }

  /** A reply holding a list in the requested format yields its items, even
      when evaluating it fails. */
  lemma ExtractRecoversQuotedList(items: seq<string>, eval: string -> Literal, keywordMatches: seq<string>)
    requires |items| >= 1
    requires forall i :: 0 <= i < |items| ==> CleanEntity(items[i]) && ']' !in items[i]
    requires eval("[" + ListText(items) + "]") == Malformed
    ensures Extract(Replied("[" + ListText(items) + "]"), eval, keywordMatches) == Entities(items)
  {
    var body := ListText(items);
    ListTextShape(items);
    var text := "[" + body + "]";
    StripNoop(text, Whitespace);
    BracketGroupOfList(body);
    ParseManuallyRoundTrip(items);
  }

  // ---------------------------------------------------------------- similar names

  /** The names the similar-name query returns for each entity, up to the
      first failing query. */
  function SimilarNames(entities: seq<string>, lookup: string -> Fetch<string>): seq<string> {
    Collect(entities, SimilarQuery(lookup))
  }

  /** The similar-name query, cut at its `LIMIT`. */
  function SimilarQuery(lookup: string -> Fetch<string>): string -> Fetch<string> {
    (e: string) => Limit(lookup(e), MaxSimilarPerEntity)
  }

  /** `find_similar_entities_in_kg`: the entities together with every similar
      name delivered before the first failing query, without repetition, in
      the unspecified order of `list(set)`. */
  method ResolveEntities(entities: seq<string>, lookup: string -> Fetch<string>) returns (r: seq<string>)
    ensures Distinct(r)
    ensures forall e :: e in r <==> e in entities || e in SimilarNames(entities, lookup)
  {
    var found := CollectLoop(entities, SimilarQuery(lookup));
    var all := Elems(entities) + Elems(found);
    r := SetToSeq(all);
  }
}

=== FILE: rag_paths.dfy ===
/** Multi-hop path discovery: the rows the graph store returns for each seed
    entity become path records, each carrying a human-readable rendering. */
module ReasoningPaths {
  import opened Common
  import opened Text

  /** Longest path the discovery query asks for, in hops. */
  const MaxHops: nat := 3
  /** `LIMIT` of the discovery query, per seed entity. */
  const MaxPathsPerEntity: nat := 20

  /** One row of the discovery query: node names, relationship types and
      the hop count the store reports. */
  datatype PathRecord = PathRecord(nodes: seq<string>, relations: seq<string>, length: nat)

  /** The record kept for one discovered path. */
  datatype PathInfo = PathInfo(
    startEntity: string,
    endEntity: string,
    nodes: seq<string>,
    relations: seq<string>,
    length: nat,
    rendered: string)

  /** Hop `i`: `a --[rel]--> b` when the relation list reaches it,
      otherwise `a --> b`. */
  function Segment(nodes: seq<string>, relations: seq<string>, i: nat): string
    requires i + 1 < |nodes|
  {
    if i < |relations| then nodes[i] + " --[" + relations[i] + "]--> " + nodes[i + 1]
    else nodes[i] + " --> " + nodes[i + 1]
  }

  /** Appending five pieces one by one appends their concatenation. */
  lemma AppendFive(p: string, a: string, b: string, c: string, d: string, e: string)
    ensures p + (a + b + c + d + e) == p + a + b + c + d + e
  {
  }

  function HopCount(nodes: seq<string>): nat {
    if |nodes| == 0 then 0 else |nodes| - 1
  }

  function Segments(nodes: seq<string>, relations: seq<string>): (r: seq<string>)
    ensures |r| == HopCount(nodes)
  {
    seq(HopCount(nodes), i requires 0 <= i < HopCount(nodes) => Segment(nodes, relations, i))
  }

  /** Reference rendering of a path: a lone node is its own name; otherwise
      one segment per hop, separated by `" | "`. */
  function Render(nodes: seq<string>, relations: seq<string>): string {
    if |nodes| == 1 then nodes[0] else Join(Segments(nodes, relations), " | ")
  }

  /** `_format_path`, written as the loop that collects the parts and joins
      them. */
  method FormatPath(nodes: seq<string>, relations: seq<string>) returns (r: string)
    ensures r == Render(nodes, relations)
    ensures |nodes| == 1 ==> r == nodes[0]
  {
    if |nodes| == 1 {
      return nodes[0];
    }
    var parts: seq<string> := [];
    var i := 0;
    while i < HopCount(nodes)
      invariant 0 <= i <= HopCount(nodes)
      invariant parts == Segments(nodes, relations)[..i]
    {
      parts := parts + [Segment(nodes, relations, i)];
      i := i + 1;
    }
    assert parts == Segments(nodes, relations);
    r := Join(parts, " | ");
  }

  lemma PrefixTrans(a: string, b: string, c: string)
    requires IsPrefixOf(a, b) && IsPrefixOf(b, c)
    ensures IsPrefixOf(a, c)
  {
    assert c[..|a|] == c[..|b|][..|a|];
  }

  lemma SuffixTrans(a: string, b: string, c: string)
    requires IsSuffixOf(a, b) && IsSuffixOf(b, c)
    ensures IsSuffixOf(a, c)
  {
    assert c[|c| - |a|..] == c[|c| - |b|..][|b| - |a|..];
  }

  /** Each hop's segment starts at its first node and ends at its second. */
  lemma SegmentEnds(nodes: seq<string>, relations: seq<string>, i: nat)
    requires i + 1 < |nodes|
    ensures IsPrefixOf(nodes[i] + " --", Segment(nodes, relations, i))
    ensures IsSuffixOf("--> " + nodes[i + 1], Segment(nodes, relations, i))
  {
    var head := nodes[i] + " --";
    var tail := "--> " + nodes[i + 1];
    var seg := Segment(nodes, relations, i);
    if i < |relations| {
      assert seg == head + ("[" + relations[i] + "]") + tail;
      assert seg[..|head|] == head;
      assert seg[|seg| - |tail|..] == tail;
    } else {
      assert seg == head + ("> " + nodes[i + 1]);
      assert seg == nodes[i] + " " + tail;
      assert seg[..|head|] == head;
      assert seg[|seg| - |tail|..] == tail;
    }
  }

  /** A rendering of two or more nodes starts at the first node and ends at
      the last one. */
  lemma RenderEnds(nodes: seq<string>, relations: seq<string>)
    requires |nodes| >= 2
    ensures IsPrefixOf(nodes[0] + " --", Render(nodes, relations))
    ensures IsSuffixOf("--> " + nodes[|nodes| - 1], Render(nodes, relations))
  {
    var segs := Segments(nodes, relations);
    var n := |nodes|;
    JoinEnds(segs, " | ");
    assert Render(nodes, relations) == Join(segs, " | ");
    SegmentEnds(nodes, relations, 0);
    SegmentEnds(nodes, relations, n - 2);
    assert segs[0] == Segment(nodes, relations, 0);
    assert segs[|segs| - 1] == Segment(nodes, relations, n - 2);
    PrefixTrans(nodes[0] + " --", segs[0], Join(segs, " | "));
    SuffixTrans("--> " + nodes[n - 1], segs[|segs| - 1], Join(segs, " | "));
  }

  /** One more node adds one segment, for the hop into it. */
  lemma SegmentsSnoc(nodes: seq<string>, relations: seq<string>, n: string, rel: string)
    requires |nodes| >= 1 && |relations| == |nodes| - 1
    ensures Segments(nodes + [n], relations + [rel])
         == Segments(nodes, relations) + [Segment(nodes + [n], relations + [rel], |nodes| - 1)]
  {
    var nodes' := nodes + [n];
    var rels' := relations + [rel];
    var segs := Segments(nodes, relations);
    var segs' := Segments(nodes', rels');
    forall i | 0 <= i < |segs|
      ensures segs'[i] == segs[i]
    {
      assert nodes'[i] == nodes[i] && nodes'[i + 1] == nodes[i + 1];
      assert i < |relations| ==> rels'[i] == relations[i];
    }
    assert segs' == segs + [segs'[|segs|]];
  }

  /** Extending a path by one hop appends exactly one segment to its
      rendering. */
  lemma RenderExtend(nodes: seq<string>, relations: seq<string>, n: string, rel: string)
    requires |nodes| >= 2 && |relations| == |nodes| - 1
    ensures Render(nodes + [n], relations + [rel])
         == Render(nodes, relations) + " | " + nodes[|nodes| - 1] + " --[" + rel + "]--> " + n
  {
    var nodes' := nodes + [n];
    var rels' := relations + [rel];
    var segs := Segments(nodes, relations);
    var last := Segment(nodes', rels', |nodes| - 1);
    SegmentsSnoc(nodes, relations, n, rel);
    var x := nodes[|nodes| - 1];
    assert last == x + " --[" + rel + "]--> " + n;
    AppendFive(Render(nodes, relations) + " | ", x, " --[", rel, "]--> ", n);
    JoinAppend(segs, last, " | ");
  }

  /** Any two-hop path, labelled on both hops, renders as its two segments
      separated by `" | "`. */
  lemma RenderTwoHops(a: string, b: string, c: string, r1: string, r2: string)
    ensures Render([a, b, c], [r1, r2])
         == a + " --[" + r1 + "]--> " + b + " | " + b + " --[" + r2 + "]--> " + c
  {
    var nodes := [a, b, c];
    var rels := [r1, r2];
    var s0 := Segment(nodes, rels, 0);
    var s1 := Segment(nodes, rels, 1);
    assert Segments(nodes, rels) == [s0, s1];
    assert Join([s0, s1], " | ") == s0 + " | " + s1;
    AppendFive(s0 + " | ", b, " --[", r2, "]--> ", c);
  }

  /** A hop without a relation renders as a bare arrow. */
  lemma RenderUnlabelledHop(a: string, b: string)
    ensures Render([a, b], []) == a + " --> " + b
  {
    assert Segments([a, b], []) == [Segment([a, b], [], 0)];
    assert Join([Segment([a, b], [], 0)], " | ") == Segment([a, b], [], 0);
  }

  /** The record built for one row returned for `seed`. */
  function ToPathInfo(rec: PathRecord, seed: string): PathInfo {
    PathInfo(
      if |rec.nodes| > 0 then rec.nodes[0] else seed,
      if |rec.nodes| > 1 then rec.nodes[|rec.nodes| - 1] else seed,
      rec.nodes,
      rec.relations,
      rec.length,
      Render(rec.nodes, rec.relations))
  }

  /** What the discovery query for `seed` delivers, as path records, cut at
      the query's `LIMIT`. */
  function SeedPaths(seed: string, fetched: Fetch<PathRecord>): (r: Fetch<PathInfo>)
    ensures r.Complete? == fetched.Complete?
    ensures |r.rows| <= MaxPathsPerEntity
  {
    var limited := Limit(fetched, MaxPathsPerEntity);
    var rows := Map((rec: PathRecord) => ToPathInfo(rec, seed), limited.rows);
    if limited.Complete? then Complete(rows) else Interrupted(rows)
  }

  /** `discover_reasoning_paths`. One `try` surrounds the whole seed loop, so
      a failing query ends discovery: the rows of that seed delivered so far
      are kept and the remaining seeds are not queried. */
  function Discover(seeds: seq<string>, graph: string -> Fetch<PathRecord>): seq<PathInfo> {
    Collect(seeds, (seed: string) => SeedPaths(seed, graph(seed)))
  }

  /** A discovered path came from some seed: its rendering is the reference
      rendering, it starts at its first node, and it ends at its last node
      when it has two, at that seed otherwise. */
  predicate WellFormedFrom(p: PathInfo, seed: string) {
    && p.rendered == Render(p.nodes, p.relations)
    && p.startEntity == (if |p.nodes| > 0 then p.nodes[0] else seed)
    && p.endEntity == (if |p.nodes| > 1 then p.nodes[|p.nodes| - 1] else seed)
  }

  /** Every record built for `seed` is well formed for it. */
  lemma SeedPathsWellFormed(seed: string, fetched: Fetch<PathRecord>)
    ensures forall p :: p in SeedPaths(seed, fetched).rows ==> WellFormedFrom(p, seed)
  {
    var limited := Limit(fetched, MaxPathsPerEntity);
    var rows := SeedPaths(seed, fetched).rows;
    assert rows == Map((rec: PathRecord) => ToPathInfo(rec, seed), limited.rows);
    forall p | p in rows
      ensures WellFormedFrom(p, seed)
    {
      var i :| 0 <= i < |rows| && rows[i] == p;
      assert p == ToPathInfo(limited.rows[i], seed);
    }
  }

  lemma DiscoveredPathsWellFormed(seeds: seq<string>, graph: string -> Fetch<PathRecord>, p: PathInfo)
    requires p in Discover(seeds, graph)
    ensures exists k :: 0 <= k < |seeds| && WellFormedFrom(p, seeds[k])
  {
    var fetch := (seed: string) => SeedPaths(seed, graph(seed));
    CollectFrom(seeds, fetch, p);
    var k :| 0 <= k < |seeds| && p in fetch(seeds[k]).rows;
    SeedPathsWellFormed(seeds[k], graph(seeds[k]));
    assert p in SeedPaths(seeds[k], graph(seeds[k])).rows;
  }

  /** At most `MaxPathsPerEntity` paths per seed. */
  lemma DiscoverBound(seeds: seq<string>, graph: string -> Fetch<PathRecord>)
    ensures |Discover(seeds, graph)| <= MaxPathsPerEntity * |seeds|
  {
    CollectBound(seeds, (seed: string) => SeedPaths(seed, graph(seed)), MaxPathsPerEntity);
  }

  /** When the query for `seeds[k]` fails, no later seed contributes:
      discovery over all seeds equals discovery over the first `k + 1`. */
  lemma FailureStopsDiscovery(seeds: seq<string>, graph: string -> Fetch<PathRecord>, k: nat)
    requires k < |seeds| && graph(seeds[k]).Interrupted?
    ensures Discover(seeds, graph) == Discover(seeds[..k + 1], graph)
  {
    CollectStops(seeds, (seed: string) => SeedPaths(seed, graph(seed)), k);
  }

  /** Without failures every seed contributes its rows, up to the limit, in
      seed order. */
  lemma DiscoverAppend(a: seq<string>, b: seq<string>, graph: string -> Fetch<PathRecord>)
    requires forall k :: 0 <= k < |a| ==> graph(a[k]).Complete?
    ensures Discover(a + b, graph) == Discover(a, graph) + Discover(b, graph)
  {
    CollectAppend(a, b, (seed: string) => SeedPaths(seed, graph(seed)));
  }
}

=== FILE: rag_query.dfy ===
/** The question-answering pipeline end to end: entities, paths, ranking,
    context, answer. */
module RagQuery {
  import opened Common
  import opened Text
  import opened ReasoningPaths
  import opened EntityExtraction
  import opened PathRanking
  import opened ContextAssembly

  /** Ranked paths reported back to the caller. */
  const TopPathsReported: nat := 5

  /** The dictionary `query` returns. */
  datatype RagAnswer = RagAnswer(
    question: string,
    answer: string,
    entitiesUsed: seq<string>,
    reasoningPathsCount: nat,
    contextTriplesCount: nat,
    topReasoningPaths: seq<PathInfo>,
    contextTriples: seq<string>)

  /** Everything outside the program that one query consults. */
  datatype Oracles = Oracles(
    reply: LlmReply,
    eval: string -> Literal,
    keywordMatches: seq<string>,
    lookup: string -> Fetch<string>,
    graph: string -> Fetch<PathRecord>,
    similarity: Option<string -> real>,
    direct: string -> Fetch<Triple>,
    answer: string)

  /** Message of the `TypeError` that `set(...)` raises on a list holding an
      unhashable element. */
  function UnhashableMessage(u: Unhashable): (r: string)
    ensures r == "unhashable type: 'dict'" || r == "unhashable type: 'set'"
    ensures IsSuffixOf(TypeName(u) + "'", r)
  {
    "unhashable type: '" + TypeName(u) + "'"
  }

  /** The result of the outer `except`. */
  function ErrorAnswer(question: string, message: string): (r: RagAnswer)
    ensures r.reasoningPathsCount == 0 && r.contextTriplesCount == 0
    ensures r.entitiesUsed == [] && r.topReasoningPaths == [] && r.contextTriples == []
    ensures IsPrefixOf("Error processing query: ", r.answer)
  {
    RagAnswer(question, "Error processing query: " + message, [], 0, 0, [], [])
  }

  /** `query`. */
  method Query(question: string, o: Oracles) returns (r: RagAnswer)
    ensures r.question == question
    ensures Extract(o.reply, o.eval, o.keywordMatches).UnhashableList? ==>
              r == ErrorAnswer(question, UnhashableMessage(Extract(o.reply, o.eval, o.keywordMatches).kind))
    ensures Extract(o.reply, o.eval, o.keywordMatches).Entities? ==>
              && r.answer == o.answer
              && Distinct(r.entitiesUsed)
              && (forall e :: e in r.entitiesUsed <==>
                    e in Extract(o.reply, o.eval, o.keywordMatches).names
                    || e in SimilarNames(Extract(o.reply, o.eval, o.keywordMatches).names, o.lookup))
              && r.reasoningPathsCount == |RankPaths(Discover(r.entitiesUsed, o.graph), o.similarity)|
              && r.topReasoningPaths == Map((sp: ScoredPath) => sp.path,
                   Take(RankPaths(Discover(r.entitiesUsed, o.graph), o.similarity), TopPathsReported))
              && r.contextTriples == Assemble(RankPaths(Discover(r.entitiesUsed, o.graph), o.similarity), o.direct)
    ensures r.contextTriplesCount == |r.contextTriples| <= MaxContextTriples
    ensures |r.topReasoningPaths| <= TopPathsReported
  {
    var extracted := Extract(o.reply, o.eval, o.keywordMatches);
    if extracted.UnhashableList? {
      return ErrorAnswer(question, UnhashableMessage(extracted.kind));
    }
    var entities := ResolveEntities(extracted.names, o.lookup);
    var paths := Discover(entities, o.graph);
    var ranked := RankPaths(paths, o.similarity);
    var context := Assemble(ranked, o.direct);
    var top := Map((sp: ScoredPath) => sp.path, Take(ranked, TopPathsReported));
    r := RagAnswer(question, o.answer, entities, |ranked|, |context|, top, context);
  }
}

=== FILE: rag_ranking.dfy ===
/** Step 3 of the pipeline: every discovered path is scored by its semantic
    similarity to the question, shorter paths get a boost, weak paths are
    dropped and the rest are ordered best first. */
module PathRanking {
  import opened Common
  import opened Text
  import opened StableSort
  import opened ReasoningPaths

  /** Lowest score a path may have and still be kept. */
  const MinPathSimilarity: real := 0.3

  datatype ScoredPath = ScoredPath(path: PathInfo, score: real)

  function ScoreOf(sp: ScoredPath): real { sp.score }

  /** `0.7 + 0.3 * (1.0 / (path_length + 1))`. */
  function LengthMultiplier(length: nat): (m: real)
    ensures 0.7 < m <= 1.0
  {
    0.7 + 0.3 * (1.0 / (length as real + 1.0))
  }

  function Score(similarity: real, length: nat): real {
    similarity * LengthMultiplier(length)
  }

  /** The text embedded for a path: its rendering, then its node names. */
  function PathText(p: PathInfo): string {
    p.rendered + " " + Join(p.nodes, " ")
  }

  /** The path with its score, given the cosine similarity of the question to
      each path text. */
  function ScorePath(similarity: string -> real, p: PathInfo): ScoredPath {
    ScoredPath(p, Score(similarity(PathText(p)), p.length))
  }

  function IsRelevant(sp: ScoredPath): bool { sp.score >= MinPathSimilarity }

  /** The scored paths that reach the threshold, in discovery order. */
  function Relevant(paths: seq<PathInfo>, similarity: string -> real): seq<ScoredPath> {
    Filter(IsRelevant, Map((p: PathInfo) => ScorePath(similarity, p), paths))
  }

  /** `rank_paths_by_relevance`. `similarity` is `None` when the embedding
      model raises, which yields no ranking at all. */
  function RankPaths(paths: seq<PathInfo>, similarity: Option<string -> real>): (r: seq<ScoredPath>)
    ensures |paths| == 0 || similarity.None? ==> r == []
    ensures similarity.Some? ==> multiset(r) == multiset(Relevant(paths, similarity.value))
    ensures SortedDesc(r, ScoreOf)
  {
    if |paths| == 0 || similarity.None? then []
    else
      var kept := Relevant(paths, similarity.value);
      SortFacts(kept, ScoreOf, 0.0);
      Sort(kept, ScoreOf)
  }

  /** A path is ranked, with the score its similarity and length give it,
      exactly when that score reaches the threshold. */
  lemma RankedIff(paths: seq<PathInfo>, similarity: string -> real, sp: ScoredPath)
    ensures sp in RankPaths(paths, Some(similarity)) <==>
            sp.path in paths && sp == ScorePath(similarity, sp.path) && sp.score >= MinPathSimilarity
  {
    var scored := Map((p: PathInfo) => ScorePath(similarity, p), paths);
    var kept := Relevant(paths, similarity);
    if |paths| > 0 {
      assert sp in RankPaths(paths, Some(similarity)) <==> sp in multiset(kept);
    }
    if sp.path in paths && sp == ScorePath(similarity, sp.path) {
      var i :| 0 <= i < |paths| && paths[i] == sp.path;
      assert scored[i] == sp;
    }
    if sp in scored {
      var i :| 0 <= i < |scored| && scored[i] == sp;
    }
  }

  /** Paths of equal score keep their discovery order. */
  lemma RankingIsStable(paths: seq<PathInfo>, similarity: string -> real, v: real)
    requires |paths| > 0
    ensures WithKey(RankPaths(paths, Some(similarity)), ScoreOf, v)
         == WithKey(Relevant(paths, similarity), ScoreOf, v)
  {
    SortFacts(Relevant(paths, similarity), ScoreOf, v);
  }

  /** A direct relationship keeps its full similarity, a path of one hop
      keeps 85% of it, two hops 80%, three hops 77.5%. */
  lemma MultiplierValues()
    ensures LengthMultiplier(0) == 1.0
    ensures LengthMultiplier(1) == 0.85
    ensures LengthMultiplier(2) == 0.8
    ensures LengthMultiplier(3) == 0.775
  {
  }

  lemma ReciprocalDecreasing(a: real, b: real)
    requires 0.0 < a < b
    ensures 1.0 / a > 1.0 / b
  {
    var u := 1.0 / a;
    var v := 1.0 / b;
    assert u * a == 1.0 && v * b == 1.0;
    assert u > 0.0 && v > 0.0;
  }

  lemma ScaleStrict(x: real, p: real, q: real)
    requires x > 0.0 && p > q
    ensures x * p > x * q
  {
    assert x * p - x * q == x * (p - q);
  }

  /** Longer paths get a strictly smaller multiplier, so of two paths with
      the same positive similarity the shorter one scores higher. */
  lemma ShorterPathScoresHigher(similarity: real, shorter: nat, longer: nat)
    requires shorter < longer && similarity > 0.0
    ensures LengthMultiplier(shorter) > LengthMultiplier(longer)
    ensures Score(similarity, shorter) > Score(similarity, longer)
  {
    ReciprocalDecreasing(shorter as real + 1.0, longer as real + 1.0);
    ScaleStrict(similarity, LengthMultiplier(shorter), LengthMultiplier(longer));
  }

  /** The threshold in terms of similarity: a three-hop path needs a
      similarity of at least 0.3 / 0.775, so a similarity of 0.35 is
      dropped while 0.5 is kept. */
  lemma ThreeHopThreshold()
    ensures !IsRelevant(ScoredPath(PathInfo("", "", [], [], 3, ""), Score(0.35, 3)))
    ensures IsRelevant(ScoredPath(PathInfo("", "", [], [], 3, ""), Score(0.5, 3)))
  {
    MultiplierValues();
  }
}

=== FILE: research_server.dfy ===
/** The research tool server: three tools over the question-answering
    pipeline, reached through one dispatch endpoint. */
module ResearchServer {
  import opened Common
  import opened Text
  import opened ReasoningPaths
  import opened RagQuery

  const SearchTool: string := "search_research_papers"
  const AnalyzeTool: string := "analyze_research_topic"
  const RelationshipsTool: string := "find_paper_relationships"

  function AvailableTools(): seq<string> { [SearchTool, AnalyzeTool, RelationshipsTool] }

  /** The `arguments` dictionary; an absent key is `None`. */
  datatype Arguments = Arguments(
    query: Option<string>,
    includeReasoning: Option<bool>,
    topic: Option<string>,
    analysisType: Option<string>,
    concept1: Option<string>,
    concept2: Option<string>,
    maxHops: Option<int>)

  datatype ReasoningDetails = ReasoningDetails(
    entitiesUsed: seq<string>,
    topReasoningPaths: seq<PathInfo>,
    contextTriples: seq<string>)

  /** The dictionaries the tools return. */
  datatype ToolResult =
    | Failure(error: string, availableTools: seq<string>)
    | SearchResult(
        query: string, answer: string,
        entitiesFound: nat, reasoningPaths: nat, contextTriples: nat,
        details: Option<ReasoningDetails>)
    | AnalysisResult(
        topic: string, analysisType: string, analysis: string, keyEntities: seq<string>,
        reasoningPathCount: nat, knowledgeConnections: nat,
        paths: seq<PathInfo>, supportingTriples: seq<string>)
    | RelationshipResult(
        concept1: string, concept2: string, maxHops: int, relationshipAnalysis: string,
        directConnections: nat, connectionPaths: seq<PathInfo>, relatedEntities: seq<string>,
        supportingTriples: seq<string>, totalReasoningPaths: nat)

  /** The pipeline, or `None` when it failed to start. */
  type Rag = Option<string -> RagAnswer>

  const NotInitialized: string := "RAG system not initialized"
  const MissingQuery: string := "Query parameter is required"
  const MissingTopic: string := "Topic parameter is required"
  const MissingConcepts: string := "Both concept1 and concept2 parameters are required"

  /** Puts a question to a pipeline that started. */
  function Ask(rag: Rag, question: string): RagAnswer
    requires rag.Some?
  {
    rag.value(question)
  }

  // ---------------------------------------------------------------- search

  function HandleSearch(args: Arguments, rag: Rag): (r: ToolResult)
    ensures args.query.GetOr("") == "" ==> r == Failure(MissingQuery, [])
    ensures args.query.GetOr("") != "" && rag.None? ==> r == Failure(NotInitialized, [])
    ensures r.SearchResult? ==>
              var a := rag.value(r.query);
              && r.entitiesFound == |a.entitiesUsed|
              && r.reasoningPaths == a.reasoningPathsCount
              && r.contextTriples == a.contextTriplesCount
              && (r.details.Some? <==> args.includeReasoning.GetOr(true))
              && (r.details.Some? ==> |r.details.value.topReasoningPaths| <= 5
                                      && |r.details.value.contextTriples| <= 10)
    ensures args.query.GetOr("") != "" && rag.Some? ==>
              && r.SearchResult?
              && r.query == args.query.value
              && var a := Ask(rag, r.query);
                 && r.answer == a.answer
                 && (r.details.Some? ==>
                       r.details.value == ReasoningDetails(a.entitiesUsed, Take(a.topReasoningPaths, 5),
                                                           Take(a.contextTriples, 10)))
  {
    var query := args.query.GetOr("");
    if query == "" then Failure(MissingQuery, [])
    else if rag.None? then Failure(NotInitialized, [])
    else
      var a := Ask(rag, query);
      var details :=
        if args.includeReasoning.GetOr(true)
        then Some(ReasoningDetails(a.entitiesUsed, Take(a.topReasoningPaths, 5), Take(a.contextTriples, 10)))
        else None;
      SearchResult(query, a.answer, |a.entitiesUsed|, a.reasoningPathsCount, a.contextTriplesCount, details)
  }

  // ---------------------------------------------------------------- analysis

  const TechnicalLead: string := "What are the technical details, methodologies, and implementation aspects of "
  const ComparativeLead: string := "Compare different approaches, methods, and techniques related to "
  const ComprehensiveLead: string := "Provide a comprehensive overview of "
  const ComprehensiveTail: string := " including background, methods, current research, and applications"

  /** The question put to the pipeline for an analysis of `topic`. */
  function AnalysisQuestion(topic: string, analysisType: string): (q: string)
    ensures analysisType == "technical" ==> IsPrefixOf(TechnicalLead, q)
    ensures analysisType == "comparative" ==> IsPrefixOf(ComparativeLead, q)
    ensures analysisType != "technical" && analysisType != "comparative" ==> IsPrefixOf(ComprehensiveLead, q)
  {
    if analysisType == "technical" then TechnicalLead + topic + "?"
    else if analysisType == "comparative" then ComparativeLead + topic
    else ComprehensiveLead + topic + ComprehensiveTail
  }

  function HandleAnalyze(args: Arguments, rag: Rag): (r: ToolResult)
    ensures args.topic.GetOr("") == "" ==> r == Failure(MissingTopic, [])
    ensures args.topic.GetOr("") != "" && rag.None? ==> r == Failure(NotInitialized, [])
    ensures r.AnalysisResult? ==>
              && r.analysisType == args.analysisType.GetOr("comprehensive")
              && |r.paths| <= 3 && |r.supportingTriples| <= 5
    ensures args.topic.GetOr("") != "" && rag.Some? ==>
              && r.AnalysisResult?
              && r.topic == args.topic.value
              && var a := Ask(rag, AnalysisQuestion(r.topic, r.analysisType));
                 && r.analysis == a.answer && r.keyEntities == a.entitiesUsed
                 && r.reasoningPathCount == a.reasoningPathsCount
                 && r.knowledgeConnections == a.contextTriplesCount
                 && r.paths == Take(a.topReasoningPaths, 3)
                 && r.supportingTriples == Take(a.contextTriples, 5)
  {
    var topic := args.topic.GetOr("");
    if topic == "" then Failure(MissingTopic, [])
    else if rag.None? then Failure(NotInitialized, [])
    else
      var analysisType := args.analysisType.GetOr("comprehensive");
      var a := Ask(rag, AnalysisQuestion(topic, analysisType));
      AnalysisResult(topic, analysisType, a.answer, a.entitiesUsed,
                     a.reasoningPathsCount, a.contextTriplesCount,
                     Take(a.topReasoningPaths, 3), Take(a.contextTriples, 5))
  }

  // ---------------------------------------------------------------- relationships

  /** `concept.lower() in text.lower()`. */
  predicate Mentions(text: string, concept: string) {
    Contains(Lower(text), Lower(concept))
  }

  function MentionsBoth(c1: string, c2: string, p: PathInfo): bool {
    Mentions(p.rendered, c1) && Mentions(p.rendered, c2)
  }

  function MentionsEither(c1: string, c2: string, t: string): bool {
    Mentions(t, c1) || Mentions(t, c2)
  }

  function RelevantPaths(c1: string, c2: string, paths: seq<PathInfo>): seq<PathInfo> {
    Filter((p: PathInfo) => MentionsBoth(c1, c2, p), paths)
  }

  function RelevantTriples(c1: string, c2: string, triples: seq<string>): seq<string> {
    Filter((t: string) => MentionsEither(c1, c2, t), triples)
  }

  const RelationshipLead: string := "What is the relationship between "
  const RelationshipTail: string := "? How are they connected in research? What are the pathways that link these concepts?"

  function RelationshipQuestion(c1: string, c2: string): string {
    RelationshipLead + c1 + " and " + c2 + RelationshipTail
  }

  /** The answer to a relationship request once both concepts are given:
      the top paths naming both concepts and the context triples naming
      either, each list cut to its limit. */
  function RelationshipReport(c1: string, c2: string, maxHops: int, a: RagAnswer): (r: ToolResult)
    ensures r.RelationshipResult? && r.concept1 == c1 && r.concept2 == c2 && r.maxHops == maxHops
    ensures |r.connectionPaths| <= 5 && |r.supportingTriples| <= 10
    ensures forall p :: p in r.connectionPaths ==> MentionsBoth(c1, c2, p)
    ensures forall t :: t in r.supportingTriples ==> MentionsEither(c1, c2, t)
    ensures r.directConnections == |RelevantPaths(c1, c2, a.topReasoningPaths)|
    ensures IsPrefix(r.connectionPaths, RelevantPaths(c1, c2, a.topReasoningPaths))
    ensures |r.connectionPaths| == Min(5, |RelevantPaths(c1, c2, a.topReasoningPaths)|)
    ensures IsPrefix(r.supportingTriples, RelevantTriples(c1, c2, a.contextTriples))
    ensures |r.supportingTriples| == Min(10, |RelevantTriples(c1, c2, a.contextTriples)|)
    ensures r.relationshipAnalysis == a.answer && r.relatedEntities == a.entitiesUsed
    ensures r.totalReasoningPaths == a.reasoningPathsCount
  {
    var paths := RelevantPaths(c1, c2, a.topReasoningPaths);
    var triples := RelevantTriples(c1, c2, a.contextTriples);
    var top := Take(paths, 5);
    var support := Take(triples, 10);
    TakeKeeps(paths, 5);
    TakeKeeps(triples, 10);
    RelationshipResult(c1, c2, maxHops, a.answer, |paths|, top,
                       a.entitiesUsed, support, a.reasoningPathsCount)
  }

  function HandleRelationships(args: Arguments, rag: Rag): (r: ToolResult)
    ensures args.concept1.GetOr("") == "" || args.concept2.GetOr("") == "" ==>
              r == Failure(MissingConcepts, [])
    ensures args.concept1.GetOr("") != "" && args.concept2.GetOr("") != "" && rag.None? ==>
              r == Failure(NotInitialized, [])
    ensures args.concept1.GetOr("") != "" && args.concept2.GetOr("") != "" && rag.Some? ==>
              r.RelationshipResult?
    ensures r.RelationshipResult? ==>
              && |r.connectionPaths| <= 5 && |r.supportingTriples| <= 10
              && (forall p :: p in r.connectionPaths ==> MentionsBoth(r.concept1, r.concept2, p))
              && (forall t :: t in r.supportingTriples ==> MentionsEither(r.concept1, r.concept2, t))
              && r.maxHops == args.maxHops.GetOr(3)
    ensures r.RelationshipResult? ==>
              && rag.Some?
              && r.concept1 == args.concept1.GetOr("") && r.concept2 == args.concept2.GetOr("")
              && var a := Ask(rag, RelationshipQuestion(r.concept1, r.concept2));
                 && var paths := RelevantPaths(r.concept1, r.concept2, a.topReasoningPaths);
                    && var triples := RelevantTriples(r.concept1, r.concept2, a.contextTriples);
                       && r.directConnections == |paths|
                       && IsPrefix(r.connectionPaths, paths) && |r.connectionPaths| == Min(5, |paths|)
                       && IsPrefix(r.supportingTriples, triples) && |r.supportingTriples| == Min(10, |triples|)
                       && r.relationshipAnalysis == a.answer && r.relatedEntities == a.entitiesUsed
                       && r.totalReasoningPaths == a.reasoningPathsCount
  {
    var c1 := args.concept1.GetOr("");
    var c2 := args.concept2.GetOr("");
    if c1 == "" || c2 == "" then Failure(MissingConcepts, [])
    else if rag.None? then Failure(NotInitialized, [])
    else RelationshipReport(c1, c2, args.maxHops.GetOr(3), Ask(rag, RelationshipQuestion(c1, c2)))
  }

  /** The connection paths are the top paths naming both concepts, in their
      order, cut at five; the count reported is taken before the cut. Every
      top path naming both concepts is kept while fewer than five do. */
  lemma ConnectionPathsExact(args: Arguments, ask: string -> RagAnswer, p: PathInfo)
    requires args.concept1.GetOr("") != "" && args.concept2.GetOr("") != ""
    ensures var c1 := args.concept1.value;
            var c2 := args.concept2.value;
            var paths := RelevantPaths(c1, c2, ask(RelationshipQuestion(c1, c2)).topReasoningPaths);
            var r := HandleRelationships(args, Some(ask));
            && r.directConnections == |paths|
            && IsPrefix(r.connectionPaths, paths)
            && (|paths| <= 5 && p in paths ==> p in r.connectionPaths)
  {
    var c1 := args.concept1.value;
    var c2 := args.concept2.value;
    var paths := RelevantPaths(c1, c2, ask(RelationshipQuestion(c1, c2)).topReasoningPaths);
    var r := HandleRelationships(args, Some(ask));
    if |paths| <= 5 {
      assert r.connectionPaths == paths;
    }
  }

  // ---------------------------------------------------------------- dispatch

  /** `call_tool_direct`: the request's tool name picks the handler. */
  function CallTool(name: Option<string>, args: Arguments, rag: Rag): (r: ToolResult)
    ensures name == Some(SearchTool) ==> r == HandleSearch(args, rag)
    ensures name == Some(AnalyzeTool) ==> r == HandleAnalyze(args, rag)
    ensures name == Some(RelationshipsTool) ==> r == HandleRelationships(args, rag)
    ensures name.None? || name.value !in AvailableTools() ==>
              r.Failure? && r.availableTools == AvailableTools()
  {
    match name
    case Some(n) =>
      if n == SearchTool then HandleSearch(args, rag)
      else if n == AnalyzeTool then HandleAnalyze(args, rag)
      else if n == RelationshipsTool then HandleRelationships(args, rag)
      else Failure("Unknown tool: " + n, AvailableTools())
    case None => Failure("Unknown tool: None", AvailableTools())
  }
}

=== FILE: stable_sort.dfy ===
/** Python's `sorted(xs, key=key, reverse=True)`: a stable sort into
    non-increasing key order. Elements with equal keys keep their input order,
    which is also what `Counter.most_common` relies on for its ties. */
module StableSort {

  predicate SortedDesc<T>(xs: seq<T>, key: T -> real) {
    forall i, j :: 0 <= i < j < |xs| ==> key(xs[i]) >= key(xs[j])
  }

  /** Puts `x` after every element whose key is at least `key(x)`. */
  function Insert<T>(x: T, xs: seq<T>, key: T -> real): (r: seq<T>)
    ensures |r| == |xs| + 1
    decreases |xs|
  {
    if |xs| == 0 then [x]
    else if key(xs[0]) >= key(x) then [xs[0]] + Insert(x, xs[1..], key)
    else [x] + xs
  }

  /** Insertion sort that consumes the input from the front, so among equal
      keys an earlier element is inserted first and stays first. */
  function Sort<T>(xs: seq<T>, key: T -> real): (r: seq<T>)
    ensures |r| == |xs|
    decreases |xs|
  {
    if |xs| == 0 then [] else Insert(xs[|xs| - 1], Sort(xs[..|xs| - 1], key), key)
  }

  /** The elements whose key is exactly `v`, in order. */
  function WithKey<T>(xs: seq<T>, key: T -> real, v: real): seq<T>
    decreases |xs|
  {
    if |xs| == 0 then []
    else (if key(xs[0]) == v then [xs[0]] else []) + WithKey(xs[1..], key, v)
  }

  lemma {:induction false} WithKeyAppend<T>(xs: seq<T>, ys: seq<T>, key: T -> real, v: real)
    ensures WithKey(xs + ys, key, v) == WithKey(xs, key, v) + WithKey(ys, key, v)
    decreases |xs|
  {
    if |xs| == 0 {
      assert xs + ys == ys;
    } else {
      var a := xs[0];
      var rest := xs[1..];
      WithKeyAppend(rest, ys, key, v);
      assert xs + ys == [a] + (rest + ys);
      assert xs == [a] + rest;
      WithKeyCons(a, rest + ys, key, v);
      WithKeyCons(a, rest, key, v);
    }
  }

  lemma WithKeyNone<T>(xs: seq<T>, key: T -> real, v: real)
    requires forall i :: 0 <= i < |xs| ==> key(xs[i]) < v
    ensures WithKey(xs, key, v) == []
    decreases |xs|
  {
    if |xs| > 0 {
      WithKeyNone(xs[1..], key, v);
    }
  }

  lemma {:induction false} InsertMultiset<T>(x: T, xs: seq<T>, key: T -> real)
    ensures multiset(Insert(x, xs, key)) == multiset(xs) + multiset{x}
    decreases |xs|
  {
    if |xs| > 0 && key(xs[0]) >= key(x) {
      InsertMultiset(x, xs[1..], key);
      assert xs == [xs[0]] + xs[1..];
    }
  }

  /** Inserting an element no greater than a bound into elements no
      greater than it keeps every element within the bound. */
  lemma {:induction false} InsertBelow<T>(x: T, xs: seq<T>, key: T -> real, b: real)
    requires key(x) <= b
    requires forall i :: 0 <= i < |xs| ==> key(xs[i]) <= b
    ensures forall i :: 0 <= i < |xs| + 1 ==> key(Insert(x, xs, key)[i]) <= b
    decreases |xs|
  {
    var r := Insert(x, xs, key);
    if |xs| > 0 && key(xs[0]) >= key(x) {
      InsertBelow(x, xs[1..], key, b);
      var r' := Insert(x, xs[1..], key);
      assert r == [xs[0]] + r';
      forall i | 0 < i < |xs| + 1
        ensures key(r[i]) <= b
      {
        assert r[i] == r'[i - 1];
      }
    } else if |xs| > 0 {
      assert r == [x] + xs;
      forall i | 0 < i < |xs| + 1
        ensures key(r[i]) <= b
      {
        assert r[i] == xs[i - 1];
      }
    }
  }

  lemma {:induction false} InsertSorted<T>(x: T, xs: seq<T>, key: T -> real)
    requires SortedDesc(xs, key)
    ensures SortedDesc(Insert(x, xs, key), key)
    decreases |xs|
  {
    var r := Insert(x, xs, key);
    if |xs| > 0 && key(xs[0]) >= key(x) {
      SortedTail(xs, key);
      InsertSorted(x, xs[1..], key);
      var r' := Insert(x, xs[1..], key);
      assert r == [xs[0]] + r';
      forall i | 0 <= i < |xs| - 1
        ensures key(xs[1..][i]) <= key(xs[0])
      {
        assert xs[1..][i] == xs[i + 1];
      }
      InsertBelow(x, xs[1..], key, key(xs[0]));
      forall i, j | 0 <= i < j < |r|
        ensures key(r[i]) >= key(r[j])
      {
        assert r[j] == r'[j - 1];
        if i > 0 {
          assert r[i] == r'[i - 1];
        }
      }
    } else if |xs| > 0 {
      assert r == [x] + xs;
      forall i, j | 0 <= i < j < |r|
        ensures key(r[i]) >= key(r[j])
      {
        assert r[j] == xs[j - 1];
        if i > 0 {
          assert r[i] == xs[i - 1];
        } else {
          assert key(xs[0]) >= key(xs[j - 1]) || j == 1;
        }
      }
    }
  }

  /** `WithKey` of a sequence with a known first element. */
  lemma WithKeyCons<T>(a: T, ys: seq<T>, key: T -> real, v: real)
    ensures WithKey([a] + ys, key, v) == (if key(a) == v then [a] else []) + WithKey(ys, key, v)
  {
    assert ([a] + ys)[1..] == ys;
  }

  lemma SortedTail<T>(xs: seq<T>, key: T -> real)
    requires |xs| > 0 && SortedDesc(xs, key)
    ensures SortedDesc(xs[1..], key)
  {
    forall i, j | 0 <= i < j < |xs| - 1
      ensures key(xs[1..][i]) >= key(xs[1..][j])
    {
      assert xs[1..][i] == xs[i + 1] && xs[1..][j] == xs[j + 1];
    }
  }

  /** In a sorted sequence whose head is below `v`, no element has key `v`. */
  lemma SortedBelow<T>(xs: seq<T>, key: T -> real, v: real)
    requires |xs| > 0 && SortedDesc(xs, key) && key(xs[0]) < v
    ensures WithKey(xs, key, v) == []
  {
    forall i | 0 <= i < |xs|
      ensures key(xs[i]) < v
    {
      if i > 0 {
        assert key(xs[0]) >= key(xs[i]);
      }
    }
    WithKeyNone(xs, key, v);
  }

  lemma {:induction false} InsertWithKey<T>(x: T, xs: seq<T>, key: T -> real, v: real)
    requires SortedDesc(xs, key)
    ensures WithKey(Insert(x, xs, key), key, v)
         == WithKey(xs, key, v) + (if key(x) == v then [x] else [])
    decreases |xs|
  {
    var tail := if key(x) == v then [x] else [];
    if |xs| == 0 {
      WithKeyCons(x, [], key, v);
      assert WithKey([x], key, v) == tail + WithKey([], key, v);
    } else if key(xs[0]) >= key(x) {
      var head := if key(xs[0]) == v then [xs[0]] else [];
      SortedTail(xs, key);
      InsertWithKey(x, xs[1..], key, v);
      WithKeyCons(xs[0], Insert(x, xs[1..], key), key, v);
      WithKeyCons(xs[0], xs[1..], key, v);
      assert xs == [xs[0]] + xs[1..];
      assert WithKey(Insert(x, xs, key), key, v) == head + (WithKey(xs[1..], key, v) + tail);
    } else {
      WithKeyCons(x, xs, key, v);
      if key(x) == v {
        SortedBelow(xs, key, v);
      }
    }
  }

  /** The sort orders by non-increasing key. */
  lemma {:induction false} SortSorted<T>(xs: seq<T>, key: T -> real)
    ensures SortedDesc(Sort(xs, key), key)
    decreases |xs|
  {
    if |xs| > 0 {
      var init := xs[..|xs| - 1];
      SortSorted(init, key);
      InsertSorted(xs[|xs| - 1], Sort(init, key), key);
    }
  }

  /** The sort returns the input's elements. */
  lemma {:induction false} SortPermutes<T>(xs: seq<T>, key: T -> real)
    ensures multiset(Sort(xs, key)) == multiset(xs)
    decreases |xs|
  {
    if |xs| > 0 {
      var init := xs[..|xs| - 1];
      var last := xs[|xs| - 1];
      SortPermutes(init, key);
      InsertMultiset(last, Sort(init, key), key);
      assert xs == init + [last];
    }
  }

  /** The sort keeps every group of equal keys in its input order. */
  lemma {:induction false} SortStable<T>(xs: seq<T>, key: T -> real, v: real)
    ensures WithKey(Sort(xs, key), key, v) == WithKey(xs, key, v)
    decreases |xs|
  {
    if |xs| > 0 {
      var init := xs[..|xs| - 1];
      var last := xs[|xs| - 1];
      SortStable(init, key, v);
      SortSorted(init, key);
      InsertWithKey(last, Sort(init, key), key, v);
      assert xs == init + [last];
      WithKeyAppend(init, [last], key, v);
      WithKeyCons(last, [], key, v);
    }
  }

  /** The sort returns the input's elements, in non-increasing key order, and
      every group of equal keys in its input order. */
  lemma SortFacts<T>(xs: seq<T>, key: T -> real, v: real)
    ensures SortedDesc(Sort(xs, key), key)
    ensures multiset(Sort(xs, key)) == multiset(xs)
    ensures WithKey(Sort(xs, key), key, v) == WithKey(xs, key, v)
  {
    SortSorted(xs, key);
    SortPermutes(xs, key);
    SortStable(xs, key, v);
  }
}

=== FILE: text.dfy ===
/** The handful of Python `str` operations the system relies on, on
    `string = seq<char>`. Case mapping covers ASCII letters only. */
module Text {

  /** The characters Python's `str.isspace()` accepts; `strip()` and
      `split()` without arguments cut on exactly these. */
  predicate IsSpace(c: char) {
    || c == ' '
    || '\t' <= c <= '\r'
    || '\U{1C}' <= c <= '\U{1F}'
    || c == '\U{85}' || c == '\U{A0}' || c == '\U{1680}'
    || '\U{2000}' <= c <= '\U{200A}'
    || c == '\U{2028}' || c == '\U{2029}' || c == '\U{202F}' || c == '\U{205F}'
    || c == '\U{3000}'
  }

  predicate IsUpperAscii(c: char) { 'A' <= c <= 'Z' }
  predicate IsLowerAscii(c: char) { 'a' <= c <= 'z' }
  predicate IsDigit(c: char) { '0' <= c <= '9' }

  function LowerChar(c: char): char {
    if IsUpperAscii(c) then (c as int + 32) as char else c
  }

  function UpperChar(c: char): char {
    if IsLowerAscii(c) then (c as int - 32) as char else c
  }

  /** `s.lower()`. */
  function Lower(s: string): (r: string)
    ensures |r| == |s|
    ensures forall i :: 0 <= i < |s| ==> r[i] == LowerChar(s[i])
  {
    seq(|s|, i requires 0 <= i < |s| => LowerChar(s[i]))
  }

  /** `s.upper()`. */
  function Upper(s: string): (r: string)
    ensures |r| == |s|
    ensures forall i :: 0 <= i < |s| ==> r[i] == UpperChar(s[i])
  {
    seq(|s|, i requires 0 <= i < |s| => UpperChar(s[i]))
  }

  lemma LowerAppend(a: string, b: string)
    ensures Lower(a + b) == Lower(a) + Lower(b)
  {
  }

  // ---------------------------------------------------------------- search

  /** `needle` occurs in `hay` at offset `i`. */
  predicate OccursAt(hay: string, needle: string, i: int) {
    0 <= i && i + |needle| <= |hay| && hay[i..i + |needle|] == needle
  }

  /** Python's `needle in hay`, computed by scanning. */
  function Contains(hay: string, needle: string): bool
    decreases |hay|
  {
    needle <= hay || (|hay| > 0 && Contains(hay[1..], needle))
  }

  /** An occurrence at any offset is found by the scan. */
  lemma {:induction false} ContainsAt(hay: string, needle: string, i: int)
    requires OccursAt(hay, needle, i)
    ensures Contains(hay, needle)
    decreases i
  {
    if i == 0 {
      assert hay[..|needle|] == needle;
    } else {
      assert hay[1..][i - 1..i - 1 + |needle|] == hay[i..i + |needle|];
      ContainsAt(hay[1..], needle, i - 1);
    }
  }

  /** The scan succeeds only at a real occurrence. */
  lemma {:induction false} ContainsWitness(hay: string, needle: string) returns (i: int)
    requires Contains(hay, needle)
    ensures OccursAt(hay, needle, i)
    decreases |hay|
  {
    if needle <= hay {
      i := 0;
    } else {
      var j := ContainsWitness(hay[1..], needle);
      assert hay[1..][j..j + |needle|] == hay[j + 1..j + 1 + |needle|];
      i := j + 1;
    }
  }

  /** The scan agrees with the definition by offsets, in both directions. */
  lemma ContainsIff(hay: string, needle: string)
    ensures Contains(hay, needle) <==> exists i :: OccursAt(hay, needle, i)
  {
    if Contains(hay, needle) {
      var i := ContainsWitness(hay, needle);
    }
    if exists i :: OccursAt(hay, needle, i) {
      var i :| OccursAt(hay, needle, i);
      ContainsAt(hay, needle, i);
    }
  }

  lemma NotContainsAt(hay: string, needle: string, i: int)
    requires !Contains(hay, needle)
    ensures !OccursAt(hay, needle, i)
  {
    if OccursAt(hay, needle, i) {
      ContainsAt(hay, needle, i);
    }
  }

  // ---------------------------------------------------------------- strip

  /** The characters a strip removes: `strip()` removes whitespace,
      `strip(chars)` the characters of `chars`. */
  datatype StripSet = Whitespace | Only(chars: set<char>)

  predicate Cuts(k: StripSet, c: char) {
    match k
    case Whitespace => IsSpace(c)
    case Only(chars) => c in chars
  }

  /** `s.lstrip(cut)`. */
  function TrimLeft(s: string, cut: StripSet): (r: string)
    ensures |r| <= |s| && r == s[|s| - |r|..]
    ensures |r| > 0 ==> !Cuts(cut, r[0])
    ensures forall i :: 0 <= i < |s| - |r| ==> Cuts(cut, s[i])
    decreases |s|
  {
    if |s| > 0 && Cuts(cut, s[0]) then
      var r := TrimLeft(s[1..], cut);
      assert s[1..][|s| - 1 - |r|..] == s[|s| - |r|..];
      assert forall i :: 1 <= i < |s| - |r| ==> s[i] == s[1..][i - 1];
      r
    else s
  }

  /** `s.rstrip(cut)`. */
  function TrimRight(s: string, cut: StripSet): (r: string)
    ensures |r| <= |s| && r == s[..|r|]
    ensures |r| > 0 ==> !Cuts(cut, r[|r| - 1])
    ensures forall i :: |r| <= i < |s| ==> Cuts(cut, s[i])
    decreases |s|
  {
    if |s| > 0 && Cuts(cut, s[|s| - 1]) then
      var r := TrimRight(s[..|s| - 1], cut);
      assert s[..|s| - 1][..|r|] == s[..|r|];
      r
    else s
  }

  /** `s.strip(cut)`; `Strip(s, Whitespace)` is `s.strip()`. */
  function Strip(s: string, cut: StripSet): (r: string)
    ensures |r| <= |s|
    ensures |r| > 0 ==> !Cuts(cut, r[0]) && !Cuts(cut, r[|r| - 1])
  {
    TrimRight(TrimLeft(s, cut), cut)
  }

  /** A string whose two ends are not in `cut` is left alone. */
  lemma StripNoop(s: string, cut: StripSet)
    requires |s| > 0 ==> !Cuts(cut, s[0]) && !Cuts(cut, s[|s| - 1])
    ensures Strip(s, cut) == s
  {
  }

  /** Leading characters in `cut` are dropped by `TrimLeft`. */
  lemma TrimLeftPrefix(pre: string, s: string, cut: StripSet)
    requires forall i :: 0 <= i < |pre| ==> Cuts(cut, pre[i])
    ensures TrimLeft(pre + s, cut) == TrimLeft(s, cut)
    decreases |pre|
  {
    if |pre| > 0 {
      assert (pre + s)[1..] == pre[1..] + s;
      TrimLeftPrefix(pre[1..], s, cut);
    } else {
      assert pre + s == s;
    }
  }

  /** Trailing characters in `cut` are dropped by `TrimRight`. */
  lemma TrimRightSuffix(s: string, post: string, cut: StripSet)
    requires forall i :: 0 <= i < |post| ==> Cuts(cut, post[i])
    ensures TrimRight(s + post, cut) == TrimRight(s, cut)
    decreases |post|
  {
    if |post| > 0 {
      assert (s + post)[..|s + post| - 1] == s + post[..|post| - 1];
      TrimRightSuffix(s, post[..|post| - 1], cut);
    } else {
      assert s + post == s;
    }
  }

  /** Stripping keeps a prefix that ends in a character outside `cut`. */
  lemma TrimRightKeepsPrefix(a: string, b: string, cut: StripSet)
    requires |a| > 0 && !Cuts(cut, a[|a| - 1])
    ensures IsPrefixOf(a, TrimRight(a + b, cut))
    decreases |b|
  {
    if |b| > 0 && Cuts(cut, (a + b)[|a + b| - 1]) {
      assert (a + b)[..|a + b| - 1] == a + b[..|b| - 1];
      TrimRightKeepsPrefix(a, b[..|b| - 1], cut);
    } else if |b| == 0 {
      assert a + b == a;
    }
  }

  /** Stripping removes a wrapping made of `cut` characters around a string
      whose ends are not in `cut`. */
  lemma StripWrapped(pre: string, x: string, post: string, cut: StripSet)
    requires forall i :: 0 <= i < |pre| ==> Cuts(cut, pre[i])
    requires forall i :: 0 <= i < |post| ==> Cuts(cut, post[i])
    requires |x| > 0 && !Cuts(cut, x[0]) && !Cuts(cut, x[|x| - 1])
    ensures Strip(pre + x + post, cut) == x
  {
    assert pre + x + post == pre + (x + post);
    TrimLeftPrefix(pre, x + post, cut);
    assert TrimLeft(x + post, cut) == x + post;
    TrimRightSuffix(x, post, cut);
  }

  predicate IsPrefixOf(a: string, b: string) {
    |a| <= |b| && b[..|a|] == a
  }

  // ---------------------------------------------------------------- split and join

  /** `sep.join(parts)`. */
  function Join(parts: seq<string>, sep: string): string
    decreases |parts|
  {
    if |parts| == 0 then ""
    else if |parts| == 1 then parts[0]
    else parts[0] + sep + Join(parts[1..], sep)
  }

  predicate IsSuffixOf(a: string, b: string) {
    |a| <= |b| && b[|b| - |a|..] == a
  }

  /** Joining one more piece appends the separator and that piece. */
  lemma {:induction false} JoinAppend(parts: seq<string>, x: string, sep: string)
    requires |parts| >= 1
    ensures Join(parts + [x], sep) == Join(parts, sep) + sep + x
    decreases |parts|
  {
    if |parts| == 1 {
      assert (parts + [x])[1..] == [x];
    } else {
      assert (parts + [x])[1..] == parts[1..] + [x];
      JoinAppend(parts[1..], x, sep);
    }
  }

  /** A character found in no piece and not in the separator is not in the
      join. */
  lemma JoinNoChar(parts: seq<string>, sep: string, c: char)
    requires c !in sep
    requires forall k :: 0 <= k < |parts| ==> c !in parts[k]
    ensures c !in Join(parts, sep)
    decreases |parts|
  {
    if |parts| > 1 {
      JoinNoChar(parts[1..], sep, c);
    }
  }

  /** Text in front of the first piece stays in front of the join. */
  lemma JoinPrefixFirst(pre: string, parts: seq<string>, sep: string)
    requires |parts| >= 1
    ensures Join([pre + parts[0]] + parts[1..], sep) == pre + Join(parts, sep)
  {
    var parts' := [pre + parts[0]] + parts[1..];
    assert parts'[1..] == parts[1..];
  }

  /** A join starts with its first piece and ends with its last. */
  lemma JoinEnds(parts: seq<string>, sep: string)
    requires |parts| >= 1
    ensures IsPrefixOf(parts[0], Join(parts, sep))
    ensures IsSuffixOf(parts[|parts| - 1], Join(parts, sep))
  {
    var n := |parts|;
    if n > 1 {
      var rest := sep + Join(parts[1..], sep);
      assert Join(parts, sep) == parts[0] + rest;
      assert (parts[0] + rest)[..|parts[0]|] == parts[0];
      assert parts == parts[..n - 1] + [parts[n - 1]];
      JoinAppend(parts[..n - 1], parts[n - 1], sep);
      var init := Join(parts[..n - 1], sep) + sep;
      assert Join(parts, sep) == init + parts[n - 1];
      assert (init + parts[n - 1])[|init|..] == parts[n - 1];
    }
  }

  /** `s.split(sep)` for a one-character separator: always at least one
      piece, and no piece holds the separator. */
  function Split(s: string, sep: char): (r: seq<string>)
    ensures |r| >= 1
    ensures forall k :: 0 <= k < |r| ==> sep !in r[k]
    decreases |s|
  {
    if |s| == 0 then [""]
    else if s[0] == sep then [""] + Split(s[1..], sep)
    else
      var rest := Split(s[1..], sep);
      [[s[0]] + rest[0]] + rest[1..]
  }

  /** Splitting and re-joining on the same separator gives the input back. */
  lemma {:induction false} JoinSplit(s: string, sep: char)
    ensures Join(Split(s, sep), [sep]) == s
    decreases |s|
  {
    if |s| == 0 {
    } else if s[0] == sep {
      JoinSplit(s[1..], sep);
      var rest := Split(s[1..], sep);
      assert ([""] + rest)[1..] == rest;
      assert s == [sep] + s[1..];
    } else {
      JoinSplit(s[1..], sep);
      var rest := Split(s[1..], sep);
      var r := [[s[0]] + rest[0]] + rest[1..];
      assert r[1..] == rest[1..];
      if |rest| == 1 {
        assert s == [s[0]] + s[1..];
      } else {
        assert Join(rest, [sep]) == rest[0] + [sep] + Join(rest[1..], [sep]);
        assert s == [s[0]] + s[1..];
      }
    }
  }

  /** Joining separator-free pieces and splitting again gives the pieces back. */
  lemma {:induction false} SplitJoin(parts: seq<string>, sep: char)
    requires |parts| >= 1
    requires forall k :: 0 <= k < |parts| ==> sep !in parts[k]
    ensures Split(Join(parts, [sep]), sep) == parts
    decreases |parts|, |parts[0]|
  {
    var p := parts[0];
    if |p| == 0 {
      if |parts| == 1 {
      } else {
        SplitJoin(parts[1..], sep);
        var s := Join(parts, [sep]);
        assert s == [sep] + Join(parts[1..], [sep]);
        assert s[1..] == Join(parts[1..], [sep]);
        assert [""] + parts[1..] == parts;
      }
    } else {
      var parts' := [p[1..]] + parts[1..];
      assert parts'[1..] == parts[1..];
      SplitJoin(parts', sep);
      var s := Join(parts, [sep]);
      var s' := Join(parts', [sep]);
      if |parts| == 1 {
        assert s == p && s' == p[1..];
      } else {
        assert s == p + [sep] + Join(parts[1..], [sep]);
        assert s' == p[1..] + [sep] + Join(parts[1..], [sep]);
      }
      assert s[0] == p[0] && s[1..] == s';
      assert p == [p[0]] + p[1..];
    }
  }

  /** The longest prefix of `s` holding no whitespace. */
  function TakeWord(s: string): (w: string)
    ensures IsPrefixOf(w, s)
    ensures forall i :: 0 <= i < |w| ==> !IsSpace(w[i])
    ensures |w| < |s| ==> IsSpace(s[|w|])
    decreases |s|
  {
    if |s| == 0 || IsSpace(s[0]) then "" else [s[0]] + TakeWord(s[1..])
  }

  predicate IsWord(w: string) {
    |w| > 0 && forall i :: 0 <= i < |w| ==> !IsSpace(w[i])
  }

  /** `s.lstrip()`, written for whitespace alone. */
  function DropSpace(s: string): (r: string)
    ensures |r| <= |s| && r == s[|s| - |r|..]
    ensures |r| > 0 ==> !IsSpace(r[0])
    decreases |s|
  {
    if |s| > 0 && IsSpace(s[0]) then
      var r := DropSpace(s[1..]);
      assert s[1..][|s| - 1 - |r|..] == s[|s| - |r|..];
      r
    else s
  }

  /** `s.split()` with no argument: the maximal runs of non-whitespace. */
  function Words(s: string): (r: seq<string>)
    ensures forall k :: 0 <= k < |r| ==> IsWord(r[k])
    decreases |s|
  {
    var t := DropSpace(s);
    if |t| == 0 then []
    else
      var w := TakeWord(t);
      assert IsWord(w) by { assert !IsSpace(t[0]); }
      var rest := Words(t[|w|..]);
      WordsCons(w, rest);
      [w] + rest
  }

  lemma WordsCons(w: string, rest: seq<string>)
    requires IsWord(w)
    requires forall k :: 0 <= k < |rest| ==> IsWord(rest[k])
    ensures forall k :: 0 <= k < |[w] + rest| ==> IsWord(([w] + rest)[k])
  {
    forall k | 0 <= k < |[w] + rest|
      ensures IsWord(([w] + rest)[k])
    {
      if k > 0 {
        assert ([w] + rest)[k] == rest[k - 1];
      }
    }
  }

  lemma TakeWordJoin(w: string, rest: string)
    requires IsWord(w)
    requires |rest| > 0 ==> IsSpace(rest[0])
    ensures TakeWord(w + rest) == w
    decreases |w|
  {
    if |w| == 1 {
      assert (w + rest)[1..] == rest;
    } else {
      assert (w + rest)[1..] == w[1..] + rest;
      TakeWordJoin(w[1..], rest);
      assert w == [w[0]] + w[1..];
    }
  }

  /** A space in front of a text does not change its words. */
  lemma WordsAfterSpace(j: string)
    ensures Words(" " + j) == Words(j)
  {
    assert (" " + j)[1..] == j;
    assert DropSpace(" " + j) == DropSpace(j);
  }

  /** A word followed by whitespace or nothing is the first word. */
  lemma WordsStep(w: string, rest: string)
    requires IsWord(w)
    requires |rest| > 0 ==> IsSpace(rest[0])
    ensures Words(w + rest) == [w] + Words(rest)
  {
    var s := w + rest;
    assert s[0] == w[0];
    assert DropSpace(s) == s;
    TakeWordJoin(w, rest);
    assert s[|w|..] == rest;
  }

  /** Words separated by single spaces split back into the same words. */
  lemma {:induction false} WordsJoin(ws: seq<string>)
    requires forall k :: 0 <= k < |ws| ==> IsWord(ws[k])
    ensures Words(Join(ws, " ")) == ws
    decreases |ws|
  {
    if |ws| == 0 {
      assert Words("") == [];
    } else if |ws| == 1 {
      var w := ws[0];
      WordsStep(w, "");
      assert w + "" == w;
      assert Words("") == [];
      assert Join(ws, " ") == w;
      assert ws == [w];
    } else {
      WordsJoin(ws[1..]);
      WordsJoinStep(ws);
    }
  }

  /** The step of `WordsJoin`: the first word followed by the words of the
      rest. */
  lemma WordsJoinStep(ws: seq<string>)
    requires |ws| > 1 && IsWord(ws[0])
    requires Words(Join(ws[1..], " ")) == ws[1..]
    ensures Words(Join(ws, " ")) == ws
  {
    var tail := ws[1..];
    JoinCons(ws, " ");
    WordThenWords(ws[0], Join(tail, " "), tail);
    assert ws == [ws[0]] + tail;
  }

  /** A join of two or more pieces is the first piece, the separator and
      the join of the rest. */
  lemma JoinCons(parts: seq<string>, sep: string)
    requires |parts| > 1
    ensures Join(parts, sep) == parts[0] + (sep + Join(parts[1..], sep))
  {
  }

  /** A word, a space and a text split into that word and the text's
      words. */
  lemma WordThenWords(w: string, j: string, tail: seq<string>)
    requires IsWord(w)
    requires Words(j) == tail
    ensures Words(w + (" " + j)) == [w] + tail
  {
    WordsStep(w, " " + j);
    WordsAfterSpace(j);
  }

  // ---------------------------------------------------------------- replace

  /** `s.replace(pat, rep)` for a non-empty pattern: occurrences are
      replaced left to right without overlap. */
  function Replace(s: string, pat: string, rep: string): string
    requires |pat| > 0
    decreases |s|
  {
    if |s| == 0 then ""
    else if pat <= s then rep + Replace(s[|pat|..], pat, rep)
    else [s[0]] + Replace(s[1..], pat, rep)
  }

  /** A string that does not hold the pattern's first character is unchanged. */
  lemma ReplaceAbsent(s: string, pat: string, rep: string)
    requires |pat| > 0 && pat[0] !in s
    ensures Replace(s, pat, rep) == s
    decreases |s|
  {
    if |s| > 0 {
      assert !(pat <= s);
      ReplaceAbsent(s[1..], pat, rep);
      assert s == [s[0]] + s[1..];
    }
  }

  lemma ReplaceAppend(a: string, b: string, pat: string, rep: string)
    requires |pat| > 0 && pat[0] !in a
    ensures Replace(a + b, pat, rep) == a + Replace(b, pat, rep)
    decreases |a|
  {
    if |a| > 0 {
      assert !(pat <= a + b);
      assert (a + b)[1..] == a[1..] + b;
      ReplaceAppend(a[1..], b, pat, rep);
      assert a == [a[0]] + a[1..];
    } else {
      assert a + b == b;
    }
  }

  lemma ReplaceLead(b: string, pat: string, rep: string)
    requires |pat| > 0
    ensures Replace(pat + b, pat, rep) == rep + Replace(b, pat, rep)
  {
    assert pat <= pat + b;
    assert (pat + b)[|pat|..] == b;
  }

  /** Python's `c in s` for a single character. */
  function CountChar(s: string, c: char): (n: nat)
    ensures n <= |s|
    ensures n == 0 <==> c !in s
  {
    if |s| == 0 then 0 else (if s[0] == c then 1 else 0) + CountChar(s[1..], c)
  }

  // ---------------------------------------------------------------- numbers

  function DigitChar(d: nat): char
    requires d < 10
  {
    ('0' as int + d) as char
  }

  /** Decimal rendering of a natural number, Python's `str(n)`. */
  function NatToString(n: nat): (r: string)
    ensures |r| >= 1
    ensures forall i :: 0 <= i < |r| ==> IsDigit(r[i])
    decreases n
  {
    if n < 10 then [DigitChar(n)] else NatToString(n / 10) + [DigitChar(n % 10)]
  }

  /** The value a string of decimal digits denotes. */
  function DigitsValue(s: string): nat
    requires forall i :: 0 <= i < |s| ==> IsDigit(s[i])
    decreases |s|
  {
    if |s| == 0 then 0
    else
      assert IsDigit(s[|s| - 1]);
      DigitsValue(s[..|s| - 1]) * 10 + (s[|s| - 1] as int - '0' as int)
  }

  lemma {:induction false} NatToStringValue(n: nat)
    ensures DigitsValue(NatToString(n)) == n
    decreases n
  {
    var r := NatToString(n);
    if n >= 10 {
      NatToStringValue(n / 10);
      assert r[..|r| - 1] == NatToString(n / 10);
    }
  }

  /** `f"{n:0{width}d}"`: zero-padded on the left to at least `width`. */
  function ZeroPad(n: nat, width: nat): (r: string)
    ensures |r| == if |NatToString(n)| >= width then |NatToString(n)| else width
    ensures forall i :: 0 <= i < |r| ==> IsDigit(r[i])
  {
    var d := NatToString(n);
    if |d| >= width then d else seq(width - |d|, _ => '0') + d
  }

  /** Leading zeros do not change the value the digits denote. */
  lemma LeadingZeros(z: string, s: string)
    requires forall i :: 0 <= i < |z| ==> z[i] == '0'
    requires forall i :: 0 <= i < |s| ==> IsDigit(s[i])
    ensures forall i :: 0 <= i < |z + s| ==> IsDigit((z + s)[i])
    ensures DigitsValue(z + s) == DigitsValue(s)
    decreases |s|
  {
    if |s| > 0 {
      assert (z + s)[..|z + s| - 1] == z + s[..|s| - 1];
      LeadingZeros(z, s[..|s| - 1]);
    } else {
      assert z + s == z;
      ZerosValue(z);
    }
  }

  function Pow10(k: nat): nat { if k == 0 then 1 else 10 * Pow10(k - 1) }

  lemma ZerosValue(z: string)
    requires forall i :: 0 <= i < |z| ==> z[i] == '0'
    ensures DigitsValue(z) == 0
    decreases |z|
  {
    if |z| > 0 {
      ZerosValue(z[..|z| - 1]);
    }
  }

  /** Zero padding does not change the value the digits denote. */
  lemma ZeroPadValue(n: nat, width: nat)
    ensures DigitsValue(ZeroPad(n, width)) == n
  {
    var d := NatToString(n);
    NatToStringValue(n);
    if |d| < width {
      var z := seq(width - |d|, _ => '0');
      LeadingZeros(z, d);
      ZerosValue(z);
    }
  }

  lemma NatToStringLength(n: nat, k: nat)
    requires n < Pow10(k) && k >= 1
    ensures |NatToString(n)| <= k
    decreases n
  {
    if n >= 10 {
      assert n / 10 < Pow10(k - 1);
      NatToStringLength(n / 10, k - 1);
    }
  }
}

=== FILE: ticket_store.dfy ===
/** The ticket server's in-memory store: two tables, incidents and service
    requests, keyed by ticket number. The clock, the random `sys_id` and
    Python's per-process `hash` of the title are parameters. */
module TicketStore {
  import opened Common
  import opened Text

  /** Ticket numbers are a prefix and this many digits. */
  const NumberDigits: nat := 6
  const NumberModulus: nat := 1000000

  datatype Incident = Incident(
    number: string, title: string, description: string,
    priority: string, urgency: string,
    assignmentGroup: string, callerId: string,
    state: string, createdOn: string, sysId: string, status: string,
    slaResponseTime: string)

  datatype ServiceRequest = ServiceRequest(
    number: string, title: string, description: string,
    priority: string,
    assignmentGroup: string, requestedBy: string, category: string,
    state: string, createdOn: string, sysId: string, status: string,
    estimatedCompletion: string)

  datatype Store = Store(incidents: map<string, Incident>, requests: map<string, ServiceRequest>)

  function EmptyStore(): Store { Store(map[], map[]) }

  // ---------------------------------------------------------------- the maps

  /** `{"critical": "1", "high": "2", "medium": "3", "low": "4"}.get(p.lower(), "3")`. */
  function PriorityCode(p: string): (r: string)
    ensures r in {"1", "2", "3", "4"}
    ensures Lower(p) == "critical" ==> r == "1"
    ensures Lower(p) == "high" ==> r == "2"
    ensures Lower(p) == "low" ==> r == "4"
    ensures Lower(p) !in {"critical", "high", "low"} ==> r == "3"
  {
    var k := Lower(p);
    if k == "critical" then "1" else if k == "high" then "2"
    else if k == "medium" then "3" else if k == "low" then "4" else "3"
  }

  /** The incident response-time promise. */
  function SlaResponseTime(p: string): (r: string)
    ensures Lower(p) == "critical" ==> r == "30 minutes"
    ensures Lower(p) == "high" ==> r == "4 hours"
    ensures Lower(p) == "low" ==> r == "72 hours"
    ensures Lower(p) !in {"critical", "high", "low"} ==> r == "24 hours"
  {
    var k := Lower(p);
    if k == "critical" then "30 minutes" else if k == "high" then "4 hours"
    else if k == "medium" then "24 hours" else if k == "low" then "72 hours" else "24 hours"
  }

  /** The service-request completion estimate. */
  function EstimatedCompletion(p: string): (r: string)
    ensures Lower(p) == "critical" ==> r == "4 hours"
    ensures Lower(p) == "high" ==> r == "24 hours"
    ensures Lower(p) == "low" ==> r == "5 days"
    ensures Lower(p) !in {"critical", "high", "low"} ==> r == "3 days"
  {
    var k := Lower(p);
    if k == "critical" then "4 hours" else if k == "high" then "24 hours"
    else if k == "medium" then "3 days" else if k == "low" then "5 days" else "3 days"
  }

  /** The four priorities, most severe first. */
  const Priorities: seq<string> := ["critical", "high", "medium", "low"]

  /** A more severe priority gets a more urgent code. */
  lemma PriorityCodeOrdered(i: nat, j: nat)
    requires i < j < |Priorities|
    ensures PriorityCode(Priorities[i])[0] < PriorityCode(Priorities[j])[0]
  {
  }

  /** The maps do not care about letter case. */
  lemma PriorityIgnoresCase(p: string, q: string)
    requires Lower(p) == Lower(q)
    ensures PriorityCode(p) == PriorityCode(q)
    ensures SlaResponseTime(p) == SlaResponseTime(q)
    ensures EstimatedCompletion(p) == EstimatedCompletion(q)
  {
  }

  // ---------------------------------------------------------------- numbers

  /** `f"{prefix}{hash % 1000000:06d}"`; Python's `%` by a positive modulus
      is never negative, as Dafny's is. */
  function TicketNumber(prefix: string, hash: int): (r: string)
    ensures |r| == |prefix| + NumberDigits
    ensures r[..|prefix|] == prefix
    ensures forall i :: |prefix| <= i < |r| ==> IsDigit(r[i])
  {
    var n: nat := hash % NumberModulus;
    assert Pow10(6) == NumberModulus;
    NatToStringLength(n, NumberDigits);
    prefix + ZeroPad(n, NumberDigits)
  }

  /** The digits of a ticket number read back as the hash modulo one
      million. */
  lemma TicketNumberDigits(prefix: string, hash: int)
    ensures DigitsValue(TicketNumber(prefix, hash)[|prefix|..]) == hash % NumberModulus
  {
    var n: nat := hash % NumberModulus;
    assert TicketNumber(prefix, hash)[|prefix|..] == ZeroPad(n, NumberDigits);
    ZeroPadValue(n, NumberDigits);
  }

  // ---------------------------------------------------------------- creating

  /** `create_incident_ticket`: the new store and the ticket it holds. */
  function CreateIncident(
    s: Store, title: string, description: string, priority: string, urgency: string,
    assignmentGroup: string, callerId: string,
    hash: int, now: string, uuid: string): (r: (Store, Incident))
    ensures var (s', t) := r;
            && IsPrefixOf("INC", t.number) && |t.number| == 9
            && t.number == TicketNumber("INC", hash)
            && s'.incidents == s.incidents[t.number := t]
            && s'.requests == s.requests
            && t.state == "New" && t.status == "created"
            && t.priority == PriorityCode(priority) && t.urgency == PriorityCode(urgency)
            && t.slaResponseTime == SlaResponseTime(priority)
  {
    var number := TicketNumber("INC", hash);
    var t := Incident(number, title, description, PriorityCode(priority), PriorityCode(urgency),
                      assignmentGroup, callerId, "New", now, uuid, "created", SlaResponseTime(priority));
    (s.(incidents := s.incidents[number := t]), t)
  }

  /** `create_service_request`. */
  function CreateServiceRequest(
    s: Store, title: string, description: string, priority: string,
    assignmentGroup: string, callerId: string, category: string,
    hash: int, now: string, uuid: string): (r: (Store, ServiceRequest))
    ensures var (s', t) := r;
            && IsPrefixOf("REQ", t.number) && |t.number| == 9
            && t.number == TicketNumber("REQ", hash)
            && s'.requests == s.requests[t.number := t]
            && s'.incidents == s.incidents
            && t.state == "Open" && t.status == "created"
            && t.priority == PriorityCode(priority)
            && t.estimatedCompletion == EstimatedCompletion(priority)
  {
    var number := TicketNumber("REQ", hash);
    var t := ServiceRequest(number, title, description, PriorityCode(priority),
                            assignmentGroup, callerId, category, "Open", now, uuid, "created",
                            EstimatedCompletion(priority));
    (s.(requests := s.requests[number := t]), t)
  }

  // ---------------------------------------------------------------- reading

  datatype StatusResult =
    | IncidentStatus(number: string, state: string, assignedTo: string, assignmentGroup: string,
                     createdOn: string, priority: string, title: string, lastUpdated: string, workNotes: string)
    | RequestStatus(number: string, state: string, assignmentGroup: string,
                    createdOn: string, priority: string, title: string, lastUpdated: string)
    | NotFound(error: string)
    | InvalidFormat(error: string)

  /** `get_ticket_status`: the number's prefix picks the table. */
  function GetTicketStatus(s: Store, number: string, now: string): (r: StatusResult)
    ensures r.IncidentStatus? <==> IsPrefixOf("INC", number) && number in s.incidents
    ensures r.RequestStatus? <==> IsPrefixOf("REQ", number) && number in s.requests
    ensures r.InvalidFormat? <==> !IsPrefixOf("INC", number) && !IsPrefixOf("REQ", number)
    ensures r.IncidentStatus? ==> r.state == s.incidents[number].state
    ensures r.RequestStatus? ==> r.state == s.requests[number].state
  {
    if IsPrefixOf("INC", number) then
      if number in s.incidents then
        var t := s.incidents[number];
        IncidentStatus(number, t.state, "John Smith", t.assignmentGroup, t.createdOn, t.priority,
                       t.title, now, "Investigation in progress")
      else NotFound("Incident " + number + " not found")
    else if IsPrefixOf("REQ", number) then
      if number in s.requests then
        var t := s.requests[number];
        RequestStatus(number, t.state, t.assignmentGroup, t.createdOn, t.priority, t.title, now)
      else NotFound("Service request " + number + " not found")
    else InvalidFormat("Invalid ticket number format: " + number)
  }

  /** A new incident is found by its number, in state `New`, whatever the
      service-request table holds. */
  lemma CreatedIncidentIsFound(
    s: Store, title: string, description: string, priority: string, urgency: string,
    assignmentGroup: string, callerId: string, hash: int, now: string, uuid: string, later: string)
    ensures var (s', t) := CreateIncident(s, title, description, priority, urgency, assignmentGroup, callerId, hash, now, uuid);
            var st := GetTicketStatus(s', t.number, later);
            st.IncidentStatus? && st.state == "New" && st.priority == PriorityCode(priority)
  {
  }

  /** A new service request is found by its number, in state `Open`. */
  lemma CreatedRequestIsFound(
    s: Store, title: string, description: string, priority: string,
    assignmentGroup: string, callerId: string, category: string,
    hash: int, now: string, uuid: string, later: string)
    ensures var (s', t) := CreateServiceRequest(s, title, description, priority, assignmentGroup, callerId, category, hash, now, uuid);
            var st := GetTicketStatus(s', t.number, later);
            st.RequestStatus? && st.state == "Open"
  {
  }

  datatype SpecificTicket = FoundIncident(incident: Incident) | FoundRequest(request: ServiceRequest) | Missing(error: string)

  /** `get_specific_ticket`: incidents are looked at first. */
  function GetSpecificTicket(s: Store, number: string): (r: SpecificTicket)
    ensures number in s.incidents <==> r.FoundIncident?
    ensures r.FoundIncident? ==> r.incident == s.incidents[number]
    ensures r.FoundRequest? <==> number !in s.incidents && number in s.requests
    ensures r.FoundRequest? ==> r.request == s.requests[number]
  {
    if number in s.incidents then FoundIncident(s.incidents[number])
    else if number in s.requests then FoundRequest(s.requests[number])
    else Missing("Ticket " + number + " not found")
  }

  /** `total_tickets` of the listing and the health check. */
  function Total(s: Store): nat { |s.incidents| + |s.requests| }

  /** Creating an incident adds one ticket, unless its number was taken, in
      which case the old incident is replaced. */
  lemma CreateIncidentTotal(
    s: Store, title: string, description: string, priority: string, urgency: string,
    assignmentGroup: string, callerId: string, hash: int, now: string, uuid: string)
    ensures var (s', t) := CreateIncident(s, title, description, priority, urgency, assignmentGroup, callerId, hash, now, uuid);
            Total(s') == Total(s) + (if t.number in s.incidents then 0 else 1)
  {
    var (s', t) := CreateIncident(s, title, description, priority, urgency, assignmentGroup, callerId, hash, now, uuid);
    UpdateSize(s.incidents, t.number, t);
  }

  lemma UpdateSize<K, V>(m: map<K, V>, k: K, v: V)
    ensures |m[k := v]| == |m| + (if k in m then 0 else 1)
  {
    if k in m {
      assert m[k := v].Keys == m.Keys;
    } else {
      assert m[k := v].Keys == m.Keys + {k};
    }
  }

  /** Two incidents whose titles hash alike modulo one million share a
      number: the second overwrites the first. */
  lemma SameHashOverwrites(
    s: Store, t1: string, t2: string, d1: string, d2: string, p: string, u: string,
    g: string, c: string, h1: int, h2: int, now: string, id1: string, id2: string)
    requires h1 % NumberModulus == h2 % NumberModulus
    ensures var (s1, a) := CreateIncident(s, t1, d1, p, u, g, c, h1, now, id1);
            var (s2, b) := CreateIncident(s1, t2, d2, p, u, g, c, h2, now, id2);
            a.number == b.number && s2.incidents[a.number] == b && Total(s2) == Total(s1)
  {
    var (s1, a) := CreateIncident(s, t1, d1, p, u, g, c, h1, now, id1);
    var (s2, b) := CreateIncident(s1, t2, d2, p, u, g, c, h2, now, id2);
    assert s2.incidents.Keys == s1.incidents.Keys;
  }
}
